=== FILE: README.md ===
# smol-core-site page assembly, modelled in Dafny

This project models the page-assembly core of `smol-core-site`:

- **`buildPug`** (script/build.js), without its file and shell effects. It runs on a page that pug has already compiled to HTML. For every component type that occurs on the page it:
  - reads the attributes of each instance's opening tag;
  - merges each instance's data;
  - gives every instance a page-unique id and writes it onto the i-th `<name` of the page;
  - expands template components in place, filling their static slots from the instance's nested `<template>` blocks;
  - scopes the type's style per distinct compiled output;
  - collects the type's scripts, shared tags and public data.

  The page then receives its public-data script, style link, shared tags and script link.
- **The component cache** (`getComponent`).
- **The conversion of data objects for the style compiler** (`parseStylusObject`).
- **The build-configuration helpers**: default output paths, cleaning and sorting of file rules, and the directory data that a directory collects from the rules whose path is a leading part of its own.
- **The two webpack loaders** that apply the same slot rules to a Vue component's pug source:
  - script/loader.js substitutes each static `slot(…)` call;
  - script/static-slot-loader.js rewrites slot lines by indentation.

The modules follow the program's structure:

- `Wrappers`: `Option`, `Result` and the failures.
- `Text`: JavaScript string operations.
- `Values`: JavaScript values and ordered objects.
- `Pattern`: the regular expressions as matchers, with global-match semantics.
- `Attributes`: attribute extraction.
- `InstanceData`: the data merge.
- `Tokens`: ids and labels.
- `Tagging`: the id and label passes over `<name` occurrences.
- `Blocks`: slot blocks.
- `Expand`: instance expansion.
- `Styles`: style scoping.
- `Sorting`: the stable sort.
- `SharedTags`: shared tags.
- `BuildConfig`: the build configuration.
- `Registry`: the component cache.
- `SlotLoader` and `StaticSlotLoader`: the two loaders.
- `Page`: the page build.

The collaborators the build calls are parameters of the model. These are pug, stylus, webpack/babel/uglify, `camelCase`, `JSON.stringify` and a component's data hook and public-data function. The random token generator is an oracle: a sequence of draws. A redraw loop that would never end on a finite oracle returns the failure `OracleExhausted`. Each of the following points where the source throws a `TypeError` returns a `Failure`:

- more `<name` occurrences than instances;
- a missing opening tag;
- a Vue type with no closed instance;
- a component that cannot be loaded.

Three behaviours of the code are kept as written:

- **Stored styles persist across pages.** A component's `styles` start empty when it is loaded (script/build.js:58) and live on the cached component, so styles stored on one page carry over to later pages. Labels start empty for every page (script/build.js:184). The label/output correspondence is therefore stated for a page that starts with no stored styles (`Styles.LabelsMatchOutputs`). `Page.StyleType` carries the stored styles over.
- **A listed public-data key that the page lacks still publishes.** The assignment at script/build.js:251 creates the key with the value `undefined`, so the object has a key at script/build.js:253 and an entry is published (`Page.KeyListPublishes`).
- **A component type that cannot be loaded stops the build.** `getComponent` returns nothing for it (script/build.js:91), and reading its `def` at script/build.js:107 throws, so the build fails (`Failure.UnknownComponent`).

The one exception is the defect listed under Findings. The attribute reader (`Attributes.ParseAttributes`) reads a quoted value as the text between its quotes, where the code cuts the value at its first `=`. The code's reading is modelled beside it (`Attributes.PairValueAsWritten`, `Attributes.PairEntryAsWritten`). The two readings agree on every value without `=`.

## Model

| member | source | states |
|---|---|---|
| Wrappers.Collect | script/build.js:137-178 | Running the replace callbacks left to right succeeds exactly when every one succeeds, giving every value in order; otherwise the first callback that throws decides the failure, all earlier ones having succeeded |
| Text.SliceIndex | script/build.js:156 | `slice` index normalisation: an index in range is kept, a negative one counts back from the end, and the result always lies in the string |
| Text.IndexOf | script/build.js:261 | The first occurrence of a literal at or after a position: it occurs there, nowhere earlier, and `None` means it occurs nowhere |
| Text.IndexOfContains | script/build.js:88 | A literal is found exactly when the text contains it |
| Text.IndexOfChar | script/build.js:154 | `indexOf` of one character: -1 exactly when it is absent, otherwise its first position |
| Text.TrimEmptyIffBlank | script/build.js:159 | `trim()` gives the empty string exactly when every character is JavaScript white space |
| Text.TrimStartBlank | script/build.js:159 | Trimming the start empties a string exactly when it is blank, and otherwise leaves it starting with a non-space |
| Text.TrimEndEmpty | script/build.js:159 | Trimming the end of a string that starts with a non-space never empties it |
| Text.Indent | script/static-slot-loader.js:23 | `line.match(/^\s+/)` length: every character before it is white space and the one at it is not |
| Text.JoinSplit | script/build.js:26 | Joining the pieces of a split on the same separator gives the string back |
| Text.SplitPartsFree | script/build.js:26 | No piece of a split contains the separator |
| Text.SplitJoin | script/build.js:413-416 | Splitting a join of separator-free pieces gives the pieces back, for a separator that cannot overlap itself |
| Text.FirstOccurrenceAfter | script/build.js:126 | In `a + sep + b` with `a` free of the separator, the first occurrence is right after `a` |
| Text.SplitAtFirstGt | script/build.js:156 | A text ending in a closing tag is its part up to the first `>`, the slice up to the closing tag, and the closing tag; the slice is empty when they overlap |
| Text.WeaveJoin | script/build.js:126 | Re-inserting the separator itself between the pieces is joining them |
| Text.WeaveGraft | script/build.js:126-129 | Replacing the k-th separator by the separator plus a text is the same as prefixing that text to the (k+1)-th piece |
| Text.GraftSplit | script/build.js:126-129 | Splitting a replaced text at the separator gives the original pieces with each inserted text at the head of the piece after its separator |
| Text.ReplaceEachIdentity | script/build.js:126 | Replacing each occurrence by itself changes nothing |
| Text.NonEmpty | script/build.js:26 | `filter(item => item)`: exactly the non-empty pieces are kept |
| Text.NonEmptyFilters | script/build.js:26 | The filter keeps order and multiplicity: it works piece by piece over a concatenation, and keeps one piece exactly when it is non-empty |
| Text.SegmentsHaveNoSlash | script/build.js:413 | Path segments are non-empty and hold no `/` |
| Text.CleanPathSegments | script/build.js:26 | A cleaned path has the same segments as the original, and cleaning is idempotent |
| Values.Dedup | script/build.js:285 | `filter((x, i) => xs.indexOf(x) == i)`: no duplicates, the same members, each kept in order of its first occurrence |
| Values.DedupIdempotent | script/build.js:285 | Dropping duplicates twice drops nothing more |
| Values.DedupDistinct | script/build.js:285 | A list without duplicates is kept as it is |
| Values.Lookup | script/build.js:101 | A property read finds a value exactly when the key is one of the object's keys |
| Values.Put | script/build.js:101 | After an assignment the key holds the new value and every other key keeps its value |
| Values.PutKeys | script/build.js:101 | An assignment keeps the key order: an existing key stays in place, a new key goes last |
| Values.PutDistinct | script/build.js:101 | An assignment keeps an object's keys distinct |
| Values.PutAllLookup | script/build.js:98-102 | After a series of assignments a key holds its last assigned value, or its earlier value if it was never assigned |
| Values.PutAllDistinct | script/build.js:98-104 | A series of assignments keeps the keys distinct |
| Values.AssignAll | script/build.js:106 | Assigning pairs into data: a key assigned at least once holds its last assignment; any other key keeps its presence and value |
| Pattern.Scan | script/build.js:95 | Global matches lie in the text in order, without overlap |
| Pattern.ScanLeftmost | script/build.js:95 | The scan is leftmost: no match starts in the text between the matches it found |
| Pattern.ScanNoHit | script/build.js:88 | A text with no match anywhere has no matches |
| Pattern.ReplaceAllShape | script/build.js:137 | `replace(/re/g, fn)` is the unmatched text between matches interleaved with the callback's answers, and the text itself is that text interleaved with the matches |
| Pattern.RemoveAllUnmatched | script/build.js:158 | `replace(/re/g, '')` leaves exactly the text between the matches |
| Pattern.ReplaceFirstMatch | script/static-slot-loader.js:14 | A non-global replace changes only the first match: the text before and after it is kept, and without a match the text is unchanged |
| Pattern.ReplaceAllIdentity | script/build.js:205-207 | A callback that returns each match unchanged leaves the text unchanged |
| Pattern.ReplaceAllNoMatch | script/build.js:137 | Without matches a global replace leaves the text unchanged |
| Pattern.LazyUntil | script/build.js:95 | A lazy `.*?X` stops at the first `X` reachable without crossing a line terminator |
| Pattern.LazyUntilReaches | script/build.js:95 | If an `X` is reachable without a line terminator, the lazy match stops there or earlier |
| Pattern.QuotedValueEnd | script/build.js:98 | `=["'].+?["']`: the value opens and closes with a quote and holds at least one character; no quote after its first character comes before the closing one |
| Pattern.AttrOrShape | script/build.js:151-152 | `name[0].slice(6, -1)` on `slot="…"`: the value is the non-empty text between the quotes of the first such attribute, and the fallback when there is none |
| Attributes.ParseAttributes | script/build.js:97-104 | Keys are distinct; each bare name maps to `true`; any other name maps to the value of its last quoted pair |
| Attributes.PairShape | script/build.js:98 | A matched pair is `name=` then quote, value, quote, with a non-empty name free of spaces and `=`, and a value the corrected reading returns |
| Attributes.PairValueAsWrittenAgrees | script/build.js:100 | For a value without `=`, the source's `split('=')[1].slice(1, -1)` gives the value between the quotes |
| Attributes.PairValueSplit | script/build.js:100 | The source's reading returns the quoted text whenever neither name nor value holds `=` |
| Attributes.PairValueBetweenQuotes | script/build.js:99-100 | For any pair `n=` quote, value, quote with a name free of `=`, the name is `n` and the corrected reading is the whole value, even when it holds `=` |
| Attributes.PairEntryAsWritten | script/build.js:98-101 | For a pair whose value holds no `=`, the source's reading of the pair gives the same entry as the model's: the name and the quoted value |
| Attributes.PairValueAsWrittenCut | script/build.js:100 | When the value holds an `=`, the source's reading keeps only the value's text before its first `=`, less that text's last character, so it differs from the value |
| Attributes.PairValueCutAtEquals | script/build.js:98-100 | For `a="b=c"` the pair matches in full, yet the source's reading gives `""` where the value is `b=c` |
| InstanceData.Assignments | script/build.js:106 | One assignment per attribute, in order, under its camel-cased name, a bare name as `true` |
| InstanceData.WithAttributes | script/build.js:105-106 | Page data overridden by the attributes: the last assignment to a key wins, and keys not assigned keep the page's value |
| InstanceData.WithDefaults | script/build.js:107-111 | A prop default is added only for an absent key and only when it is not `undefined`; present keys are untouched |
| InstanceData.WithHook | script/build.js:112-115 | A truthy hook result replaces the whole data; otherwise the data is as the hook left it |
| InstanceData.MergePrecedence | script/build.js:105-111 | For each key: attribute first, then page data, then a defined prop default, and otherwise absent |
| InstanceData.HookOverrides | script/build.js:112-115 | A truthy hook result is the instance's data, whatever the attributes and defaults gave |
| InstanceData.SizeExample | script/build.js:105-111 | An attribute `size="lg"` beats a `size` default of `md`, which applies without the attribute |
| Tokens.AlphabetChars | script/build.js:117 | The alphabet has 36 characters, exactly `a-z0-9` |
| Tokens.Generate | script/build.js:117 | Every draw gives an 8-character token over `a-z0-9` |
| Tokens.GenerateOnto | script/build.js:117 | Every such token can be drawn |
| Tokens.DrawFresh | script/build.js:116-122 | The redraw loop fails exactly when every remaining draw collides, and otherwise yields a token not yet issued |
| Tokens.DrawFreshSkips | script/build.js:116-122 | The token is the first draw that does not collide, and the draws after it remain |
| Tokens.IssueMany | script/build.js:116-123 | Issuing n ids gives n distinct tokens, none of them already issued |
| Tokens.IssueKeepsDistinct | script/build.js:118-119 | Adding newly issued ids to distinct issued ids keeps all of them distinct |
| Tagging.MarkerSelfDelimiting | script/build.js:126 | `<name` cannot overlap itself when the name holds no `<` |
| Tagging.TagIds | script/build.js:125-129 | The id pass fails exactly when there are more `<name` occurrences than instances |
| Tagging.IdsFollowOccurrences | script/build.js:125-129 | After the id pass the piece after the k-th `<name` starts with the k-th instance's ` data-smol-id-…`, and the pieces are otherwise the original ones |
| Tagging.ReplaceNthPieces | script/build.js:204-209 | Rewriting only the i-th `<name` puts the text at the head of the piece after it and changes no other piece |
| Tagging.GraftOnlyAt | script/build.js:204-209 | Inserting text after only the i-th separator changes only the (i+1)-th piece |
| Tagging.LabelsFollowOccurrences | script/build.js:187-209 | After the label passes, the piece after the i-th `<name` starts with instance i's ` data-smol-<label>`, and the pieces are otherwise the original ones |
| Blocks.PositionOf | script/build.js:153-155 | `append` wins if the text mentions it; otherwise `prepend` if mentioned; otherwise replace |
| Blocks.ExtractBlocks | script/build.js:149-159 | One block per `<template>` in order, named by its `slot` attribute and placed by its opening tag, plus a `default` replace block for non-blank leftover markup |
| Blocks.Leftover | script/build.js:158 | The markup with the templates removed is exactly the text around them, in order |
| Blocks.FindBlock | script/build.js:164 | `find` by name: the first block with that name, and `None` exactly when no block has it |
| Blocks.TemplateShape | script/build.js:149 | A matched template starts with `<template` and ends with `</template>` |
| Blocks.TemplateBodyShape | script/build.js:156 | A template is its opening tag through the first `>`, the block body, and `</template>` |
| Blocks.TemplatesShape | script/loader.js:5 | Every extracted template starts with `<template` and ends with `</template>` |
| Expand.FillSlot | script/build.js:161-172 | The first block addressed to the placeholder decides: append gives fallback then body, prepend gives body then fallback, replace gives the body; with no block the fallback stays |
| Expand.FillSlots | script/build.js:161 | Every static placeholder is filled and the markup between placeholders is kept |
| Expand.FallbackShape | script/build.js:165 | A placeholder is its opening tag through the first `>`, its fallback, and `</slot>` |
| Expand.RootInnerShape | script/build.js:175 | `content.slice(content.indexOf(' '), -6)` keeps everything from the space after the root tag name up to a six-character closing tag |
| Expand.ExpandInstance | script/build.js:138-177 | An instance span fails exactly when it holds no opening tag, and the failure is the missing opening tag |
| Expand.ExpandInstanceMeaning | script/build.js:138-177 | An instance that is its opening tag followed by nested content, whose compiled template with slots filled from that content is a root element `tag rest</tag>`, becomes the opening tag without `>`, a space and `rest`: the instance's attributes followed by the root's attributes and content |
| Expand.OpeningTagAtStart | script/build.js:140 | In an instance span the opening tag found is at its start and ends at the first `>` after the name |
| Expand.OpenTagShape | script/build.js:140 | A span starting `<name` with a later `>` on the line has an opening tag that is a prefix ending at that first `>` |
| SlotLoader.Substitute | script/loader.js:14-18 | A static slot call becomes the body of the first block addressed to it, and is commented out with `//- ` when there is none |
| SlotLoader.Load | script/loader.js:3-21 | The loader's output is the source with each static slot call substituted and every other piece kept |
| SlotLoader.NoStaticUnchanged | script/loader.js:13 | A source that never mentions `static` comes out unchanged, dynamic slot calls included |
| SlotLoader.HitHasStatic | script/loader.js:13 | Whatever a static slot call matches contains `static` |
| StaticSlotLoader.Pad | script/static-slot-loader.js:34-36 | The padding is pairs of spaces, at least as long as the indent and at most one longer |
| StaticSlotLoader.RunLength | script/static-slot-loader.js:24-29 | The fallback run: the following lines indented deeper than the slot line, stopping at the first that is not and never taking the region's last line |
| StaticSlotLoader.FallbackLines | script/static-slot-loader.js:24-30 | The fallback lines are the run's lines, each with its first two characters removed |
| StaticSlotLoader.SlotLines | script/static-slot-loader.js:31-40 | The first block for the slot, padded to the slot's indent, goes after the fallback (append), before it (prepend), or replaces it; with no block the fallback lines remain |
| StaticSlotLoader.Splice | script/static-slot-loader.js:41 | The slot line and its run of indented lines are replaced by the new lines; the lines before and after are kept in place |
| StaticSlotLoader.StepSplices | script/static-slot-loader.js:18-41 | A pass at a line that is not a slot line changes nothing; at a slot line, that line and its indented run give way to the rewritten slot and everything after the run follows unchanged |
| StaticSlotLoader.StepKeepsEnds | script/static-slot-loader.js:16-41 | One pass of the loop keeps the lines before the current one and the last line |
| StaticSlotLoader.RewriteKeepsEnds | script/static-slot-loader.js:16-42 | The whole loop never changes the region's first line or its last line |
| StaticSlotLoader.NoSlotLinesUnchanged | script/static-slot-loader.js:18 | A region without slot lines comes out line for line as it went in |
| StaticSlotLoader.Load | script/static-slot-loader.js:14-46 | Only the first `<template>` region is rewritten; the text before and after it is kept, and a source without one is unchanged |
| Styles.ParseStylusObject | script/build.js:396-403 | The style object has distinct keys |
| Styles.ParseStylusObjectLookup | script/build.js:396-403 | Each key holds the conversion of its last truthy property; falsy properties are skipped and nested objects converted recursively |
| Styles.BindingsLastWriter | script/build.js:187-192 | With one compiler for all instances, a variable holds the binding from the last instance so far that defines it |
| Styles.BindingsUnbound | script/build.js:187-192 | A variable that no instance so far defines is not bound |
| Styles.Outputs | script/build.js:193 | One rendered output per instance |
| Styles.StepConsistent | script/build.js:194-203 | Handling one more instance keeps outputs, labels and given labels consistent |
| Styles.NewConsistent | script/build.js:194-203 | A new output stored with a freshly minted label keeps the correspondence |
| Styles.SeenConsistent | script/build.js:194 | An output already stored reuses its label |
| Styles.ScopeConsistent | script/build.js:187-210 | After all instances the stored outputs, labels and given labels correspond |
| Styles.AssignLabels | script/build.js:187-210 | Starting from no stored styles, the result is consistent with the outputs |
| Styles.LabelsMatchOutputs | script/build.js:187-210 | Two instances get the same label exactly when their outputs are equal; labels are distinct tokens, one per stored output, and the stored outputs are exactly the instances' outputs |
| Styles.ScopeSelectorsShape | script/build.js:211 | Every occurrence of the name in a style is rewritten to `name[data-smol-<label>]`, and nothing else changes |
| Styles.ScopedStyles | script/build.js:211 | The k-th stored style is scoped with the k-th label |
| Styles.InstanceStyleScoped | script/build.js:187-212 | Each instance's output is stored with the label the instance carries, and scoped with that label |
| Sorting.Insert | script/build.js:28 | Insertion adds exactly one element |
| Sorting.Sort | script/build.js:28 | The sort is a permutation |
| Sorting.InsertSorted | script/build.js:28 | Inserting into a sorted list keeps it sorted, for a strict weak order |
| Sorting.SortSorted | script/build.js:28 | The result is sorted, for a strict weak order |
| Sorting.InsertPeers | script/build.js:28 | Insertion puts an element after all its equals |
| Sorting.SortStable | script/build.js:28 | The sort is stable: elements that compare equal keep their relative order |
| SharedTags.ForMode | script/build.js:132 | Exactly the tags with no mode or the build's mode are kept |
| SharedTags.StrLtOrder | script/build.js:277 | The default string order of `sort()` is a strict weak order |
| SharedTags.StrLtTotal | script/build.js:277 | Any two different strings are ordered one way or the other |
| SharedTags.NatText | script/build.js:280 | A non-negative integer's text is non-empty and made of digits, as JavaScript prints integers below 1e21 |
| SharedTags.ListedKeys | script/build.js:277 | The keys other than `tagType`, each kept no more often than it occurs |
| SharedTags.RenderedKeysOrdered | script/build.js:276-282 | The keys written are sorted, each once, and are exactly the tag's keys other than `tagType` |
| SharedTags.AttrTexts | script/build.js:278-281 | A boolean value is written as the bare key, and any other value as `key="value"` |
| SharedTags.RenderAll | script/build.js:276-284 | One rendered tag per shared tag, in order |
| SharedTags.Scripts | script/build.js:287 | Exactly the tags that mention `<script` |
| SharedTags.NonScripts | script/build.js:286 | Exactly the tags that do not mention `<script` |
| SharedTags.SplitCounts | script/build.js:286-287 | Every tag goes to exactly one of head and body |
| SharedTags.InsertBefore | script/build.js:288-289 | The text goes right before the first occurrence of the marker, and the page is unchanged without one |
| SharedTags.PlaceNoTags | script/build.js:288-289 | A page without shared tags is unchanged |
| BuildConfig.WithDefaults | script/build.js:19-21 | Missing output paths get defaults; given ones are kept |
| BuildConfig.CleanRule | script/build.js:26 | The `src` loses its empty segments, keeps its segments, and is clean; the data is untouched |
| BuildConfig.BeforeMeans | script/build.js:28-36 | A rule comes first exactly when it has a `src` and the other has none or a longer one; the comparator gives 0 exactly for equivalent rules |
| BuildConfig.BeforeOrder | script/build.js:28-36 | The comparator is a strict weak order |
| BuildConfig.CleanAll | script/build.js:25-27 | Every rule is cleaned, in place |
| BuildConfig.PrepareOrders | script/build.js:24-36 | The prepared rules are the cleaned ones rearranged: rules with a `src` first, by ascending length, and equal rules keep their order |
| BuildConfig.PreparedClean | script/build.js:26 | Every prepared rule's `src` is clean |
| BuildConfig.PreparedOrdered | script/build.js:28-36 | After preparation a rule with a `src` is at least as long as every rule before it |
| BuildConfig.DataUpTo | script/build.js:414-417 | `Object.assign` in rule order: a key no applying rule defines is absent, and a key holds the value of the last applying rule that defines it |
| BuildConfig.AppliesIffPrefix | script/build.js:413-416 | A rule applies to a directory exactly when its segments are a leading part of the directory's segments |
| BuildConfig.JoinInjective | script/build.js:416 | Joined segment lists are equal only when the lists are |
| BuildConfig.ShorterPathFewerSegments | script/build.js:416 | Of two clean rule paths that both lead to a directory, the shorter is a leading part of the longer |
| BuildConfig.LastIsMostSpecific | script/build.js:412-418 | In length order, the last applying rule that defines a key is the most specific applying rule that defines it |
| BuildConfig.MostSpecificWins | script/build.js:24-36 | After cleaning and sorting, directory data holds each key's value from the most specific applying rule |
| BuildConfig.KeptValue | script/build.js:414-417 | The last applying rule that defines a key decides its value |
| Registry.Names | script/build.js:49-51 | The discovered names are distinct and are exactly the directories of the roots |
| Registry.EmptyCache | script/build.js:50 | Every discovered name starts unloaded |
| Registry.FirstRoot | script/build.js:56-61 | The component is taken from the first root that has it, and `None` means no root has it |
| Registry.GetComponent | script/build.js:54-65 | A loaded component is returned from the cache unchanged; otherwise it is loaded from the first root with no stored styles and a default empty script, or not found |
| Registry.LoadedOnce | script/build.js:55 | Once loaded, a component is returned again without loading |
| Page.Ids | script/build.js:123 | The ids of the instances, in order |
| Page.MakeInstances | script/build.js:93-124 | One instance per opening tag, with ids from the redraw loop and the merged data of its own tag |
| Page.ExpandEach | script/build.js:137-178 | On success each span is expanded with its own instance; a failure is a span's own failure, or a missing instance when there are more spans than instances |
| Page.ExpandEachPieces | script/build.js:137-178 | Each span is expanded with its own instance's compiled template, and with enough instances the only failure is a missing opening tag |
| Page.ExpandAll | script/build.js:135-179 | The expanded page is the text between instance spans interleaved with the expansions, and a page without spans is unchanged |
| Page.StyleType | script/build.js:181-213 | The page receives the display rule and then the styles now stored on the component, which differs from before only in its styles; a type without a style changes nothing else; with a style it fails exactly when label assignment fails |
| Page.VueScripts | script/build.js:219-234 | One mount script per instance span, with the instance's id and the span's markup after its opening tag; more spans than instances fails |
| Page.ScriptType | script/build.js:215-245 | A `.vue` script gives one mount script per closed span plus the Vue runtime tag, and fails when no span is closed; any other type adds no tag and one script exactly when it has a script file |
| Page.PublicEntry | script/build.js:247-254 | An entry is published exactly when the public data object has a key |
| Page.KeyListPublishes | script/build.js:250-253 | A listed key is in the public data even when the page lacks it, so a non-empty key list always publishes |
| Page.StepType | script/build.js:86-256 | A type absent from the page changes nothing; otherwise the page ids grow by the newly issued ids, the display rule is appended, and the component is cached |
| Page.RenderType | script/build.js:125-255 | The instances' ids are added to the page ids in order, the display rule follows the earlier styles, and the component is kept with its definition |
| Page.RenderTypeAppends | script/build.js:125-255 | What one type adds: the display rule and the scoped styles, which are also the cached component's styles; the scripts of the cached component; a public entry exactly when the public object has keys; the type's shared tags for the mode, then the Vue runtime for a Vue type |
| Page.Finish | script/build.js:258-298 | A style file exactly when some page style is non-empty, holding the joined styles; a script file exactly when some page script is non-empty, holding the built joined scripts; a page with nothing to add is unchanged |
| Page.PageIdsDistinct | script/build.js:116-122 | All ids issued on a page are distinct 8-character tokens |
| Page.StepKeepsIds | script/build.js:116-123 | One type keeps the page ids distinct tokens |
| Page.FreshExtension | script/build.js:118-119 | Extending distinct ids with distinct fresh ones keeps them distinct |
| Page.NoComponentsUnchanged | script/build.js:88 | A page without any component occurrence passes through the type loop unchanged |
| Page.PlainPage | script/build.js:68-303 | A page without components is written as compiled, with no style or script file, and cache and draws untouched |

## Left out

- Pug compilation, stylus rendering, and the babel/uglify/webpack pipeline (`buildScript`, script/build.js:306-393) are foreign libraries. They are the functions `compile`, `render`, `bundle`, `vueBundle` and `minify` of `Page.Env`.
- `smol.string.camelCase` and `JSON.stringify` are foreign functions. They are the functions `camel` and `json` of `Page.Env`.
- The random generator is an oracle sequence of draws. Randomness itself is not modelled.
- File and shell effects are parameters or are dropped:
  - reading templates, styles and scripts (the read texts are fields of `Registry.Def`);
  - `mkdir`, `rm` and the `_a`/`_b` scratch files;
  - writing the page;
  - the walk over directories in `handleDir`.
- The output name and `hrefPath` (script/build.js:264-266) are parameters of `Page.Finish`, because they are derived from output paths.
- The per-file rule lookup in `handleDir` (script/build.js:431-436) lies outside the modelled lines.
- The mount stub script/vue.js is only used through `vueBundle`.
- `await` on the data hook and on the public-data function adds nothing in a sequential model.
- Component names are taken to be literal in `new RegExp(...)`. Names with regular-expression metacharacters are not modelled.
- Replacement strings are inserted literally. The `$`-patterns of `String.prototype.replace` are not modelled.
- Strings are sequences of Unicode scalar values. `sort()` compares UTF-16 code units, so the order of characters outside the Basic Multilingual Plane differs. Likewise, the rule comparator at script/build.js:33-34 compares `src.length` in UTF-16 units, while `BuildConfig.Compare` compares the number of scalar values. A `src` holding a character outside the Basic Multilingual Plane can therefore sort differently in `BuildConfig.Prepare`.
- Objects keep insertion order. The JavaScript rule that lists integer-like keys first, and the special key `length`, are not modelled.
- A data hook is modelled as returning data or a falsy value. A truthy non-object result is not modelled.
- Data is immutable in the model: the data hook and the public-data function are pure functions of the data they are given. In the source, the instance data is a shallow copy of the page data (script/build.js:105), and the public-data function receives the page data itself (script/build.js:252). Changes these collaborators make to nested objects of the page data would reach later instances, later types and later pages. That sharing is not modelled; `InstanceData.HookOutcome` models only the hook's top-level changes to its copy.
- Three `TypeError`s of the source cannot arise in the model, because its types rule out the input that causes them:
  - a public-data function returning `undefined` or `null`, which makes `Object.keys(publicData)` throw (script/build.js:252-253); `Registry.PublicData.Producer` always returns an object;
  - a prop declared as `null`, which makes reading its `default` throw (script/build.js:109); `Registry.Def.props` holds only the defaults;
  - a shared tag without `attributes`, which makes `Object.keys(tag.attributes)` throw (script/build.js:277); `SharedTags.TagDef` always has its attributes.
- `Array.prototype.sort` is modelled as a stable insertion sort. The engines the build runs on sort stably; the comparator's result is the same for any stable sort.
- Page.StepType: states the ids, the display rule and the cache. The page text is stated pass by pass by `Tagging.IdsFollowOccurrences`, `Page.ExpandAll`, `Tagging.LabelsFollowOccurrences` and `Styles.LabelsMatchOutputs`, not end to end.
- Page.Finish: states the style and script files and the case with nothing to add. The places of the inserted tags are stated by `SharedTags.InsertBefore` and `SharedTags.PlaceNoTags`, not for the whole page.
- Page.StyleType: states the display rule, the styles handed to the page and the untouched case. The labels and scoped styles are stated by `Styles.LabelsMatchOutputs` and `Styles.InstanceStyleScoped` for a page starting with no stored styles.
- Attributes.ParseAttributes: reads each quoted value as the text between its quotes, the corrected reading of script/build.js:100 (see Findings). The source's reading differs only for values holding `=`; `Attributes.PairEntryAsWritten` states where the two agree.
- `Values.Value` has no array case, and its numbers are integers. Arrays reach the modelled lines only through a template's data: the truthiness and recursion at script/build.js:190 and 399, and the comma join of a value in text at script/build.js:280. Fractional numbers and `NaN` are not modelled: they are falsy at 190, 399 and 402, and printed in text at 280. Numbers are unbounded integers, whereas a JavaScript number is a double. Integers beyond 2^53 are not exact in the source. From 1e21 on, the source prints integers in exponent form (`1e+21`), where `SharedTags.NatText` gives all the digits.
- Styles.AssignLabels: the correspondence is stated for a type with no stored styles from earlier pages. Stored styles carry over from earlier pages (script/build.js:58), while labels start empty on every page (script/build.js:184), so a style stored on an earlier page indexes past the page's labels and is given `undefined` (`Styles.LabelAt`).

## Findings

| source | as written | input that shows it | evidently intended | confidence | as-written member | corrected member |
|---|---|---|---|---|---|---|
| script/build.js:100 | `attribute.split('=')[1].slice(1, -1)` cuts the matched pair at every `=`, so a quoted value that contains `=` is read as its text before the first `=`, less one more character | the tag `<x a="b=c">`: the pair `a="b=c"` matches in full, but the value read is `""` | the text between the quotes, `b=c` | high (not executed) | Attributes.PairValueAsWrittenCut | Attributes.PairValueBetweenQuotes |

=== FILE: attributes.dfy ===
/** Attribute extraction from a component's opening tag (script/build.js, lines 95-104). */
module Attributes {
  import opened Wrappers
  import opened Text
  import opened Pattern
  import opened Values

  /** A quoted attribute keeps its text; a bare attribute name stands for `true`. */
  datatype AttrValue = Quoted(text: string) | Flag

  /** `tag.slice(name.length + 1)`: the opening tag after `<name`. */
  function AfterName(tag: string, name: string): string {
    Slice(tag, |name| + 1, |tag|)
  }

  /** The quoted pairs of the tag, left to right. */
  function PairTexts(tag: string, name: string): seq<string> {
    Matches(QuotedPair(), AfterName(tag, name))
  }

  /** The bare names left once the quoted pairs are removed from the tag. */
  function FlagNames(tag: string, name: string): seq<string> {
    Matches(BareToken(), RemoveAll(QuotedPair(), AfterName(tag, name)))
  }

  /** `attribute.split('=')[0]`. */
  function PairName(pair: string): string {
    Split(pair, "=")[0]
  }

  /** `attribute.split('=')[1].slice(1, -1)`, as the source computes the value: the text after the
      first `=` is cut again at the next `=`, so a value containing `=` loses its tail. */
  function PairValueAsWritten(pair: string): string {
    var parts := Split(pair, "=");
    if |parts| > 1 then Slice(parts[1], 1, -1) else ""
  }

  /** The value between the quotes of a pair: what the extraction evidently intends. */
  function PairValue(pair: string): string {
    Slice(pair, |PairName(pair)| + 2, -1)
  }

  function PairEntries(tag: string, name: string): Entries<AttrValue> {
    var pairs := PairTexts(tag, name);
    seq(|pairs|, i requires 0 <= i < |pairs| => (PairName(pairs[i]), Quoted(PairValue(pairs[i]))))
  }

  function FlagEntries(tag: string, name: string): Entries<AttrValue> {
    var flags := FlagNames(tag, name);
    seq(|flags|, i requires 0 <= i < |flags| => (flags[i], Flag))
  }

  /** The attributes of one opening tag `<name …>`: pairs first, then bare names, each written
      into an object so that a later assignment to the same name wins. */
  function ParseAttributes(tag: string, name: string): (attrs: Entries<AttrValue>)
    ensures DistinctKeys(attrs)
    ensures forall k :: k in FlagNames(tag, name) ==> Lookup(attrs, k) == Some(Flag)
    ensures forall k :: k !in FlagNames(tag, name) ==> Lookup(attrs, k) == Last(PairEntries(tag, name), k)
  {
    var named := PutAll([], PairEntries(tag, name));
    var attrs := PutAll(named, FlagEntries(tag, name));
    assert DistinctKeys(attrs) by {
      PutAllDistinct([], PairEntries(tag, name));
      PutAllDistinct(named, FlagEntries(tag, name));
    }
    assert forall k :: Lookup(attrs, k) == (if k in FlagNames(tag, name) then Some(Flag) else Last(PairEntries(tag, name), k)) by {
      forall k ensures Lookup(attrs, k) == (if k in FlagNames(tag, name) then Some(Flag) else Last(PairEntries(tag, name), k)) {
        PutAllLookup([], PairEntries(tag, name), k);
        PutAllLookup(named, FlagEntries(tag, name), k);
        LastFlag(FlagNames(tag, name), k);
      }
    }
    attrs
  }

  lemma {:induction false} LastFlag(flags: seq<string>, k: string)
    ensures var e := seq(|flags|, i requires 0 <= i < |flags| => (flags[i], Flag));
      Last(e, k) == (if k in flags then Some(Flag) else None)
    decreases |flags|
  {
    var e := seq(|flags|, i requires 0 <= i < |flags| => (flags[i], Flag));
    if |flags| > 0 {
      var init := flags[..|flags| - 1];
      LastFlag(init, k);
      assert e[..|e| - 1] == seq(|init|, i requires 0 <= i < |init| => (init[i], Flag));
      assert flags == init + [flags[|flags| - 1]];
    }
  }

  /** The shape of a quoted pair `n="v"`: a name without spaces or `=`, an `=`, a quote, a
      non-empty value whose later characters are not quotes, and a closing quote. */
  predicate PairForm(t: string) {
    var n := PairName(t);
    && n != "" && ' ' !in n && '=' !in n
    && |n| + 3 < |t|
    && t == n + "=" + [t[|n| + 1]] + PairValue(t) + [t[|t| - 1]]
    && IsQuote(t[|n| + 1]) && IsQuote(t[|t| - 1])
    && forall i :: 0 < i < |PairValue(t)| ==> !IsQuote(PairValue(t)[i])
  }

  /** A pair text whose first `=` is at `j` has the name before it and the value between the quotes. */
  lemma PairParts(t: string, j: nat)
    requires 0 < j && j + 3 < |t| && t[j] == '='
    requires forall i :: 0 <= i < j ==> t[i] != ' ' && t[i] != '='
    requires IsQuote(t[j + 1]) && IsQuote(t[|t| - 1])
    requires forall i :: j + 3 <= i < |t| - 1 ==> !IsQuote(t[i])
    ensures PairName(t) == t[..j] && PairValue(t) == t[j + 2..|t| - 1]
    ensures PairForm(t)
  {
    var n := t[..j];
    assert '=' !in n by {
      forall i | 0 <= i < j ensures n[i] != '=' { assert n[i] == t[i]; }
    }
    assert t == n + "=" + [t[j + 1]] + t[j + 2..|t| - 1] + [t[|t| - 1]];
    PairValueBetweenQuotes(n, t[j + 1], t[j + 2..|t| - 1], t[|t| - 1]);
  }

  /** Every match of the pair expression has the shape of a quoted pair. */
  lemma PairShape(s: string, p: nat)
    requires Hit(QuotedPair(), s, p)
    ensures PairForm(s[p..QuotedPair()(s, p).value])
  {
    var e := QuotedPair()(s, p).value;
    var r := LazyUntil(s, p, [" ", "="], true);
    assert r.Some?;
    var k := r.value;
    assert k > p && s[k] == '=' && QuotedValueEnd(s, k) == Some(e);
    PairAt(s, p, k, e);
  }

  lemma PairAt(s: string, p: nat, k: nat, e: nat)
    requires p < k < e <= |s| && s[k] == '='
    requires forall q :: p <= q < k ==> !StartsAny(s, q, [" ", "="])
    requires QuotedValueEnd(s, k) == Some(e)
    ensures PairForm(s[p..e])
  {
    var t := s[p..e];
    forall q | p <= q < k ensures s[q] != ' ' && s[q] != '=' {
      StartsAnyPair(s, q, " ", "=");
      StartsAtChar(s, q, ' ');
      StartsAtChar(s, q, '=');
    }
    var j := k - p;
    assert t[j] == '=' && IsQuote(t[j + 1]) && IsQuote(t[|t| - 1]);
    forall i | 0 <= i < j ensures t[i] != ' ' && t[i] != '=' {
      assert t[i] == s[p + i];
    }
    forall i | j + 3 <= i < |t| - 1 ensures !IsQuote(t[i]) {
      assert t[i] == s[p + i];
    }
    PairParts(t, j);
  }

  /** On a tag, the entry of a pair whose value holds no `=` is what the source's own reading gives:
      the corrected reading changes only values that hold `=`. */
  lemma PairEntryAsWritten(tag: string, name: string, i: nat)
    requires i < |PairTexts(tag, name)|
    requires '=' !in PairValue(PairTexts(tag, name)[i])
    ensures var t := PairTexts(tag, name)[i];
      PairEntries(tag, name)[i] == (PairName(t), Quoted(PairValueAsWritten(t)))
  {
    var s := AfterName(tag, name);
    var sp := Scan(QuotedPair(), s, 0)[i];
    assert PairTexts(tag, name)[i] == s[sp.start..sp.end];
    assert Hit(QuotedPair(), s, sp.start) && QuotedPair()(s, sp.start).value == sp.end;
    PairValueAsWrittenAgrees(s, sp.start);
  }

  /** The source's value agrees with the text between the quotes whenever that text has no `=`. */
  lemma PairValueAsWrittenAgrees(s: string, p: nat)
    requires Hit(QuotedPair(), s, p)
    requires '=' !in PairValue(s[p..QuotedPair()(s, p).value])
    ensures var t := s[p..QuotedPair()(s, p).value]; PairValueAsWritten(t) == PairValue(t)
  {
    var t := s[p..QuotedPair()(s, p).value];
    PairShape(s, p);
    assert '=' !in PairName(t);
    PairValueSplit(t, PairName(t), t[|PairName(t)| + 1], PairValue(t), t[|t| - 1]);
  }

  lemma PairValueSplit(t: string, n: string, q: char, v: string, q': char)
    requires t == n + "=" + [q] + v + [q']
    requires '=' !in n && '=' !in v && q != '=' && q' != '='
    ensures PairValueAsWritten(t) == v
  {
    var rest := [q] + v + [q'];
    assert '=' !in rest;
    IndexOfSingleAbsent(rest, '=');
    assert Split(rest, "=") == [rest];
    IndexOfSingle(t, '=', |n|);
    assert t[|n| + 1..] == rest;
    assert Split(t, "=") == [t[..|n|]] + Split(rest, "=");
    assert Slice(rest, 1, -1) == rest[1..|rest| - 1] == v;
  }

  /** `a="b=c"`: the source reads the value as the empty string; the text between the quotes is `b=c`. */
  lemma PairValueCutAtEquals()
    ensures QuotedPair()("a=\"b=c\"", 0) == Some(7)
    ensures PairValueAsWritten("a=\"b=c\"") == ""
    ensures PairValue("a=\"b=c\"") == "b=c"
  {
    var s := "a=\"b=c\"";
    ExampleName();
    ExampleValue();
    IndexOfSingle(s, '=', 1);
    var rest := s[2..];
    assert rest == "\"b=c\"";
    IndexOfSingle(rest, '=', 2);
    assert Split(s, "=")[1] == rest[..2];
    assert PairName(s) == "a";
  }

  /** The corrected reading returns the text between the quotes of any pair, `=` in it or not. */
  lemma PairValueBetweenQuotes(n: string, q: char, v: string, q': char)
    requires '=' !in n
    ensures var t := n + "=" + [q] + v + [q'];
      PairName(t) == n && PairValue(t) == v
  {
    var t := n + "=" + [q] + v + [q'];
    forall i | 0 <= i < |n| ensures t[i] != '=' {
      assert t[i] == n[i];
    }
    IndexOfSingle(t, '=', |n|);
    assert PairName(t) == t[..|n|] == n;
    assert t[|n| + 2..|t| - 1] == v;
  }

  /** The source's reading loses the value whenever the value holds an `=`: it keeps at most the
      text before that `=`, less its last character. */
  lemma PairValueAsWrittenCut(t: string, n: string, q: char, a: string, b: string, q': char)
    requires '=' !in n && '=' !in a && q != '='
    requires t == n + "=" + [q] + a + "=" + b + [q']
    ensures PairValueAsWritten(t) == Slice([q] + a, 1, -1)
    ensures PairValueAsWritten(t) != PairValue(t)
  {
    var head := [q] + a;
    assert |Split(t, "=")| > 1 && Split(t, "=")[1] == head by {
      assert t == n + "=" + (head + "=" + (b + [q']));
      SecondPiece(n, head, b + [q']);
    }
    assert PairValue(t) == a + "=" + b by {
      assert t == n + "=" + [q] + (a + "=" + b) + [q'];
      PairValueBetweenQuotes(n, q, a + "=" + b, q');
    }
    assert |Slice(head, 1, -1)| < |a + "=" + b|;
  }

  /** The second piece of a split at `=` is the text between the first two. */
  lemma SecondPiece(x: string, y: string, z: string)
    requires '=' !in x && '=' !in y
    ensures |Split(x + "=" + (y + "=" + z), "=")| > 1 && Split(x + "=" + (y + "=" + z), "=")[1] == y
  {
    SplitAtFirst(x, y + "=" + z);
    SplitAtFirst(y, z);
  }

  /** Splitting at `=` cuts first before the first `=`. */
  lemma SplitAtFirst(x: string, y: string)
    requires '=' !in x
    ensures Split(x + "=" + y, "=") == [x] + Split(y, "=")
  {
    var t := x + "=" + y;
    forall i | 0 <= i < |x| ensures t[i] != '=' {
      assert t[i] == x[i];
    }
    IndexOfSingle(t, '=', |x|);
    assert t[..|x|] == x && t[|x| + 1..] == y;
  }

  /** In the example, the name runs up to the first `=`. */
  lemma ExampleName()
    ensures LazyUntil("a=\"b=c\"", 0, [" ", "="], true) == Some(1)
  {
    var s := "a=\"b=c\"";
    var stops := [" ", "="];
    StartsAnyPair(s, 0, " ", "=");
    StartsAtChar(s, 0, ' ');
    StartsAtChar(s, 0, '=');
    StartsAnyPair(s, 1, " ", "=");
    StartsAtChar(s, 1, '=');
    assert LazyUntil(s, 1, stops, true) == Some(1);
  }

  /** In the example, the quoted value closes at the last character. */
  lemma ExampleValue()
    ensures QuotedValueEnd("a=\"b=c\"", 1) == Some(7)
  {
    var s := "a=\"b=c\"";
    assert Quotes == ["\"", "'"];
    StartsAnyPair(s, 6, "\"", "'");
    StartsAtChar(s, 6, '"');
    assert LazyUntil(s, 6, Quotes, false) == Some(6);
    StartsAnyPair(s, 5, "\"", "'");
    StartsAtChar(s, 5, '"');
    StartsAtChar(s, 5, '\'');
    assert LazyUntil(s, 5, Quotes, false) == Some(6);
    StartsAnyPair(s, 4, "\"", "'");
    StartsAtChar(s, 4, '"');
    StartsAtChar(s, 4, '\'');
    assert LazyUntil(s, 4, Quotes, false) == Some(6);
  }
}

=== FILE: blocks.dfy ===
/** Slot content blocks: the `<template>` pieces of an instance's nested markup, each addressed to a
    named slot, plus whatever non-blank markup is left over as the `default` block. The page build
    (script/build.js, lines 149-159) and both loaders (script/loader.js and
    script/static-slot-loader.js, lines 5-12) extract them the same way, differing only in where
    they look for the `prepend` and `append` words. */
module Blocks {
  import opened Wrappers
  import opened Text
  import opened Pattern

  /** Where a block's body goes relative to the slot's own fallback content. */
  datatype Position = Replace | Prepend | Append

  datatype Block = Block(name: string, position: Position, body: string)

  /** `append` wins over `prepend`; with neither word the block replaces the fallback. */
  function PositionOf(text: string): (pos: Position)
    ensures pos == Append <==> Contains(text, "append")
    ensures pos == Prepend <==> !Contains(text, "append") && Contains(text, "prepend")
  {
    if Contains(text, "append") then Append
    else if Contains(text, "prepend") then Prepend
    else Replace
  }

  /** The page build looks for the words in the opening `<template …` tag only. */
  function OpeningTagPosition(t: string): Position {
    PositionOf(Slice(t, 0, IndexOfChar(t, '>')))
  }

  /** The line-based loader looks for them anywhere in the template. */
  function TemplatePosition(t: string): Position {
    PositionOf(t)
  }

  /** The substituting loader has no positions: every block replaces. */
  function NoPosition(t: string): Position {
    Replace
  }

  /** `slot="…"` names the block; without it the block is the default one. */
  function SlotName(t: string): string {
    AttrOr(t, "slot", "default")
  }

  /** The slot a placeholder or slot call asks for: its `name="…"`, or `default`. */
  function SlotTarget(slot: string): string {
    AttrOr(slot, "name", "default")
  }

  /** `t.slice(t.indexOf('>') + 1, -11)`: the text between the first `>` and `</template>`. */
  function TemplateBody(t: string): string {
    Slice(t, IndexOfChar(t, '>') + 1, -11)
  }

  function BlockOf(t: string, position: string -> Position): Block {
    Block(SlotName(t), position(t), TemplateBody(t))
  }

  /** The `<template.+?</template>` pieces of the nested markup. */
  function Templates(body: string): seq<string> {
    Matches(TemplateBlock(false), body)
  }

  /** The nested markup with the templates removed: exactly the text around them, in order. */
  function Leftover(body: string): (rest: string)
    ensures rest == Join(Unmatched(TemplateBlock(false), body), "")
  {
    RemoveAllUnmatched(TemplateBlock(false), body);
    RemoveAll(TemplateBlock(false), body)
  }

  /** One block per template, in document order, then the default block when the leftover is
      not blank (`templateBody.trim()` is truthy). */
  function ExtractBlocks(body: string, position: string -> Position): (blocks: seq<Block>)
    ensures |blocks| == |Templates(body)| + (if IsBlank(Leftover(body)) then 0 else 1)
    ensures forall i :: 0 <= i < |Templates(body)| ==> blocks[i] == BlockOf(Templates(body)[i], position)
    ensures !IsBlank(Leftover(body)) ==> blocks[|blocks| - 1] == Block("default", Replace, Leftover(body))
  {
    var templates := Templates(body);
    var blocks := seq(|templates|, i requires 0 <= i < |templates| => BlockOf(templates[i], position));
    var rest := Leftover(body);
    TrimEmptyIffBlank(rest);
    if Trim(rest) != "" then blocks + [Block("default", Replace, rest)] else blocks
  }

  /** `blocks.find(b => b.name == name)`: the first block with that name. */
  function FindBlock(blocks: seq<Block>, name: string): (r: Option<nat>)
    ensures r.Some? ==> r.value < |blocks| && blocks[r.value].name == name
    ensures r.Some? ==> forall j :: 0 <= j < r.value ==> blocks[j].name != name
    ensures r.None? ==> forall j :: 0 <= j < |blocks| ==> blocks[j].name != name
    decreases |blocks|
  {
    if |blocks| == 0 then None
    else if blocks[0].name == name then Some(0)
    else match FindBlock(blocks[1..], name)
      case None => None
      case Some(i) => Some(i + 1)
  }

  /** Every template match opens with `<template` and closes with `</template>`. */
  lemma TemplateShape(s: string, p: nat, dotAll: bool)
    requires Hit(TemplateBlock(dotAll), s, p)
    ensures var t := s[p..TemplateBlock(dotAll)(s, p).value];
      |t| >= 21 && t[..9] == "<template" && EndsWith(t, "</template>")
  {
    var e := TemplateBlock(dotAll)(s, p).value;
    var q := LazyUntil(s, p + 10, ["</template>"], dotAll).value;
    assert e == q + 11;
    assert StartsAt(s, q, ["</template>"][0]);
    var t := s[p..e];
    assert t[|t| - 11..] == s[q..e];
    assert t[..9] == s[p..p + 9];
  }

  /** The body of a template is the text between its first `>` and its closing tag; when the first
      `>` is the closing tag's own, the body is empty. */
  lemma TemplateBodyShape(t: string, g: int)
    requires |t| >= 21 && t[..9] == "<template" && EndsWith(t, "</template>") && g == IndexOfChar(t, '>')
    ensures 0 <= g
    ensures g + 1 <= |t| - 11 ==> t == t[..g + 1] + TemplateBody(t) + "</template>"
    ensures g + 1 > |t| - 11 ==> TemplateBody(t) == ""
  {
    assert TemplateBody(t) == Slice(t, g + 1, -11);
    SplitAtFirstGt(t, "</template>", -11, g);
  }


  /** Every template found in the nested markup has that shape. */
  lemma TemplatesShape(body: string)
    ensures forall i :: 0 <= i < |Templates(body)| ==>
      var t := Templates(body)[i]; |t| >= 21 && t[..9] == "<template" && EndsWith(t, "</template>")
  {
    var spans := Scan(TemplateBlock(false), body, 0);
    forall i | 0 <= i < |Templates(body)|
      ensures var t := Templates(body)[i]; |t| >= 21 && t[..9] == "<template" && EndsWith(t, "</template>")
    {
      TemplateShape(body, spans[i].start, false);
    }
  }
}

=== FILE: build_config.dfy ===
/** The build configuration (script/build.js, lines 17-37 and 410-418): default output paths,
    file rules with cleaned `src` paths sorted least specific first, and the directory data a
    directory collects from every rule whose path is a leading part of its own. */
module BuildConfig {
  import opened Wrappers
  import opened Text
  import opened Values
  import opened Sorting

  /** One entry of `files`. An empty `src` stands for a missing one: both are falsy. */
  datatype Rule = Rule(src: string, data: Option<Data>)

  datatype Paths = Paths(publicPath: string, pageStylePath: string, pageScriptPath: string)

  /** Missing (falsy) output paths get their defaults; given ones are kept. */
  function WithDefaults(p: Paths): (r: Paths)
    ensures r.publicPath != "" && r.pageStylePath != "" && r.pageScriptPath != ""
    ensures p.publicPath != "" ==> r.publicPath == p.publicPath
    ensures p.pageStylePath != "" ==> r.pageStylePath == p.pageStylePath
    ensures p.pageScriptPath != "" ==> r.pageScriptPath == p.pageScriptPath
  {
    Paths(if p.publicPath == "" then "public" else p.publicPath,
          if p.pageStylePath == "" then "style/page" else p.pageStylePath,
          if p.pageScriptPath == "" then "script/page" else p.pageScriptPath)
  }

  /** `if (file.src) file.src = …filter(item => item).join('/')`. A `src` of slashes only becomes
      empty, so the rule is then treated as having none. */
  function CleanRule(r: Rule): (c: Rule)
    ensures c.data == r.data
    ensures Segments(c.src) == Segments(r.src)
    ensures c.src == CleanPath(c.src)
  {
    if r.src == "" then
      assert Split("", "/") == [""];
      r
    else
      CleanPathSegments(r.src);
      r.(src := CleanPath(r.src))
  }

  /** The comparator passed to `files.sort`, as written. */
  function Compare(a: Rule, b: Rule): int {
    if a.src == "" && b.src == "" then 0
    else if a.src != "" && b.src == "" then -1
    else if b.src != "" && a.src == "" then 1
    else if a.src == b.src then 0
    else if |a.src| < |b.src| then -1
    else if |a.src| > |b.src| then 1
    else 0
  }

  function Before(a: Rule, b: Rule): bool {
    Compare(a, b) < 0
  }

  /** What the comparator means: rules with a `src` first, and among them the shorter first. */
  lemma BeforeMeans(a: Rule, b: Rule)
    ensures Before(a, b) <==> a.src != "" && (b.src == "" || |a.src| < |b.src|)
    ensures Compare(a, b) == 0 <==> Equiv(Before, a, b)
  {
  }

  /** The comparator is consistent, so the sort is well defined. */
  lemma BeforeOrder()
    ensures StrictWeakOrder(Before)
  {
    forall a, b, c | !Before(a, b) && !Before(b, c) ensures !Before(a, c) {
      BeforeMeans(a, b);
      BeforeMeans(b, c);
      BeforeMeans(a, c);
    }
  }

  function CleanAll(rules: seq<Rule>): (r: seq<Rule>)
    ensures |r| == |rules|
    ensures forall i :: 0 <= i < |rules| ==> r[i] == CleanRule(rules[i])
  {
    seq(|rules|, i requires 0 <= i < |rules| => CleanRule(rules[i]))
  }

  /** Lines 24-37: clean every rule, then sort. */
  function Prepare(rules: seq<Rule>): seq<Rule> {
    Sort(Before, CleanAll(rules))
  }

  /** The prepared rules are the cleaned ones, rearranged: rules with a `src` come first, ordered
      by `src` length, and rules that compare equal keep their order. */
  lemma PrepareOrders(rules: seq<Rule>)
    ensures multiset(Prepare(rules)) == multiset(CleanAll(rules))
    ensures forall i, j :: 0 <= i < j < |Prepare(rules)| && Prepare(rules)[i].src == "" ==> Prepare(rules)[j].src == ""
    ensures forall i, j :: 0 <= i < j < |Prepare(rules)| && Prepare(rules)[j].src != "" ==> |Prepare(rules)[i].src| <= |Prepare(rules)[j].src|
    ensures forall a :: Peers(Before, Prepare(rules), a) == Peers(Before, CleanAll(rules), a)
  {
    var r := Prepare(rules);
    BeforeOrder();
    SortSorted(Before, CleanAll(rules));
    forall a { SortStable(Before, CleanAll(rules), a); }
    forall i, j | 0 <= i < j < |r| ensures !Before(r[j], r[i]) && (r[i].src == "" ==> r[j].src == "") && (r[j].src != "" ==> |r[i].src| <= |r[j].src|) {
      BeforeMeans(r[j], r[i]);
    }
  }

  /** Every prepared `src` is already clean. */
  lemma PreparedClean(rules: seq<Rule>)
    ensures forall i :: 0 <= i < |Prepare(rules)| ==> Prepare(rules)[i].src == CleanPath(Prepare(rules)[i].src)
  {
    var c := CleanAll(rules);
    var r := Prepare(rules);
    forall i | 0 <= i < |r| ensures r[i].src == CleanPath(r[i].src) {
      assert r[i] in multiset(c);
      var j :| 0 <= j < |c| && c[j] == r[i];
    }
  }

  /** `segs.slice(0, n)`. */
  function Take(segs: seq<string>, n: nat): (r: seq<string>)
    ensures r == segs[..if n <= |segs| then n else |segs|]
  {
    if n <= |segs| then segs[..n] else segs
  }

  /** Line 416 as written: the directory's first segments, rejoined, equal the rule's rejoined. */
  predicate Applies(r: Rule, dirSegs: seq<string>) {
    r.src != "" && r.data.Some? && Join(Take(dirSegs, |Segments(r.src)|), "/") == Join(Segments(r.src), "/")
  }

  /** Object.assign of every applying rule's data, in rule order. */
  function DirectoryData(rules: seq<Rule>, dir: string): Data {
    DataUpTo(rules, Segments(dir), |rules|)
  }

  function DataUpTo(rules: seq<Rule>, dirSegs: seq<string>, n: nat): (d: Data)
    requires n <= |rules|
    ensures forall k :: (forall j :: 0 <= j < n && Applies(rules[j], dirSegs) ==> k !in rules[j].data.value) ==> k !in d
    ensures forall k, j :: 0 <= j < n && Applies(rules[j], dirSegs) && k in rules[j].data.value
                          && (forall j' :: j < j' < n && Applies(rules[j'], dirSegs) ==> k !in rules[j'].data.value)
                          ==> k in d && d[k] == rules[j].data.value[k]
  {
    if n == 0 then map[]
    else if Applies(rules[n - 1], dirSegs) then DataUpTo(rules, dirSegs, n - 1) + rules[n - 1].data.value
    else DataUpTo(rules, dirSegs, n - 1)
  }

  predicate IsPrefix(a: seq<string>, b: seq<string>) {
    |a| <= |b| && b[..|a|] == a
  }

  /** Path segments: non-empty and free of `/`. */
  predicate SegmentList(segs: seq<string>) {
    forall k :: 0 <= k < |segs| ==> segs[k] != "" && !Contains(segs[k], "/")
  }

  lemma JoinNonEmpty(segs: seq<string>)
    requires |segs| > 0 && segs[0] != ""
    ensures |Join(segs, "/")| >= |segs[0]| > 0
  {
  }

  /** Different segment lists join to different paths. */
  lemma JoinInjective(a: seq<string>, b: seq<string>)
    requires SegmentList(a) && SegmentList(b)
    requires Join(a, "/") == Join(b, "/")
    ensures a == b
  {
    if |a| == 0 && |b| > 0 {
      JoinNonEmpty(b);
    } else if |b| == 0 && |a| > 0 {
      JoinNonEmpty(a);
    } else if |a| > 0 {
      SplitJoin(a, "/");
      SplitJoin(b, "/");
    }
  }

  lemma SegmentsList(s: string)
    ensures SegmentList(Segments(s))
  {
    SegmentsHaveNoSlash(s);
  }

  /** A rule applies exactly when its path segments are a leading part of the directory's. */
  lemma AppliesIffPrefix(r: Rule, dir: string)
    ensures Applies(r, Segments(dir)) <==> r.src != "" && r.data.Some? && IsPrefix(Segments(r.src), Segments(dir))
  {
    var fs := Segments(r.src);
    var ds := Segments(dir);
    SegmentsList(r.src);
    SegmentsList(dir);
    var t := Take(ds, |fs|);
    assert SegmentList(t);
    if Join(t, "/") == Join(fs, "/") {
      JoinInjective(t, fs);
    }
  }

  lemma {:induction false} JoinAppend(a: seq<string>, c: seq<string>)
    requires |a| > 0 && |c| > 0
    ensures Join(a + c, "/") == Join(a, "/") + "/" + Join(c, "/")
    decreases |a|
  {
    if |a| > 1 {
      JoinAppend(a[1..], c);
      assert (a + c)[1..] == a[1..] + c;
    } else {
      assert (a + c)[1..] == c;
    }
  }

  /** Of two clean paths that both lead the directory's, the one with more segments is longer. */
  lemma MoreSegmentsLonger(x: string, y: string, dir: string)
    requires x == CleanPath(x) && y == CleanPath(y)
    requires IsPrefix(Segments(x), Segments(dir)) && IsPrefix(Segments(y), Segments(dir))
    ensures |Segments(y)| < |Segments(x)| ==> |y| < |x|
  {
    var a := Segments(x);
    var b := Segments(y);
    var ds := Segments(dir);
    if |b| < |a| {
      SegmentsList(dir);
      assert a == ds[..|a|] && b == ds[..|b|];
      assert a == b + a[|b|..];
      if |b| == 0 {
        JoinNonEmpty(a);
      } else {
        JoinAppend(b, a[|b|..]);
      }
    }
  }

  /** Of two applying rules, the one with the shorter clean path has a leading part of the
      other's segments. */
  lemma ShorterPathFewerSegments(x: string, y: string, dir: string)
    requires x == CleanPath(x) && y == CleanPath(y)
    requires IsPrefix(Segments(x), Segments(dir)) && IsPrefix(Segments(y), Segments(dir))
    requires |x| <= |y|
    ensures IsPrefix(Segments(x), Segments(y))
  {
    MoreSegmentsLonger(x, y, dir);
    var ds := Segments(dir);
    assert Segments(y)[..|Segments(x)|] == ds[..|Segments(x)|];
  }

  /** In rules ordered by path length with clean paths, the last applying rule that sets `k` is
      the most specific one that does. */
  lemma LastIsMostSpecific(r: seq<Rule>, dir: string, k: string, j: nat)
    requires forall i :: 0 <= i < |r| ==> r[i].src == CleanPath(r[i].src)
    requires forall i, i' :: 0 <= i < i' < |r| && r[i'].src != "" ==> |r[i].src| <= |r[i'].src|
    requires j < |r| && Applies(r[j], Segments(dir)) && k in r[j].data.value
    requires forall j' :: j < j' < |r| && Applies(r[j'], Segments(dir)) ==> k !in r[j'].data.value
    ensures forall i :: 0 <= i < |r| && Applies(r[i], Segments(dir)) && k in r[i].data.value ==>
      IsPrefix(Segments(r[i].src), Segments(r[j].src))
  {
    forall i | 0 <= i < |r| && Applies(r[i], Segments(dir)) && k in r[i].data.value
      ensures IsPrefix(Segments(r[i].src), Segments(r[j].src))
    {
      AppliesIffPrefix(r[i], dir);
      AppliesIffPrefix(r[j], dir);
      if i < j {
        ShorterPathFewerSegments(r[i].src, r[j].src, dir);
      }
    }
  }

  /** With prepared rules, the value a directory keeps for `k` comes from the most specific of the
      applying rules that set `k`: every other one's path is a leading part of its path. */
  lemma MostSpecificWins(rules: seq<Rule>, dir: string, k: string, j: nat)
    requires j < |Prepare(rules)|
    requires Applies(Prepare(rules)[j], Segments(dir)) && k in Prepare(rules)[j].data.value
    requires forall j' :: j < j' < |Prepare(rules)| && Applies(Prepare(rules)[j'], Segments(dir)) ==> k !in Prepare(rules)[j'].data.value
    ensures var d := DirectoryData(Prepare(rules), dir); k in d && d[k] == Prepare(rules)[j].data.value[k]
    ensures forall i :: 0 <= i < |Prepare(rules)| && Applies(Prepare(rules)[i], Segments(dir)) && k in Prepare(rules)[i].data.value ==>
      IsPrefix(Segments(Prepare(rules)[i].src), Segments(Prepare(rules)[j].src))
  {
    var r := Prepare(rules);
    KeptValue(r, dir, k, j);
    PreparedOrdered(rules);
    PreparedClean(rules);
    LastIsMostSpecific(r, dir, k, j);
  }

  lemma KeptValue(r: seq<Rule>, dir: string, k: string, j: nat)
    requires j < |r| && Applies(r[j], Segments(dir)) && k in r[j].data.value
    requires forall j' :: j < j' < |r| && Applies(r[j'], Segments(dir)) ==> k !in r[j'].data.value
    ensures k in DirectoryData(r, dir) && DirectoryData(r, dir)[k] == r[j].data.value[k]
  {
  }

  lemma PreparedOrdered(rules: seq<Rule>)
    ensures forall i, i' :: 0 <= i < i' < |Prepare(rules)| && Prepare(rules)[i'].src != "" ==> |Prepare(rules)[i].src| <= |Prepare(rules)[i'].src|
  {
    PrepareOrders(rules);
  }
}

=== FILE: expand.dfy ===
/** Rendering one instance of a template component in place (script/build.js, lines 137-177): the
    component's compiled template is filled with the instance's nested content and spliced in
    after the instance's opening tag. */
module Expand {
  import opened Wrappers
  import opened Text
  import opened Pattern
  import opened Blocks

  /** `slot.slice(slot.indexOf('>') + 1, -7)`: the placeholder's own content, shown when no block
      is addressed to it. */
  function Fallback(slot: string): string {
    Slice(slot, IndexOfChar(slot, '>') + 1, -7)
  }

  /** The text one `<slot … static …>…</slot>` placeholder becomes: the first block addressed to
      it placed around, before or instead of the fallback, or the fallback alone. */
  function FillSlot(slot: string, blocks: seq<Block>): (r: string)
    ensures (forall j :: 0 <= j < |blocks| ==> blocks[j].name != SlotTarget(slot)) ==> r == Fallback(slot)
    ensures forall i ::
      (0 <= i < |blocks| && blocks[i].name == SlotTarget(slot) && forall j :: 0 <= j < i ==> blocks[j].name != SlotTarget(slot))
      ==>
      && (blocks[i].position == Append ==> r == Fallback(slot) + blocks[i].body)
      && (blocks[i].position == Prepend ==> r == blocks[i].body + Fallback(slot))
      && (blocks[i].position == Replace ==> r == blocks[i].body)
  {
    match FindBlock(blocks, SlotTarget(slot))
    case None => Fallback(slot)
    case Some(i) =>
      var b := blocks[i];
      match b.position
      case Append => Fallback(slot) + b.body
      case Prepend => b.body + Fallback(slot)
      case Replace => b.body
  }

  function Filler(blocks: seq<Block>): (string, nat) -> string {
    (t: string, k: nat) => FillSlot(t, blocks)
  }

  /** Every static slot placeholder of the compiled template is filled; the markup around the
      placeholders is kept as it is. */
  function FillSlots(content: string, blocks: seq<Block>): (r: string)
    ensures r == Weave(Unmatched(StaticSlotTag(), content), Answers(Matches(StaticSlotTag(), content), Filler(blocks)))
    ensures Matches(StaticSlotTag(), content) == [] ==> r == content
  {
    ReplaceAllShape(StaticSlotTag(), content, Filler(blocks));
    ReplaceAll(StaticSlotTag(), content, Filler(blocks))
  }

  /** A placeholder's fallback is the text between its first `>` and `</slot>`. */
  lemma FallbackShape(s: string, p: nat, t: string)
    requires Hit(StaticSlotTag(), s, p) && t == s[p..StaticSlotTag()(s, p).value]
    ensures t[..5] == "<slot" && EndsWith(t, "</slot>")
    ensures 0 <= IndexOfChar(t, '>')
    ensures IndexOfChar(t, '>') + 1 <= |t| - 7 ==> t == t[..IndexOfChar(t, '>') + 1] + Fallback(t) + "</slot>"
  {
    SlotTagText(s, p, t);
    SlotSplit(t, IndexOfChar(t, '>'));
  }

  lemma SlotSplit(t: string, g: int)
    requires |t| >= 7 && EndsWith(t, "</slot>") && g == IndexOfChar(t, '>')
    ensures 0 <= g
    ensures g + 1 <= |t| - 7 ==> t == t[..g + 1] + Fallback(t) + "</slot>"
  {
    SplitAtFirstGt(t, "</slot>", -7, g);
    if g + 1 <= |t| - 7 {
      var f := Slice(t, g + 1, -7);
      assert Fallback(t) == f;
      assert t == t[..g + 1] + f + "</slot>";
    }
  }

  lemma SlotTagText(s: string, p: nat, t: string)
    requires Hit(StaticSlotTag(), s, p) && t == s[p..StaticSlotTag()(s, p).value]
    ensures |t| >= 7 && t[..5] == "<slot" && EndsWith(t, "</slot>")
  {
    var e := StaticSlotTag()(s, p).value;
    var j := LazyUntil(s, p + 5, ["static"], false).value;
    var q := LazyUntil(s, j + 6, ["</slot>"], false).value;
    assert e == q + 7;
    assert StartsAt(s, q, ["</slot>"][0]);
    assert t[|t| - 7..] == s[q..e];
    assert t[..5] == s[p..p + 5];
  }

  /** `content.slice(content.indexOf(' '), -6)`: the compiled root element without its tag name
      and its six-character closing tag. */
  function RootInner(content: string): string {
    Slice(content, IndexOfChar(content, ' '), -6)
  }

  /** When the compiled markup is `<tag …>…</tag>` with a six-character closing tag (`</div>`) and a
      space after the tag name, the part kept is everything from that space up to the closing tag. */
  lemma RootInnerShape(tag: string, rest: string, close: string)
    requires |close| == 6 && ' ' !in tag
    ensures RootInner(tag + " " + rest + close) == " " + rest
  {
    var c := tag + " " + rest + close;
    assert c[|tag|] == ' ' && c[..|tag|] == tag;
    assert IndexOfChar(c, ' ') == |tag|;
    assert c[|tag|..|c| - 6] == " " + rest;
  }

  /** The rendered instance: the opening tag without its `>`, then the root element's attributes and
      content as compiled and slot-filled. A missing opening tag is the source's TypeError. */
  function ExpandInstance(s: string, name: string, compiled: string): (r: Result<string>)
    ensures r.Err? <==> Matches(OpenTag(name), s) == []
    ensures r.Err? ==> r.error == MissingOpeningTag
    ensures r.Ok? ==> var open := Matches(OpenTag(name), s)[0];
      |open| > 0 && r.value == open[..|open| - 1] + RootInner(FillSlots(compiled, ExtractBlocks(Slice(s, |open|, |s|), OpeningTagPosition)))
  {
    match FirstMatch(OpenTag(name), s)
    case None => Err(MissingOpeningTag)
    case Some(open) =>
      var nested := Slice(s, |open|, |s|);
      var blocks := ExtractBlocks(nested, OpeningTagPosition);
      Ok(Slice(open, 0, -1) + RootInner(FillSlots(compiled, blocks)))
  }

  /** Within an instance (`<name` up to `</name>`, on one line), the first opening tag found is the
      instance's own, at its very start: the nested content is everything after it. */
  lemma OpeningTagAtStart(page: string, p: nat, name: string, s: string)
    requires Hit(InstanceSpan(name), page, p) && s == page[p..InstanceSpan(name)(page, p).value]
    ensures Matches(OpenTag(name), s) != [] ==>
      var open := Matches(OpenTag(name), s)[0];
      && |name| + 1 < |open| <= |s| && s == open + s[|open|..]
      && open[|open| - 1] == '>' && '>' !in open[|name| + 1..|open| - 1]
  {
    var e := InstanceSpan(name)(page, p).value;
    var n := |name| + 1;
    assert StartsAt(s, 0, "<" + name) by {
      assert s[..n] == page[p..p + n];
    }
    forall j | n <= j < |s| ensures !IsLineTerminator(s[j]) {
      assert s[j] == page[p + j];
    }
    var spans := Scan(OpenTag(name), s, 0);
    if |spans| > 0 {
      OpenTagFromStart(s, name, spans[0].start);
    }
  }

  /** What an instance on the page becomes. The instance is its opening tag `open` followed by its
      nested content; when the compiled template, its placeholders filled from the blocks of that
      nested content, is a root element `tag + " " + rest + close` (a tag name without spaces and a
      six-character closing tag), the instance is replaced by `open` without its `>` and then
      `" " + rest`: the instance's own attributes followed by the root's attributes and content. */
  lemma ExpandInstanceMeaning(page: string, p: nat, name: string, s: string, compiled: string,
                              open: string, tag: string, rest: string, close: string)
    requires Hit(InstanceSpan(name), page, p) && s == page[p..InstanceSpan(name)(page, p).value]
    requires Matches(OpenTag(name), s) != [] && open == Matches(OpenTag(name), s)[0]
    requires FillSlots(compiled, ExtractBlocks(Slice(s, |open|, |s|), OpeningTagPosition)) == tag + " " + rest + close
    requires |close| == 6 && ' ' !in tag
    ensures |name| + 1 < |open| <= |s| && s == open + Slice(s, |open|, |s|)
    ensures open[|open| - 1] == '>' && '>' !in open[|name| + 1..|open| - 1]
    ensures ExpandInstance(s, name, compiled) == Ok(open[..|open| - 1] + " " + rest)
  {
    OpenTagPrefix(page, p, name, s, open);
    var filled := FillSlots(compiled, ExtractBlocks(Slice(s, |open|, |s|), OpeningTagPosition));
    ExpandedRoot(s, name, compiled, open, open[..|open| - 1], filled, tag, rest, close);
  }

  /** The opening tag facts of `OpeningTagAtStart`, for the tag found first. */
  lemma OpenTagPrefix(page: string, p: nat, name: string, s: string, open: string)
    requires Hit(InstanceSpan(name), page, p) && s == page[p..InstanceSpan(name)(page, p).value]
    requires Matches(OpenTag(name), s) != [] && open == Matches(OpenTag(name), s)[0]
    ensures |name| + 1 < |open| <= |s| && s == open + Slice(s, |open|, |s|)
    ensures open[|open| - 1] == '>' && '>' !in open[|name| + 1..|open| - 1]
  {
    OpeningTagAtStart(page, p, name, s);
    assert Slice(s, |open|, |s|) == s[|open|..];
  }

  /** The expansion when the slot-filled template is a root element with a six-character closing tag. */
  lemma ExpandedRoot(s: string, name: string, compiled: string, open: string, head: string, filled: string,
                     tag: string, rest: string, close: string)
    requires Matches(OpenTag(name), s) != [] && open == Matches(OpenTag(name), s)[0]
    requires |open| > 0 && head == open[..|open| - 1]
    requires filled == FillSlots(compiled, ExtractBlocks(Slice(s, |open|, |s|), OpeningTagPosition))
    requires filled == tag + " " + rest + close && |close| == 6 && ' ' !in tag
    ensures ExpandInstance(s, name, compiled) == Ok(head + " " + rest)
  {
    HeadThenRoot(head, filled, tag, rest, close);
  }

  /** `RootInnerShape` behind a prefix. */
  lemma HeadThenRoot(head: string, filled: string, tag: string, rest: string, close: string)
    requires filled == tag + " " + rest + close && |close| == 6 && ' ' !in tag
    ensures head + RootInner(filled) == head + " " + rest
  {
    RootInnerShape(tag, rest, close);
    assert head + (" " + rest) == head + " " + rest;
  }

  /** In a one-line instance, an opening tag found anywhere means one found at the start. */
  lemma OpenTagFromStart(s: string, name: string, p: nat)
    requires StartsAt(s, 0, "<" + name)
    requires forall j :: |name| + 1 <= j < |s| ==> !IsLineTerminator(s[j])
    requires Hit(OpenTag(name), s, p)
    ensures Matches(OpenTag(name), s) != []
    ensures var open := Matches(OpenTag(name), s)[0];
      && |name| + 1 < |open| <= |s| && s == open + s[|open|..]
      && open[|open| - 1] == '>' && '>' !in open[|name| + 1..|open| - 1]
  {
    var n := |name| + 1;
    var q := LazyUntil(s, p + n, [">"], false).value;
    LazyUntilReaches(s, n, [">"], false, q);
    var q0 := LazyUntil(s, n, [">"], false).value;
    OpenTagShape(s, name, q0);
  }

  lemma OpenTagShape(s: string, name: string, q0: nat)
    requires StartsAt(s, 0, "<" + name)
    requires LazyUntil(s, |name| + 1, [">"], false) == Some(q0)
    ensures Matches(OpenTag(name), s) != []
    ensures var open := Matches(OpenTag(name), s)[0];
      && |name| + 1 < |open| <= |s| && s == open + s[|open|..]
      && open[|open| - 1] == '>' && '>' !in open[|name| + 1..|open| - 1]
  {
    var n := |name| + 1;
    assert StartsAt(s, q0, [">"][0]);
    assert Hit(OpenTag(name), s, 0);
    var spans := Scan(OpenTag(name), s, 0);
    assert spans[0] == Span(0, q0 + 1);
    var open := s[..q0 + 1];
    assert Matches(OpenTag(name), s)[0] == open;
    forall j | n <= j < q0 ensures open[j] != '>' {
      assert !StartsAny(s, j, [">"]);
      assert !StartsAt(s, j, [">"][0]);
      StartsAtChar(s, j, '>');
    }
    StartsAtChar(s, q0, '>');
  }
}

=== FILE: instance_data.dfy ===
/** The data one component instance is rendered with (script/build.js, lines 105-115): a copy of the
    page data, overridden by the tag's attributes under camel-cased names, completed with the
    component's prop defaults, and finally handed to the component's data hook. */
module InstanceData {
  import opened Wrappers
  import opened Values
  import opened Attributes

  /** An attribute as a data value: quoted text, or `true` for a bare name. */
  function AttrToValue(a: AttrValue): Value {
    match a
    case Quoted(t) => Str(t)
    case Flag => Bool(true)
  }

  /** The attributes as assignments, under their camel-cased names. */
  function Assignments(attrs: Entries<AttrValue>, camel: string -> string): (kvs: Entries<Value>)
    ensures |kvs| == |attrs|
    ensures forall i :: 0 <= i < |attrs| ==> kvs[i] == (camel(attrs[i].0), AttrToValue(attrs[i].1))
  {
    seq(|attrs|, i requires 0 <= i < |attrs| => (camel(attrs[i].0), AttrToValue(attrs[i].1)))
  }

  /** `componentData[camelCase(a)] = attributes[a]` for each attribute, over a copy of the page data. */
  function WithAttributes(page: Data, attrs: Entries<AttrValue>, camel: string -> string): (d: Data)
    ensures forall k :: Last(Assignments(attrs, camel), k).Some? ==> k in d && d[k] == Last(Assignments(attrs, camel), k).value
    ensures forall k :: Last(Assignments(attrs, camel), k).None? ==> (k in d <==> k in page) && (k in page ==> d[k] == page[k])
  {
    AssignAll(page, Assignments(attrs, camel))
  }

  /** A prop's default fills a key only when the key is absent and the default is not `undefined`
      (`props` maps each declared prop to its default, `Undefined` when it declares none). */
  function WithDefaults(d: Data, props: map<string, Value>): (r: Data)
    ensures forall k :: k in d ==> k in r && r[k] == d[k]
    ensures forall k :: k !in d ==> (k in r <==> k in props && props[k] != Undefined)
    ensures forall k :: k !in d && k in r ==> r[k] == props[k]
  {
    d + map k | k in props && k !in d && props[k] != Undefined :: props[k]
  }

  /** What the data hook did: the data as it left it (a hook may change its argument in place) and
      the object it returned, if that was truthy. */
  datatype HookOutcome = HookOutcome(after: Data, returned: Option<Data>)

  /** A truthy result replaces the instance data wholesale; otherwise the data the hook saw is kept. */
  function WithHook(d: Data, hook: Option<Data -> HookOutcome>): (r: Data)
    ensures hook.None? ==> r == d
    ensures hook.Some? && hook.value(d).returned.Some? ==> r == hook.value(d).returned.value
    ensures hook.Some? && hook.value(d).returned.None? ==> r == hook.value(d).after
  {
    match hook
    case None => d
    case Some(h) =>
      var out := h(d);
      match out.returned
      case Some(nd) => nd
      case None => out.after
  }

  /** The whole merge, in the source's order. */
  function Resolve(page: Data, attrs: Entries<AttrValue>, camel: string -> string,
                   props: map<string, Value>, hook: Option<Data -> HookOutcome>): Data
  {
    WithHook(WithDefaults(WithAttributes(page, attrs, camel), props), hook)
  }

  /** Without a hook, a key takes the last attribute written under it, else the page's value, else
      the prop's default when it has one; no other key appears. */
  lemma MergePrecedence(page: Data, attrs: Entries<AttrValue>, camel: string -> string, props: map<string, Value>, k: string)
    ensures var d := Resolve(page, attrs, camel, props, None);
      var fromAttr := Last(Assignments(attrs, camel), k);
      && (fromAttr.Some? ==> k in d && d[k] == fromAttr.value)
      && (fromAttr.None? && k in page ==> k in d && d[k] == page[k])
      && (fromAttr.None? && k !in page && k in props && props[k] != Undefined ==> k in d && d[k] == props[k])
      && (fromAttr.None? && k !in page && (k !in props || props[k] == Undefined) ==> k !in d)
  {
  }

  /** A hook that returns an object decides the instance data on its own. */
  lemma HookOverrides(page: Data, attrs: Entries<AttrValue>, camel: string -> string, props: map<string, Value>,
                      h: Data -> HookOutcome)
    requires h(WithDefaults(WithAttributes(page, attrs, camel), props)).returned.Some?
    ensures Resolve(page, attrs, camel, props, Some(h)) == h(WithDefaults(WithAttributes(page, attrs, camel), props)).returned.value
  {
  }

  /** A component declaring `size` with default `md`: a tag saying `size="lg"` gets `lg`; a tag
      without it gets `md`. */
  lemma SizeExample(page: Data)
    requires "size" !in page
    ensures var props := map["size" := Str("md")];
      && Resolve(page, [("size", Quoted("lg"))], s => s, props, None)["size"] == Str("lg")
      && Resolve(page, [], s => s, props, None)["size"] == Str("md")
  {
    var camel := (s: string) => s;
    assert Last(Assignments([("size", Quoted("lg"))], camel), "size") == Some(Str("lg"));
    assert Last(Assignments([], camel), "size") == None;
  }
}

=== FILE: page.dfy ===
/** Building one page (`buildPug`, script/build.js lines 68-303, without its file and shell
    effects): for every component type used on the compiled page, its instances are given ids and
    data, expanded from the component's template, scoped with style labels, and given their
    scripts and public data; the page then receives its public data, style link, shared tags and
    script link. */
module Page {
  import opened Wrappers
  import opened Text
  import opened Values
  import opened Pattern
  import opened Attributes
  import opened InstanceData
  import opened Tokens
  import opened Tagging
  import opened Expand
  import opened Styles
  import opened SharedTags
  import opened Registry
  import opened BuildConfig

  /** The collaborators the build calls but this model does not look into. */
  datatype Env = Env(
    compile: (string, Data) -> string,                  // pug: a template's source and its data to HTML
    render: (string, Bindings) -> string,               // stylus: a style's source and its variables to CSS
    camel: string -> string,                            // smol.string.camelCase
    bundle: string -> string,                           // webpack + babel for a script with require/import
    vueBundle: (Component, string, string) -> string,   // the Vue mount stub for one instance id and template body
    json: Entries<Value> -> string,                     // JSON.stringify
    minify: string -> string,                           // buildScript on the joined page script
    mode: string)                                       // smolConfig.mode

  datatype Instance = Instance(id: string, data: Data)

  /** What `buildPug` accumulates while it walks the component types. */
  datatype State = State(
    output: string,
    pageStyle: seq<string>,
    pageScript: seq<string>,
    pagePublicData: seq<string>,
    pageIds: seq<string>,
    pageCommonTags: seq<TagDef>,
    cache: Cache,
    draws: seq<Draw>)

  /** The written page: its HTML, and the style sheet and script files it links, when it has them. */
  datatype PageFiles = PageFiles(html: string, css: Option<string>, js: Option<string>)

  function Ids(insts: seq<Instance>): (ids: seq<string>)
    ensures |ids| == |insts|
    ensures forall k :: 0 <= k < |insts| ==> ids[k] == insts[k].id
  {
    seq(|insts|, k requires 0 <= k < |insts| => insts[k].id)
  }

  function Datas(insts: seq<Instance>): (ds: seq<Data>)
    ensures |ds| == |insts|
    ensures forall k :: 0 <= k < |insts| ==> ds[k] == insts[k].data
  {
    seq(|insts|, k requires 0 <= k < |insts| => insts[k].data)
  }

  /** Lines 93-124: one instance per opening tag, with the data its attributes, the prop defaults
      and the data hook give it, and a fresh id. */
  function MakeInstances(tags: seq<string>, name: string, templateData: Data, def: Def, camel: string -> string,
                         issued: seq<string>, draws: seq<Draw>): (r: Result<(seq<Instance>, seq<Draw>)>)
    ensures r.Err? <==> IssueMany(issued, |tags|, draws).Err?
    ensures r.Ok? ==> |r.value.0| == |tags| && Ids(r.value.0) == IssueMany(issued, |tags|, draws).value.0
    ensures r.Ok? ==> forall k :: 0 <= k < |tags| ==>
      r.value.0[k].data == Resolve(templateData, ParseAttributes(tags[k], name), camel, def.props, def.hook)
  {
    var issuedNow :- IssueMany(issued, |tags|, draws);
    var ids := issuedNow.0;
    var insts := seq(|tags|, k requires 0 <= k < |tags| =>
      Instance(ids[k], Resolve(templateData, ParseAttributes(tags[k], name), camel, def.props, def.hook)));
    assert Ids(insts) == ids;
    Ok((insts, issuedNow.1))
  }

  /** What the replace callback yields for the `j`-th instance span: its instance's expansion,
      or a failure when there is no `j`-th instance. */
  function ExpandSpan(spans: seq<string>, j: nat, insts: seq<Instance>, expand: (string, Instance) -> Result<string>): Result<string>
    requires j < |spans|
  {
    if j < |insts| then expand(spans[j], insts[j]) else Err(MissingInstance)
  }

  /** The expansions of the instance spans, in order, stopping at the first failure: a span past
      the last instance, or one the instance's expansion rejects. */
  function ExpandEach(spans: seq<string>, insts: seq<Instance>, expand: (string, Instance) -> Result<string>): (r: Result<seq<string>>)
    ensures r.Ok? ==> |r.value| == |spans| <= |insts|
    ensures r.Ok? ==> forall j :: 0 <= j < |spans| ==> expand(spans[j], insts[j]) == Ok(r.value[j])
    ensures r.Err? ==> exists j :: 0 <= j < |spans| && ExpandSpan(spans, j, insts, expand) == Err(r.error)
    ensures r.Err? && r.error == MissingInstance ==>
      |spans| > |insts| || exists j :: 0 <= j < |spans| && expand(spans[j], insts[j]) == Err(MissingInstance)
  {
    var rs := seq(|spans|, j requires 0 <= j < |spans| => ExpandSpan(spans, j, insts, expand));
    var r := Collect(rs);
    if r.Ok? && |spans| > 0 then
      assert rs[|spans| - 1].Ok?;
      r
    else r
  }

  /** The expansion the page uses for one span: the type's template compiled with the instance's data. */
  function Expander(name: string, compile: (string, Data) -> string, template: string): (string, Instance) -> Result<string> {
    (s: string, inst: Instance) => ExpandInstance(s, name, compile(template, inst.data))
  }

  /** Every instance span expands with its own instance's compiled template; a failure is a
      missing opening tag unless there are more spans than instances. */
  lemma ExpandEachPieces(spans: seq<string>, name: string, insts: seq<Instance>,
                         compile: (string, Data) -> string, template: string, r: Result<seq<string>>)
    requires ExpandEach(spans, insts, Expander(name, compile, template)) == r
    ensures r.Ok? ==> forall j :: 0 <= j < |spans| ==>
      ExpandInstance(spans[j], name, compile(template, insts[j].data)) == Ok(r.value[j])
    ensures |spans| <= |insts| && r.Err? ==> r.error == MissingOpeningTag
    ensures r.Err? && r.error == MissingInstance ==> |spans| > |insts|
  {
    if r.Err? {
      var j :| 0 <= j < |spans| && ExpandSpan(spans, j, insts, Expander(name, compile, template)) == Err(r.error);
      if j < |insts| {
        assert ExpandInstance(spans[j], name, compile(template, insts[j].data)) == Err(r.error);
      }
    }
  }

  /** Lines 135-179: every instance span replaced by its expansion; the text around spans is kept. */
  function ExpandAll(output: string, name: string, insts: seq<Instance>, compile: (string, Data) -> string,
                     template: string): (r: Result<string>)
    ensures r.Ok? ==> ExpandEach(Matches(InstanceSpan(name), output), insts, Expander(name, compile, template)).Ok?
    ensures r.Ok? ==> r.value == Weave(Unmatched(InstanceSpan(name), output),
      ExpandEach(Matches(InstanceSpan(name), output), insts, Expander(name, compile, template)).value)
    ensures Matches(InstanceSpan(name), output) == [] ==> r == Ok(output)
  {
    var spans := Matches(InstanceSpan(name), output);
    var pieces :- ExpandEach(spans, insts, Expander(name, compile, template));
    if spans == [] then
      ReplaceAllShape(InstanceSpan(name), output, Erase);
      Ok(Weave(Unmatched(InstanceSpan(name), output), pieces))
    else
      Ok(Weave(Unmatched(InstanceSpan(name), output), pieces))
  }

  /** Lines 181-213: the type's display rule, then, if it has a style, the instances' labels on the
      page and the stored styles scoped with them (kept on the component for later pages). */
  function StyleType(output: string, name: string, comp: Component, insts: seq<Instance>,
                     render: (string, Bindings) -> string, draws: seq<Draw>): (r: Result<(string, seq<string>, Component, seq<Draw>)>)
    requires name != ""
    ensures r.Ok? ==> |r.value.1| >= 1 && r.value.1[0] == name + "{display:block}"
    ensures comp.def.style.None? ==> r == Ok((output, [name + "{display:block}"], comp, draws))
    ensures r.Ok? ==> r.value.2 == comp.(styles := r.value.2.styles)
    ensures r.Ok? ==> r.value.1 == [name + "{display:block}"] + (if comp.def.style.Some? then r.value.2.styles else [])
    ensures comp.def.style.Some? ==>
      (r.Err? <==> AssignLabels(comp.styles, Outputs((b: Bindings) => render(comp.def.style.value, b), Datas(insts)), draws).Err?)
  {
    var display := [name + "{display:block}"];
    match comp.def.style
    case None => Ok((output, display, comp, draws))
    case Some(style) =>
      var outs := Outputs((b: Bindings) => render(style, b), Datas(insts));
      var labelled :- AssignLabels(comp.styles, outs, draws);
      var sc := labelled.0;
      var scoped := ScopedStyles(sc.styles, sc.labels, name);
      Ok((LabelPass(output, name, sc.given, 0), display + scoped, comp.(styles := scoped), labelled.1))
  }

  /** `match.slice(match.indexOf('>') + 1)`. */
  function AfterOpening(span: string): string {
    Slice(span, IndexOfChar(span, '>') + 1, |span|)
  }

  function VueScripts(spans: seq<string>, k: nat, comp: Component, insts: seq<Instance>,
                      vueBundle: (Component, string, string) -> string): (r: Result<seq<string>>)
    requires k <= |spans|
    ensures r.Err? <==> |spans| > |insts| && k < |spans|
    ensures r.Err? ==> r.error == MissingInstance
    ensures r.Ok? ==> |r.value| == |spans| - k
    ensures r.Ok? ==> forall j :: k <= j < |spans| ==> r.value[j - k] == vueBundle(comp, insts[j].id, AfterOpening(spans[j]))
    decreases |spans| - k
  {
    if k == |spans| then Ok([])
    else if k >= |insts| then Err(MissingInstance)
    else
      var rest :- VueScripts(spans, k + 1, comp, insts, vueBundle);
      Ok([vueBundle(comp, insts[k].id, AfterOpening(spans[k]))] + rest)
  }

  /** The Vue runtime the page loads: the development build in development mode. */
  function VueTag(mode: string): TagDef {
    TagDef("script", [("src", Str(if mode == "development" then "//cdn.jsdelivr.net/npm/vue/dist/vue.js" else "//cdn.jsdelivr.net/npm/vue"))], "")
  }

  /** A plain script wrapped so that it sees its type's public data as `publicData`. */
  function WrapScript(key: string, source: string): string {
    "(() => {var publicData = (window.smolPublicData && window.smolPublicData." + key + ") ? window.smolPublicData."
      + key + " : {};" + source + "})()"
  }

  /** Lines 215-245: a Vue type bundles a mount script per instance span (and needs the Vue
      runtime); any other script is bundled when it requires or imports, and wrapped otherwise. */
  function ScriptType(output: string, name: string, comp: Component, insts: seq<Instance>, env: Env): (r: Result<(seq<string>, seq<TagDef>)>)
    ensures !EndsWith(comp.script, ".vue") ==> r.Ok? && r.value.1 == []
    ensures !EndsWith(comp.script, ".vue") && comp.script == "" ==> r.value.0 == []
    ensures !EndsWith(comp.script, ".vue") && comp.script != "" ==> |r.value.0| == 1
    ensures EndsWith(comp.script, ".vue") && r.Ok? ==>
      (r.value.1 == [VueTag(env.mode)] && |r.value.0| == |Matches(InstanceSpan(name), output)| > 0)
    ensures EndsWith(comp.script, ".vue") && Matches(InstanceSpan(name), output) == [] ==> r == Err(MissingClosingTag)
  {
    if EndsWith(comp.script, ".vue") then
      var spans := Matches(InstanceSpan(name), output);
      if spans == [] then Err(MissingClosingTag)
      else
        var scripts :- VueScripts(spans, 0, comp, insts, env.vueBundle);
        Ok((scripts, [VueTag(env.mode)]))
    else if comp.script != "" then
      var source := comp.def.scriptSource;
      var built := if Contains(source, "require") || Contains(source, "import") then env.bundle(source)
                   else WrapScript(env.camel(name), source);
      Ok(([built], []))
    else Ok(([], []))
  }

  /** `publicData[key] = templateData[key]` for each listed key: absent keys hold `undefined`. */
  function KeyEntries(keys: seq<string>, templateData: Data): Entries<Value> {
    PutAll([], seq(|keys|, k requires 0 <= k < |keys| => (keys[k], PageValue(templateData, keys[k]))))
  }

  function PageValue(d: Data, k: string): Value {
    if k in d then d[k] else Undefined
  }

  /** The public data object of a type. */
  function PublicObject(spec: PublicData, templateData: Data): Entries<Value> {
    match spec
    case NoPublicData => []
    case KeyList(keys) => KeyEntries(keys, templateData)
    case KeyText(_) => []
    case Producer(f) => f(templateData)
  }

  /** Lines 247-254: `name: {...}` when the type's public data object has any key. */
  function PublicEntry(name: string, spec: PublicData, templateData: Data, env: Env): (r: Option<string>)
    ensures r.Some? <==> |PublicObject(spec, templateData)| > 0
  {
    var obj := PublicObject(spec, templateData);
    if |obj| > 0 then Some(env.camel(name) + ": " + env.json(obj)) else None
  }

  /** A listed key is in the public data object even when the page has no value for it (it then
      holds `undefined`), so a non-empty key list always publishes an entry. */
  lemma KeyListPublishes(keys: seq<string>, templateData: Data, k: string)
    ensures Lookup(KeyEntries(keys, templateData), k) == if k in keys then Some(PageValue(templateData, k)) else None
    ensures |keys| > 0 <==> |KeyEntries(keys, templateData)| > 0
  {
    var kvs := seq(|keys|, j requires 0 <= j < |keys| => (keys[j], PageValue(templateData, keys[j])));
    PutAllLookup([], kvs, k);
    LastKeyed(keys, templateData, k);
    if |keys| > 0 {
      PutAllLookup([], kvs, keys[0]);
      LastKeyed(keys, templateData, keys[0]);
    } else {
      assert KeyEntries(keys, templateData) == [];
    }
  }

  lemma {:induction false} LastKeyed(keys: seq<string>, d: Data, k: string)
    ensures Last(seq(|keys|, j requires 0 <= j < |keys| => (keys[j], PageValue(d, keys[j]))), k)
         == if k in keys then Some(PageValue(d, k)) else None
    decreases |keys|
  {
    if |keys| > 0 {
      var init := keys[..|keys| - 1];
      var kvs := seq(|keys|, j requires 0 <= j < |keys| => (keys[j], PageValue(d, keys[j])));
      assert kvs[..|kvs| - 1] == seq(|init|, j requires 0 <= j < |init| => (init[j], PageValue(d, init[j])));
      LastKeyed(init, d, k);
      assert keys == init + [keys[|keys| - 1]];
    }
  }

  /** Lines 86-256 for one type: nothing happens unless `<name` occurs on the page. */
  function StepType(env: Env, roots: Roots, templateData: Data, st: State, name: string): (r: Result<State>)
    requires name != ""
    ensures !Contains(st.output, Marker(name)) ==> r == Ok(st)
    ensures r.Ok? && Contains(st.output, Marker(name)) ==>
      (IssueMany(st.pageIds, |Matches(OpenTag(name), st.output)|, st.draws).Ok?
       && r.value.pageIds == st.pageIds + IssueMany(st.pageIds, |Matches(OpenTag(name), st.output)|, st.draws).value.0)
    ensures r.Ok? && Contains(st.output, Marker(name)) ==>
      (|r.value.pageStyle| > |st.pageStyle| && r.value.pageStyle[..|st.pageStyle|] == st.pageStyle
       && r.value.pageStyle[|st.pageStyle|] == name + "{display:block}"
       && name in r.value.cache && r.value.cache[name].Some?)
  {
    if !Contains(st.output, Marker(name)) then Ok(st)
    else
      var got := GetComponent(st.cache, roots, name);
      if got.0.None? then Err(UnknownComponent(name))
      else
        var comp := got.0.value;
        var tags := Matches(OpenTag(name), st.output);
        var made :- MakeInstances(tags, name, templateData, comp.def, env.camel, st.pageIds, st.draws);
        RenderType(env, templateData, st, name, comp, made.0, made.1, got.1)
  }

  /** One type on the page once its instances exist: ids tagged, templates expanded, styles scoped,
      scripts collected, public data published, and the component kept in the cache. */
  function RenderType(env: Env, templateData: Data, st: State, name: string, comp: Component,
                      insts: seq<Instance>, draws: seq<Draw>, cache: Cache): (r: Result<State>)
    requires name != ""
    ensures r.Ok? ==> r.value.pageIds == st.pageIds + Ids(insts)
    ensures r.Ok? ==> (|r.value.pageStyle| > |st.pageStyle| && r.value.pageStyle[..|st.pageStyle|] == st.pageStyle
      && r.value.pageStyle[|st.pageStyle|] == name + "{display:block}")
    ensures r.Ok? ==> name in r.value.cache && r.value.cache[name].Some? && r.value.cache[name].value.def == comp.def
  {
    var tagged :- TagIds(st.output, name, Ids(insts));
    var common := st.pageCommonTags + ForMode(comp.def.tags, env.mode);
    var expanded :- if comp.def.template.Some? && !EndsWith(comp.script, ".vue")
                    then ExpandAll(tagged, name, insts, env.compile, comp.def.template.value)
                    else Ok(tagged);
    var styled :- StyleType(expanded, name, comp, insts, env.render, draws);
    var output := styled.0;
    var scripts :- ScriptType(output, name, styled.2, insts, env);
    var entry := PublicEntry(name, comp.def.publicData, templateData, env);
    var pageStyle := st.pageStyle + styled.1;
    assert pageStyle[..|st.pageStyle|] == st.pageStyle;
    assert pageStyle[|st.pageStyle|] == styled.1[0];
    Ok(State(output,
             pageStyle,
             st.pageScript + scripts.0,
             st.pagePublicData + (if entry.Some? then [entry.value] else []),
             st.pageIds + Ids(insts),
             common + scripts.1,
             cache[name := Some(styled.2)],
             styled.3))
  }

  /** What one type adds to the page's collections: the display rule and then the scoped styles
      that are also stored on the cached component (the component is otherwise unchanged), the
      scripts of that cached component, one public data entry when its public object has keys,
      and the type's shared tags followed by the Vue runtime for a Vue type. */
  lemma RenderTypeAppends(env: Env, templateData: Data, st: State, name: string, comp: Component,
                          insts: seq<Instance>, draws: seq<Draw>, cache: Cache, next: State)
    requires name != "" && RenderType(env, templateData, st, name, comp, insts, draws, cache) == Ok(next)
    ensures name in next.cache && next.cache[name].Some?
    ensures var kept := next.cache[name].value;
      && next.cache == cache[name := Some(kept)]
      && kept == comp.(styles := kept.styles)
      && (comp.def.style.None? ==> kept == comp)
      && next.pageStyle == st.pageStyle + [name + "{display:block}"] + (if comp.def.style.Some? then kept.styles else [])
      && ScriptType(next.output, name, kept, insts, env).Ok?
      && next.pageScript == st.pageScript + ScriptType(next.output, name, kept, insts, env).value.0
    ensures next.pageCommonTags == st.pageCommonTags + ForMode(comp.def.tags, env.mode)
      + (if EndsWith(comp.script, ".vue") then [VueTag(env.mode)] else [])
    ensures var obj := PublicObject(comp.def.publicData, templateData);
      next.pagePublicData == st.pagePublicData + (if |obj| > 0 then [env.camel(name) + ": " + env.json(obj)] else [])
  {
  }

  /** The types in `Object.keys(components)` order, from the `i`-th on. */
  function StepAll(env: Env, roots: Roots, templateData: Data, st: State, names: seq<string>, i: nat): (r: Result<State>)
    requires forall k :: 0 <= k < |names| ==> names[k] != ""
    decreases |names| - i
  {
    if i >= |names| then Ok(st)
    else
      var next :- StepType(env, roots, templateData, st, names[i]);
      StepAll(env, roots, templateData, next, names, i + 1)
  }

  /** The part of an output path under the page style or script directory, with its slash. */
  function DirPrefix(hrefPath: string): string {
    if hrefPath == "" then "" else hrefPath + "/"
  }

  /** Lines 258-298: public data script, style link, shared tags and script link, in that order. */
  function Finish(st: State, paths: Paths, pageName: string, hrefPath: string, env: Env): (f: PageFiles)
    ensures f.css.Some? <==> exists k :: 0 <= k < |st.pageStyle| && st.pageStyle[k] != ""
    ensures f.css.Some? ==> f.css.value == Join(st.pageStyle, "")
    ensures f.js.Some? <==> exists k :: 0 <= k < |st.pageScript| && st.pageScript[k] != ""
    ensures f.js.Some? ==> f.js.value == env.minify(Join(st.pageScript, ""))
    ensures st.pagePublicData == [] && f.css.None? && f.js.None? && st.pageCommonTags == [] ==> f.html == st.output
  {
    var withData := if |st.pagePublicData| > 0
      then InsertBefore(st.output, "</body>", "<script>smolPublicData = {" + Join(st.pagePublicData, ",") + "}</script>")
      else st.output;
    var hasStyle := exists k :: 0 <= k < |st.pageStyle| && st.pageStyle[k] != "";
    var withLink := if hasStyle
      then InsertBefore(withData, "</head>", "<link rel=\"stylesheet\" href=\"/" + paths.pageStylePath + "/" + DirPrefix(hrefPath) + pageName + ".css\">")
      else withData;
    var withTags := PlaceTags(withLink, st.pageCommonTags);
    var hasScript := exists k :: 0 <= k < |st.pageScript| && st.pageScript[k] != "";
    var html := if hasScript
      then InsertBefore(withTags, "</body>", "<script src=\"/" + paths.pageScriptPath + "/" + DirPrefix(hrefPath) + pageName + ".js\"></script>")
      else withTags;
    PageFiles(html,
              if hasStyle then Some(Join(st.pageStyle, "")) else None,
              if hasScript then Some(env.minify(Join(st.pageScript, ""))) else None)
  }

  /** `buildPug` on the compiled page `compiled`, with the component cache and the generator's
      draws carried over from earlier pages. */
  function BuildPage(env: Env, roots: Roots, names: seq<string>, cache: Cache, draws: seq<Draw>,
                     templateData: Data, compiled: string, paths: Paths, pageName: string, hrefPath: string)
    : Result<(PageFiles, Cache, seq<Draw>)>
    requires forall k :: 0 <= k < |names| ==> names[k] != ""
  {
    var st :- StepAll(env, roots, templateData, State(compiled, [], [], [], [], [], cache, draws), names, 0);
    Ok((Finish(st, paths, pageName, hrefPath, env), st.cache, st.draws))
  }

  /** The ids issued on a page are distinct tokens: each was checked against all before it. */
  lemma {:induction false} PageIdsDistinct(env: Env, roots: Roots, templateData: Data, st: State, names: seq<string>, i: nat)
    requires forall k :: 0 <= k < |names| ==> names[k] != ""
    requires Distinct(st.pageIds) && forall k :: 0 <= k < |st.pageIds| ==> IsToken(st.pageIds[k])
    requires StepAll(env, roots, templateData, st, names, i).Ok?
    ensures var end := StepAll(env, roots, templateData, st, names, i).value;
      Distinct(end.pageIds) && forall k :: 0 <= k < |end.pageIds| ==> IsToken(end.pageIds[k])
    decreases |names| - i
  {
    if i < |names| {
      var next := StepType(env, roots, templateData, st, names[i]).value;
      StepKeepsIds(env, roots, templateData, st, names[i], next);
      PageIdsDistinct(env, roots, templateData, next, names, i + 1);
    }
  }

  lemma StepKeepsIds(env: Env, roots: Roots, templateData: Data, st: State, name: string, next: State)
    requires name != ""
    requires Distinct(st.pageIds) && forall k :: 0 <= k < |st.pageIds| ==> IsToken(st.pageIds[k])
    requires StepType(env, roots, templateData, st, name) == Ok(next)
    ensures Distinct(next.pageIds) && forall k :: 0 <= k < |next.pageIds| ==> IsToken(next.pageIds[k])
  {
    if Contains(st.output, Marker(name)) {
      var ids := IssueMany(st.pageIds, |Matches(OpenTag(name), st.output)|, st.draws).value.0;
      assert next.pageIds[..|st.pageIds|] == st.pageIds;
      assert next.pageIds[|st.pageIds|..] == ids;
      assert forall k :: |st.pageIds| <= k < |next.pageIds| ==> next.pageIds[k] == ids[k - |st.pageIds|];
      FreshExtension(st.pageIds, next.pageIds);
    }
  }

  /** Distinct tokens followed by distinct tokens not among them are distinct tokens. */
  lemma FreshExtension(prior: seq<string>, ids: seq<string>)
    requires Distinct(prior) && forall k :: 0 <= k < |prior| ==> IsToken(prior[k])
    requires |ids| >= |prior| && ids[..|prior|] == prior
    requires forall k :: |prior| <= k < |ids| ==> IsToken(ids[k]) && ids[k] !in prior
    requires Distinct(ids[|prior|..])
    ensures Distinct(ids) && forall k :: 0 <= k < |ids| ==> IsToken(ids[k])
  {
    var n := |prior|;
    forall a, b | 0 <= a < b < |ids| ensures ids[a] != ids[b] {
      if b >= n && a < n {
        assert ids[a] == prior[a];
      } else if a >= n {
        assert ids[a] == ids[n..][a - n] && ids[b] == ids[n..][b - n];
      } else {
        assert ids[a] == prior[a] && ids[b] == prior[b];
      }
    }
    forall k | 0 <= k < |ids| ensures IsToken(ids[k]) {
      if k < n { assert ids[k] == prior[k]; }
    }
  }

  /** A page on which no component type occurs is written as compiled, with no style sheet or
      script, and the cache and the generator are left as they were. */
  lemma {:induction false} NoComponentsUnchanged(env: Env, roots: Roots, templateData: Data, st: State, names: seq<string>, i: nat)
    requires forall k :: 0 <= k < |names| ==> names[k] != ""
    requires forall k :: 0 <= k < |names| ==> !Contains(st.output, Marker(names[k]))
    ensures StepAll(env, roots, templateData, st, names, i) == Ok(st)
    decreases |names| - i
  {
    if i < |names| {
      NoComponentsUnchanged(env, roots, templateData, st, names, i + 1);
    }
  }

  lemma PlainPage(env: Env, roots: Roots, names: seq<string>, cache: Cache, draws: seq<Draw>,
                  templateData: Data, compiled: string, paths: Paths, pageName: string, hrefPath: string)
    requires forall k :: 0 <= k < |names| ==> names[k] != ""
    requires forall k :: 0 <= k < |names| ==> !Contains(compiled, Marker(names[k]))
    ensures BuildPage(env, roots, names, cache, draws, templateData, compiled, paths, pageName, hrefPath)
         == Ok((PageFiles(compiled, None, None), cache, draws))
  {
    var st := State(compiled, [], [], [], [], [], cache, draws);
    NoComponentsUnchanged(env, roots, templateData, st, names, 0);
  }
}

=== FILE: pattern.dfy ===
/** The regular expressions of the build scripts, each written as a matcher, and the
    JavaScript global-match semantics they are used with (`match(/…/g)`, `replace(/…/g, fn)`).

    A matcher answers, for a start position, where a match beginning there ends. A scan looks for
    the leftmost start, records the match, and resumes at its end, as the regex engine does for a
    global expression. A lazy `.*?X` is `LazyUntil`: the first position where `X` begins that can be
    reached without crossing a line terminator (which `.` does not match). */
module Pattern {
  import opened Wrappers
  import opened Text

  type Matcher = (string, nat) -> Option<nat>

  /** `m` has a non-empty match starting at `p` that lies inside `s`. */
  predicate Hit(m: Matcher, s: string, p: nat) {
    p < |s| && m(s, p).Some? && p < m(s, p).value <= |s|
  }

  datatype Span = Span(start: nat, end: nat)

  /** Where the text before span `i` begins: `from` for the first span, else the previous end. */
  function GapStart(spans: seq<Span>, i: nat, from: nat): nat {
    if i == 0 || i > |spans| then from else spans[i - 1].end
  }

  /** Where the text before span `i` ends: its start, or the end of the string after the last one. */
  function GapEnd(spans: seq<Span>, i: nat, n: nat): nat {
    if i < |spans| then spans[i].start else n
  }

  /** Spans lie in `s` after `from`, in order, without overlap. */
  predicate InOrder(s: string, spans: seq<Span>, from: nat) {
    && (|spans| > 0 ==> from <= spans[0].start)
    && (forall i :: 0 <= i < |spans| ==> spans[i].start < spans[i].end <= |s|)
    && (forall i :: 0 < i < |spans| ==> spans[i - 1].end <= spans[i].start)
  }

  /** The matches of a global regex in `s` from `from` on. */
  function Scan(m: Matcher, s: string, from: nat): (spans: seq<Span>)
    requires from <= |s|
    decreases |s| - from
    ensures InOrder(s, spans, from)
    ensures forall i :: 0 <= i < |spans| ==> Hit(m, s, spans[i].start) && m(s, spans[i].start).value == spans[i].end
  {
    if from == |s| then []
    else if Hit(m, s, from) then
      var e := m(s, from).value;
      var rest := Scan(m, s, e);
      [Span(from, e)] + rest
    else Scan(m, s, from + 1)
  }

  /** No match of `m` starts in the text before, between or after the spans. */
  predicate NoHitInGaps(m: Matcher, s: string, spans: seq<Span>, from: nat) {
    forall i, q :: 0 <= i <= |spans| && GapStart(spans, i, from) <= q < GapEnd(spans, i, |s|) ==> !Hit(m, s, q)
  }

  /** The scan is leftmost: no match of `m` starts in the text between the spans it found. */
  lemma {:induction false} ScanLeftmost(m: Matcher, s: string, from: nat)
    requires from <= |s|
    ensures NoHitInGaps(m, s, Scan(m, s, from), from)
    decreases |s| - from
  {
    var spans := Scan(m, s, from);
    if from == |s| {
    } else if Hit(m, s, from) {
      var e := m(s, from).value;
      var rest := Scan(m, s, e);
      ScanLeftmost(m, s, e);
      assert NoHitInGaps(m, s, rest, e);
      assert spans == [Span(from, e)] + rest;
      forall i, q | 0 <= i <= |spans| && GapStart(spans, i, from) <= q < GapEnd(spans, i, |s|)
        ensures !Hit(m, s, q)
      {
        assert i > 0;
        assert GapStart(spans, i, from) == GapStart(rest, i - 1, e);
        assert GapEnd(spans, i, |s|) == GapEnd(rest, i - 1, |s|);
        assert 0 <= i - 1 <= |rest| && GapStart(rest, i - 1, e) <= q < GapEnd(rest, i - 1, |s|);
      }
    } else {
      ScanLeftmost(m, s, from + 1);
      assert spans == Scan(m, s, from + 1);
      assert NoHitInGaps(m, s, spans, from + 1);
      forall i, q | 0 <= i <= |spans| && GapStart(spans, i, from) <= q < GapEnd(spans, i, |s|)
        ensures !Hit(m, s, q)
      {
        if i == 0 && q == from {
        } else {
          assert GapStart(spans, i, from + 1) <= q;
        }
      }
    }
  }

  /** Without a match anywhere, the scan finds nothing. */
  lemma {:induction false} ScanNoHit(m: Matcher, s: string, from: nat)
    requires from <= |s|
    requires forall q :: from <= q < |s| ==> !Hit(m, s, q)
    ensures Scan(m, s, from) == []
    decreases |s| - from
  {
    if from < |s| {
      ScanNoHit(m, s, from + 1);
    }
  }

  function Matched(s: string, sp: Span): string
    requires sp.start <= sp.end <= |s|
  {
    s[sp.start..sp.end]
  }

  /** The gaps of `s` between the spans, with the k-th span replaced by `f(its text, k)`. */
  function Rebuild(s: string, spans: seq<Span>, from: nat, k: nat, f: (string, nat) -> string): string
    requires from <= |s| && InOrder(s, spans, from)
    decreases |spans|
  {
    if |spans| == 0 then s[from..]
    else
      s[from..spans[0].start] + f(Matched(s, spans[0]), k) + Rebuild(s, spans[1..], spans[0].end, k + 1, f)
  }

  /** `s.replace(/re/g, (match) => …)` with a callback that also knows the match's ordinal. */
  function ReplaceAll(m: Matcher, s: string, f: (string, nat) -> string): string {
    Rebuild(s, Scan(m, s, 0), 0, 0, f)
  }

  /** `s.replace(/re/g, '')`. */
  function RemoveAll(m: Matcher, s: string): string {
    ReplaceAll(m, s, Erase)
  }

  function Erase(t: string, k: nat): string {
    ""
  }

  /** `s.match(/re/g) || []`: the matched texts, left to right. */
  function Matches(m: Matcher, s: string): (r: seq<string>)
    ensures |r| == |Scan(m, s, 0)|
  {
    var spans := Scan(m, s, 0);
    seq(|spans|, i requires 0 <= i < |spans| => Matched(s, spans[i]))
  }

  /** `s.match(/re/)`: the leftmost match, if any. */
  function FirstMatch(m: Matcher, s: string): (r: Option<string>)
    ensures r.None? <==> Matches(m, s) == []
    ensures r.Some? ==> r.value == Matches(m, s)[0] && |r.value| > 0
  {
    var spans := Scan(m, s, 0);
    if |spans| == 0 then None else Some(Matched(s, spans[0]))
  }

  /** The text before, between and after the spans. */
  function Gaps(s: string, spans: seq<Span>, from: nat): (g: seq<string>)
    requires from <= |s| && InOrder(s, spans, from)
    ensures |g| == |spans| + 1
    decreases |spans|
  {
    if |spans| == 0 then [s[from..]]
    else [s[from..spans[0].start]] + Gaps(s, spans[1..], spans[0].end)
  }

  /** The text of `s` that no match of `m` covers, in the pieces the matches cut it into. */
  function Unmatched(m: Matcher, s: string): (g: seq<string>)
    ensures |g| == |Matches(m, s)| + 1
  {
    Gaps(s, Scan(m, s, 0), 0)
  }

  lemma {:induction false} RebuildWeave(s: string, spans: seq<Span>, from: nat, k: nat, f: (string, nat) -> string, reps: seq<string>)
    requires from <= |s| && InOrder(s, spans, from)
    requires |reps| == |spans| && forall i :: 0 <= i < |spans| ==> reps[i] == f(Matched(s, spans[i]), k + i)
    ensures Rebuild(s, spans, from, k, f) == Weave(Gaps(s, spans, from), reps)
    decreases |spans|
  {
    if |spans| > 0 {
      RebuildWeave(s, spans[1..], spans[0].end, k + 1, f, reps[1..]);
      var g := Gaps(s, spans, from);
      assert g[1..] == Gaps(s, spans[1..], spans[0].end);
    }
  }

  /** What a replacement callback returns for each match, the k-th call seeing the k-th match. */
  function Answers(texts: seq<string>, f: (string, nat) -> string): (r: seq<string>)
    ensures |r| == |texts|
  {
    seq(|texts|, k requires 0 <= k < |texts| => f(texts[k], k))
  }

  /** A global replace keeps every unmatched piece and puts `f(text, k)` in place of the k-th match;
      the input is the same pieces with the matches themselves in between. */
  lemma ReplaceAllShape(m: Matcher, s: string, f: (string, nat) -> string)
    ensures ReplaceAll(m, s, f)
      == Weave(Unmatched(m, s), Answers(Matches(m, s), f))
    ensures s == Weave(Unmatched(m, s), Matches(m, s))
  {
    var spans := Scan(m, s, 0);
    var texts := Matches(m, s);
    RebuildWeave(s, spans, 0, 0, f, Answers(texts, f));
    var id := (t: string, k: nat) => t;
    RebuildWeave(s, spans, 0, 0, id, texts);
    RebuildIdentity(s, spans, 0, 0, id);
  }

  /** `s.replace(/re/g, '')` leaves exactly the unmatched text, piece after piece. */
  lemma RemoveAllUnmatched(m: Matcher, s: string)
    ensures RemoveAll(m, s) == Join(Unmatched(m, s), "")
  {
    ReplaceAllShape(m, s, Erase);
    WeaveJoin(Unmatched(m, s), "", Answers(Matches(m, s), Erase));
  }

  /** `s.replace(/re/, fn)` (not global): only the leftmost match is replaced. */
  function ReplaceFirstMatch(m: Matcher, s: string, f: string -> string): (r: string)
    ensures Matches(m, s) == [] ==> r == s
    ensures Matches(m, s) != [] ==>
      var sp := Scan(m, s, 0)[0];
      r == s[..sp.start] + f(Matches(m, s)[0]) + s[sp.end..] && s == s[..sp.start] + Matches(m, s)[0] + s[sp.end..]
  {
    var spans := Scan(m, s, 0);
    if |spans| == 0 then s
    else
      var sp := spans[0];
      assert s == s[..sp.start] + s[sp.start..sp.end] + s[sp.end..];
      s[..sp.start] + f(Matched(s, sp)) + s[sp.end..]
  }

  /** A replacement that gives every match back leaves the string unchanged. */
  lemma ReplaceAllIdentity(m: Matcher, s: string, f: (string, nat) -> string)
    requires forall t, k :: f(t, k) == t
    ensures ReplaceAll(m, s, f) == s
  {
    RebuildIdentity(s, Scan(m, s, 0), 0, 0, f);
  }

  lemma {:induction false} RebuildIdentity(s: string, spans: seq<Span>, from: nat, k: nat, f: (string, nat) -> string)
    requires from <= |s| && InOrder(s, spans, from)
    requires forall t, k :: f(t, k) == t
    ensures Rebuild(s, spans, from, k, f) == s[from..]
    decreases |spans|
  {
    if |spans| > 0 {
      RebuildIdentity(s, spans[1..], spans[0].end, k + 1, f);
      assert s[from..] == s[from..spans[0].start] + s[spans[0].start..spans[0].end] + s[spans[0].end..];
    }
  }

  /** With no match, a global replace returns its input. */
  lemma ReplaceAllNoMatch(m: Matcher, s: string, f: (string, nat) -> string)
    requires Matches(m, s) == []
    ensures ReplaceAll(m, s, f) == s
  {
  }

  // ---------------------------------------------------------------------------------------
  // Building blocks of the matchers

  predicate IsQuote(c: char) {
    c == '"' || c == '\''
  }

  const Quotes: seq<string> := ["\"", "'"]

  predicate StartsAny(s: string, i: nat, stops: seq<string>) {
    exists k :: 0 <= k < |stops| && StartsAt(s, i, stops[k])
  }

  /** With two stops, a stop begins at `i` exactly when one of the two does. */
  lemma StartsAnyPair(s: string, i: nat, a: string, b: string)
    ensures StartsAny(s, i, [a, b]) <==> StartsAt(s, i, a) || StartsAt(s, i, b)
  {
    if StartsAt(s, i, a) {
      assert StartsAt(s, i, [a, b][0]);
    } else if StartsAt(s, i, b) {
      assert StartsAt(s, i, [a, b][1]);
    }
  }

  /** `.*?` followed by one of `stops` (or `[\s\S]*?` when `dotAll`): the first position at or
      after `i` where a stop begins, reachable without crossing a line terminator. */
  function LazyUntil(s: string, i: nat, stops: seq<string>, dotAll: bool): (r: Option<nat>)
    decreases |s| - i
    ensures r.Some? ==> i <= r.value <= |s| && StartsAny(s, r.value, stops)
    ensures r.Some? ==> forall q :: i <= q < r.value ==> !StartsAny(s, q, stops) && (dotAll || !IsLineTerminator(s[q]))
  {
    if i > |s| then None
    else if StartsAny(s, i, stops) then Some(i)
    else if i == |s| || (!dotAll && IsLineTerminator(s[i])) then None
    else LazyUntil(s, i + 1, stops, dotAll)
  }

  /** A stop reachable without crossing a line terminator is found, at that position or earlier. */
  lemma {:induction false} LazyUntilReaches(s: string, i: nat, stops: seq<string>, dotAll: bool, q: nat)
    requires i <= q <= |s| && StartsAny(s, q, stops)
    requires forall j :: i <= j < q ==> dotAll || !IsLineTerminator(s[j])
    ensures LazyUntil(s, i, stops, dotAll).Some? && LazyUntil(s, i, stops, dotAll).value <= q
    decreases q - i
  {
    if !StartsAny(s, i, stops) {
      LazyUntilReaches(s, i + 1, stops, dotAll, q);
    }
  }

  /** A quote stop begins at a position exactly when a quote character is there. */
  lemma QuoteStarts(s: string, j: nat)
    requires j < |s|
    ensures StartsAny(s, j, Quotes) <==> IsQuote(s[j])
  {
    StartsAnyPair(s, j, "\"", "'");
    StartsAtChar(s, j, '"');
    StartsAtChar(s, j, '\'');
  }

  /** `["'].+?["']` after the `=` at `eq`: the end of the closing quote. */
  function QuotedValueEnd(s: string, eq: nat): (r: Option<nat>)
    ensures r.Some? ==> eq + 3 < r.value <= |s| && IsQuote(s[eq + 1]) && IsQuote(s[r.value - 1])
    ensures r.Some? ==> forall q :: eq + 2 <= q < r.value - 1 ==> !IsQuote(s[q]) || q == eq + 2
  {
    var i := eq + 2;
    if i >= |s| || !IsQuote(s[eq + 1]) || IsLineTerminator(s[i]) then None
    else match LazyUntil(s, i + 1, Quotes, false)
      case None => None
      case Some(q) =>
        QuoteStarts(s, q);
        assert forall j :: i + 1 <= j < q ==> !IsQuote(s[j]) by {
          forall j | i + 1 <= j < q ensures !IsQuote(s[j]) {
            QuoteStarts(s, j);
          }
        }
        Some(q + 1)
  }

  // ---------------------------------------------------------------------------------------
  // The expressions

  /** `<name.*?>`: a component's opening tag. */
  function OpenTag(name: string): Matcher {
    (s: string, p: nat) =>
      if !StartsAt(s, p, "<" + name) then None
      else match LazyUntil(s, p + 1 + |name|, [">"], false)
        case None => None
        case Some(q) => Some(q + 1)
  }

  /** `<name.*?(?=<\/name>)`: an instance from its opening tag up to (not including) `</name>`. */
  function InstanceSpan(name: string): Matcher {
    (s: string, p: nat) =>
      if !StartsAt(s, p, "<" + name) then None
      else LazyUntil(s, p + 1 + |name|, ["</" + name + ">"], false)
  }

  /** `<template.+?<\/template>`, or `<template[\s\S]+?<\/template>` when `dotAll`. */
  function TemplateBlock(dotAll: bool): Matcher {
    (s: string, p: nat) =>
      var i := p + 9;
      if !StartsAt(s, p, "<template") || i >= |s| || (!dotAll && IsLineTerminator(s[i])) then None
      else match LazyUntil(s, i + 1, ["</template>"], dotAll)
        case None => None
        case Some(q) => Some(q + 11)
  }

  /** `<slot.*?static.*?<\/slot>`: a static slot placeholder in compiled markup. */
  function StaticSlotTag(): Matcher {
    (s: string, p: nat) =>
      if !StartsAt(s, p, "<slot") then None
      else match LazyUntil(s, p + 5, ["static"], false)
        case None => None
        case Some(j) =>
          match LazyUntil(s, j + 6, ["</slot>"], false)
          case None => None
          case Some(q) => Some(q + 7)
  }

  /** `slot\(.*?static.*?\)`: a static slot call in pug source. */
  function StaticSlotCall(): Matcher {
    (s: string, p: nat) =>
      if !StartsAt(s, p, "slot(") then None
      else match LazyUntil(s, p + 5, ["static"], false)
        case None => None
        case Some(j) =>
          match LazyUntil(s, j + 6, [")"], false)
          case None => None
          case Some(q) => Some(q + 1)
  }

  /** `key=["'].+?["']`, e.g. `slot=["'].+?["']` and `name=["'].+?["']`. */
  function QuotedAttr(key: string): Matcher {
    (s: string, p: nat) => if StartsAt(s, p, key + "=") then QuotedValueEnd(s, p + |key|) else None
  }

  /** `[^ =]+?=["'].+?["']`: a quoted attribute pair. */
  function QuotedPair(): Matcher {
    (s: string, p: nat) =>
      match LazyUntil(s, p, [" ", "="], true)
      case None => None
      case Some(k) => if k == p || s[k] != '=' then None else QuotedValueEnd(s, k)
  }

  /** `[^ >]+`: a maximal run without spaces and `>`. */
  function BareToken(): Matcher {
    (s: string, p: nat) =>
      if p >= |s| || s[p] == ' ' || s[p] == '>' then None
      else Some(LazyUntil(s, p, [" ", ">"], true).GetOr(|s|))
  }

  /** `m = s.match(/key=["'].+?["']/); m ? m[0].slice(|key| + 2, -1) : fallback`. */
  function AttrOr(s: string, key: string, fallback: string): string {
    match FirstMatch(QuotedAttr(key), s)
    case None => fallback
    case Some(t) => Slice(t, |key| + 2, -1)
  }

  /** The attribute's value is the non-empty text between the quotes of its first `key="…"`, and
      the fallback when the tag has none. */
  lemma AttrOrShape(s: string, key: string, fallback: string)
    ensures FirstMatch(QuotedAttr(key), s).None? ==> AttrOr(s, key, fallback) == fallback
    ensures FirstMatch(QuotedAttr(key), s).Some? ==> QuotedAttrForm(FirstMatch(QuotedAttr(key), s).value, key, AttrOr(s, key, fallback))
  {
    var spans := Scan(QuotedAttr(key), s, 0);
    if |spans| > 0 {
      var p := spans[0].start;
      var e := spans[0].end;
      assert Hit(QuotedAttr(key), s, p) && QuotedAttr(key)(s, p) == Some(e);
      QuotedAttrText(s, key, p, e);
    }
  }

  /** `t` is `key="v"` (or with single quotes) with a non-empty `v`. */
  predicate QuotedAttrForm(t: string, key: string, v: string) {
    && |key| + 3 < |t| && v != ""
    && IsQuote(t[|key| + 1]) && IsQuote(t[|t| - 1])
    && t == key + "=" + [t[|key| + 1]] + v + [t[|t| - 1]]
  }

  lemma QuotedAttrText(s: string, key: string, p: nat, e: nat)
    requires Hit(QuotedAttr(key), s, p) && QuotedAttr(key)(s, p) == Some(e)
    ensures QuotedAttrForm(s[p..e], key, Slice(s[p..e], |key| + 2, -1))
  {
    var t := s[p..e];
    var n := |key|;
    assert StartsAt(s, p, key + "=") && QuotedValueEnd(s, p + n) == Some(e);
    assert |t| > n + 3 && IsQuote(t[n + 1]) && IsQuote(t[|t| - 1]) by {
      assert t[|t| - 1] == s[e - 1] && t[n + 1] == s[p + n + 1];
    }
    assert t[..n + 1] == key + "=" by {
      assert t[..n + 1] == s[p..p + n + 1];
    }
    QuotedAttrSplit(t, n);
  }

  lemma QuotedAttrSplit(t: string, n: nat)
    requires |t| > n + 3
    ensures Slice(t, n + 2, -1) != ""
    ensures t == t[..n + 1] + [t[n + 1]] + Slice(t, n + 2, -1) + [t[|t| - 1]]
  {
    assert Slice(t, n + 2, -1) == t[n + 2..|t| - 1];
  }

}

=== FILE: registry.dfy ===
/** Component discovery and the component cache (script/build.js, lines 39-65). Every directory
    of every component root names a component type; a type is loaded from the first root that has
    it, the first time a page uses it, and then kept, stored styles included, for later pages. */
module Registry {
  import opened Wrappers
  import opened Values
  import opened InstanceData
  import opened SharedTags

  /** How a component publishes page data to its script. */
  datatype PublicData =
    | NoPublicData                          // missing or falsy
    | KeyList(keys: seq<string>)            // names of page data entries
    | KeyText(text: string)                 // a non-empty string: treated as an empty list
    | Producer(f: Data -> Entries<Value>)   // a function of the page data

  /** A component's `component.js`, with the files it names already read. */
  datatype Def = Def(
    template: Option<string>,              // pug source of `def.template`
    script: Option<string>,                // `def.script`, a path
    scriptSource: string,                  // the text of that file
    style: Option<string>,                 // stylus source of `def.style`
    props: map<string, Value>,             // each prop's `default`
    hook: Option<Data -> HookOutcome>,     // `def.data`
    tags: seq<TagDef>,
    publicData: PublicData)

  /** A loaded component. `root` is the index of the root it came from. */
  datatype Component = Component(name: string, root: nat, def: Def, script: string, styles: seq<string>)

  /** Each root: the component directories it holds. */
  type Roots = seq<map<string, Def>>

  /** `components`: every discovered name, `None` until loaded. */
  type Cache = map<string, Option<Component>>

  function Concat(listings: seq<seq<string>>): seq<string> {
    if |listings| == 0 then [] else listings[0] + Concat(listings[1..])
  }

  lemma {:induction false} ConcatMembers(listings: seq<seq<string>>, x: string)
    ensures x in Concat(listings) <==> exists i :: 0 <= i < |listings| && x in listings[i]
    decreases |listings|
  {
    if |listings| > 0 {
      ConcatMembers(listings[1..], x);
      if x in listings[0] {
      } else if x in Concat(listings[1..]) {
        var i :| 0 <= i < |listings[1..]| && x in listings[1..][i];
        assert x in listings[i + 1];
      } else {
        forall i | 0 <= i < |listings| ensures x !in listings[i] {
          if i > 0 { assert listings[i] == listings[1..][i - 1]; }
        }
      }
    }
  }

  /** The component names in `Object.keys(components)` order: the directory listings of the roots,
      in root order, each name where it first appears. */
  function Names(listings: seq<seq<string>>): (names: seq<string>)
    ensures Distinct(names)
    ensures forall x :: x in names <==> exists i :: 0 <= i < |listings| && x in listings[i]
  {
    forall x ensures x in Concat(listings) <==> exists i :: 0 <= i < |listings| && x in listings[i] {
      ConcatMembers(listings, x);
    }
    Dedup(Concat(listings))
  }

  /** The cache before any page: every name discovered, none loaded. */
  function EmptyCache(names: seq<string>): (c: Cache)
    ensures forall x :: x in c <==> x in names
    ensures forall x :: x in c ==> c[x].None?
  {
    map x | x in names :: None
  }

  /** The first root holding a component directory called `name`. */
  function FirstRoot(roots: Roots, name: string): (r: Option<nat>)
    ensures r.None? <==> forall i :: 0 <= i < |roots| ==> name !in roots[i]
    ensures r.Some? ==> r.value < |roots| && name in roots[r.value]
    ensures r.Some? ==> forall i :: 0 <= i < r.value ==> name !in roots[i]
  {
    if |roots| == 0 then None
    else if name in roots[0] then Some(0)
    else
      match FirstRoot(roots[1..], name)
      case None =>
        assert forall i :: 0 < i < |roots| ==> roots[i] == roots[1..][i - 1];
        None
      case Some(j) =>
        assert forall i :: 0 < i <= j ==> roots[i] == roots[1..][i - 1];
        Some(j + 1)
  }

  /** `getComponent(name)`: the cached component, or the one loaded from the first root that has
      it (script path defaulting to empty, no stored styles), now cached. A name no root has gives
      nothing and leaves the cache alone. */
  function GetComponent(cache: Cache, roots: Roots, name: string): (r: (Option<Component>, Cache))
    ensures name in cache && cache[name].Some? ==> r == (cache[name], cache)
    ensures !(name in cache && cache[name].Some?) && FirstRoot(roots, name).None? ==> r.0.None? && r.1 == cache
    ensures !(name in cache && cache[name].Some?) && FirstRoot(roots, name).Some? ==>
      var i := FirstRoot(roots, name).value;
      && r.0.Some? && r.1 == cache[name := r.0]
      && r.0.value.name == name && r.0.value.root == i && r.0.value.def == roots[i][name]
      && r.0.value.styles == [] && r.0.value.script == roots[i][name].script.GetOr("")
  {
    if name in cache && cache[name].Some? then (cache[name], cache)
    else
      match FirstRoot(roots, name)
      case None => (None, cache)
      case Some(i) =>
        var def := roots[i][name];
        var c := Component(name, i, def, def.script.GetOr(""), []);
        (Some(c), cache[name := Some(c)])
  }

  /** Loading is done once: asking again gives the same component and leaves the cache as it is. */
  lemma LoadedOnce(cache: Cache, roots: Roots, name: string)
    requires GetComponent(cache, roots, name).0.Some?
    ensures var (c, cache') := GetComponent(cache, roots, name);
      GetComponent(cache', roots, name) == (c, cache')
  {
  }
}

=== FILE: shared_tags.dfy ===
/** Tags that component types share on a page (script/build.js, lines 131-132 and 275-289): each
    is rendered with its attributes in sorted order, duplicates are dropped keeping the first,
    and script tags go before `</body>` while every other tag goes before `</head>`. */
module SharedTags {
  import opened Text
  import opened Values
  import opened Sorting

  /** An entry of a component's `tags`. An empty `mode` stands for a missing one. */
  datatype TagDef = TagDef(tag: string, attributes: Entries<Value>, mode: string)

  /** A tag is kept when it names no mode or the build's mode. */
  predicate InMode(t: TagDef, mode: string) {
    t.mode == "" || t.mode == mode
  }

  /** `tags.filter(tag => !tag.mode || tag.mode == mode)`. */
  function ForMode(tags: seq<TagDef>, mode: string): (r: seq<TagDef>)
    ensures |r| <= |tags|
    ensures forall t :: t in r <==> t in tags && InMode(t, mode)
  {
    if |tags| == 0 then []
    else (if InMode(tags[0], mode) then [tags[0]] else []) + ForMode(tags[1..], mode)
  }

  /** The default `sort()` order on strings: character by character, a proper prefix first. */
  function StrLt(a: string, b: string): bool {
    if |a| == 0 then |b| > 0
    else if |b| == 0 then false
    else if a[0] != b[0] then a[0] < b[0]
    else StrLt(a[1..], b[1..])
  }

  lemma {:induction false} StrLtIrreflexive(a: string)
    ensures !StrLt(a, a)
    decreases |a|
  {
    if |a| > 0 { StrLtIrreflexive(a[1..]); }
  }

  lemma {:induction false} StrLtTransitive(a: string, b: string, c: string)
    requires StrLt(a, b) && StrLt(b, c)
    ensures StrLt(a, c)
    decreases |a|
  {
    if |a| > 0 && |b| > 0 && |c| > 0 && a[0] == b[0] == c[0] {
      StrLtTransitive(a[1..], b[1..], c[1..]);
    }
  }

  /** Two different strings are ordered one way or the other. */
  lemma {:induction false} StrLtTotal(a: string, b: string)
    ensures a == b || StrLt(a, b) || StrLt(b, a)
    decreases |a|
  {
    if |a| > 0 && |b| > 0 && a[0] == b[0] {
      StrLtTotal(a[1..], b[1..]);
      if a[1..] == b[1..] {
        assert a == [a[0]] + a[1..] && b == [b[0]] + b[1..];
      }
    }
  }

  lemma StrLtOrder()
    ensures StrictWeakOrder(StrLt)
  {
    forall a { StrLtIrreflexive(a); }
    forall a, b, c | StrLt(a, b) && StrLt(b, c) ensures StrLt(a, c) { StrLtTransitive(a, b, c); }
    forall a, b, c | !StrLt(a, b) && !StrLt(b, c) ensures !StrLt(a, c) {
      StrLtTotal(a, b);
      StrLtTotal(b, c);
      if StrLt(a, c) {
        StrLtTotal(a, c);
        if StrLt(b, a) { StrLtTransitive(b, a, c); }
        if StrLt(c, b) && StrLt(b, a) { StrLtTransitive(c, b, a); StrLtTransitive(a, c, a); StrLtIrreflexive(a); }
        if c == b { }
      }
    }
  }

  /** The digits of a natural number. */
  function NatText(n: nat): (r: string)
    ensures |r| > 0
    ensures forall k :: 0 <= k < |r| ==> '0' <= r[k] <= '9'
    decreases n
  {
    var d := ['0' + (n % 10) as char];
    if n < 10 then d else NatText(n / 10) + d
  }

  /** A value placed in a template string. Booleans never get here: they render as bare keys. */
  function ValueText(v: Value): string {
    match v
    case Undefined => "undefined"
    case Null => "null"
    case Bool(b) => if b then "true" else "false"
    case Num(n) => if n < 0 then "-" + NatText(-n) else NatText(n)
    case Str(s) => s
    case Obj(_) => "[object Object]"
  }

  /** One attribute: a bare key for a boolean, `key="value"` otherwise. */
  function AttrText(k: string, v: Value): string {
    if v.Bool? then k else k + "=\"" + ValueText(v) + "\""
  }

  /** The attribute keys other than `tagType`, in insertion order. */
  function ListedKeys(ks: seq<string>): (r: seq<string>)
    ensures forall x :: x in r <==> x in ks && x != "tagType"
    ensures multiset(r) <= multiset(ks)
  {
    if |ks| == 0 then []
    else
      assert ks == [ks[0]] + ks[1..];
      (if ks[0] != "tagType" then [ks[0]] else []) + ListedKeys(ks[1..])
  }

  /** The keys in the order they are written out. */
  function RenderedKeys(t: TagDef): seq<string> {
    Sort(StrLt, ListedKeys(Keys(t.attributes)))
  }

  /** The keys are written in sorted order, each once, and `tagType` never. */
  lemma RenderedKeysOrdered(t: TagDef)
    requires DistinctKeys(t.attributes)
    ensures Sorted(StrLt, RenderedKeys(t))
    ensures forall x :: x in RenderedKeys(t) <==> x in Keys(t.attributes) && x != "tagType"
    ensures Distinct(RenderedKeys(t))
  {
    var ks := RenderedKeys(t);
    StrLtOrder();
    SortSorted(StrLt, ListedKeys(Keys(t.attributes)));
    assert forall x :: x in ks <==> x in multiset(ks);
    forall i, j | 0 <= i < j < |ks| ensures ks[i] != ks[j] {
      var x := ks[i];
      assert multiset(ks)[x] <= multiset(Keys(t.attributes))[x];
      DistinctCount(Keys(t.attributes), x);
      if ks[j] == x {
        CountTwo(ks, i, j);
      }
    }
  }

  /** An element of a sequence without repeats occurs in it at most once. */
  lemma {:induction false} DistinctCount<T>(xs: seq<T>, x: T)
    requires Distinct(xs)
    ensures multiset(xs)[x] <= 1
    decreases |xs|
  {
    if |xs| > 0 {
      assert xs == [xs[0]] + xs[1..];
      DistinctCount(xs[1..], x);
      if xs[0] == x {
        assert x !in xs[1..];
      }
    }
  }

  /** Two positions holding the same element make it occur twice. */
  lemma CountTwo<T>(xs: seq<T>, i: nat, j: nat)
    requires i < j < |xs| && xs[i] == xs[j]
    ensures multiset(xs)[xs[i]] >= 2
  {
    assert xs == xs[..i] + [xs[i]] + xs[i + 1..j] + [xs[j]] + xs[j + 1..];
  }

  function AttrTexts(t: TagDef, ks: seq<string>): (r: seq<string>)
    ensures |r| == |ks|
    ensures forall i :: 0 <= i < |ks| ==> r[i] == AttrText(ks[i], Lookup(t.attributes, ks[i]).GetOr(Undefined))
  {
    seq(|ks|, i requires 0 <= i < |ks| => AttrText(ks[i], Lookup(t.attributes, ks[i]).GetOr(Undefined)))
  }

  /** `<tag k1="v1" k2 …></tag>`. */
  function Render(t: TagDef): string {
    var texts := AttrTexts(t, RenderedKeys(t));
    var keys := if |texts| > 0 then " " + Join(texts, " ") else "";
    "<" + t.tag + keys + "></" + t.tag + ">"
  }

  /** A script tag: one whose text mentions `<script`. */
  predicate IsScript(tag: string) {
    Contains(tag, "<script")
  }

  function Scripts(tags: seq<string>): (r: seq<string>)
    ensures forall x :: x in r <==> x in tags && IsScript(x)
    ensures |r| <= |tags|
  {
    if |tags| == 0 then []
    else (if IsScript(tags[0]) then [tags[0]] else []) + Scripts(tags[1..])
  }

  function NonScripts(tags: seq<string>): (r: seq<string>)
    ensures forall x :: x in r <==> x in tags && !IsScript(x)
    ensures |r| <= |tags|
  {
    if |tags| == 0 then []
    else (if !IsScript(tags[0]) then [tags[0]] else []) + NonScripts(tags[1..])
  }

  /** The two groups split the tags between them. */
  lemma {:induction false} SplitCounts(tags: seq<string>)
    ensures |Scripts(tags)| + |NonScripts(tags)| == |tags|
    decreases |tags|
  {
    if |tags| > 0 { SplitCounts(tags[1..]); }
  }

  /** `s.replace(/<pat>/, text + pat)`: `text` inserted just before the first occurrence. */
  function InsertBefore(s: string, pat: string, text: string): (r: string)
    ensures IndexOf(s, pat, 0).None? ==> r == s
    ensures IndexOf(s, pat, 0).Some? ==> r == s[..IndexOf(s, pat, 0).value] + text + s[IndexOf(s, pat, 0).value..]
  {
    match IndexOf(s, pat, 0)
    case None => s
    case Some(i) =>
      assert s[i..] == s[i..i + |pat|] + s[i + |pat|..];
      ReplaceFirst(s, pat, text + pat)
  }

  /** Lines 276-289: render, drop duplicates, then non-script tags before `</head>` and script tags
      before `</body>`; a group with no tags leaves the page alone. */
  function PlaceTags(html: string, tags: seq<TagDef>): string {
    var rendered := Dedup(RenderAll(tags));
    var head := NonScripts(rendered);
    var body := Scripts(rendered);
    var withHead := if |head| > 0 then InsertBefore(html, "</head>", Join(head, "")) else html;
    if |body| > 0 then InsertBefore(withHead, "</body>", Join(body, "")) else withHead
  }

  function RenderAll(tags: seq<TagDef>): (r: seq<string>)
    ensures |r| == |tags|
    ensures forall i :: 0 <= i < |tags| ==> r[i] == Render(tags[i])
  {
    seq(|tags|, i requires 0 <= i < |tags| => Render(tags[i]))
  }

  /** With no shared tags the page is unchanged. */
  lemma PlaceNoTags(html: string)
    ensures PlaceTags(html, []) == html
  {
  }
}

=== FILE: slot_loader.dfy ===
/** The substituting slot loader (script/loader.js): every static `slot(…)` call of a component's
    pug source is replaced by the body of the block addressed to it, or commented out. */
module SlotLoader {
  import opened Wrappers
  import opened Text
  import opened Pattern
  import opened Blocks

  /** What one `slot(… static …)` call becomes: the body of the first block addressed to it, or the
      call itself behind a pug comment marker. */
  function Substitute(slot: string, blocks: seq<Block>): (r: string)
    ensures (forall j :: 0 <= j < |blocks| ==> blocks[j].name != SlotTarget(slot)) ==> r == "//- " + slot
    ensures forall i ::
      (0 <= i < |blocks| && blocks[i].name == SlotTarget(slot) && forall j :: 0 <= j < i ==> blocks[j].name != SlotTarget(slot))
      ==> r == blocks[i].body
  {
    match FindBlock(blocks, SlotTarget(slot))
    case None => "//- " + slot
    case Some(i) => blocks[i].body
  }

  function Substituter(blocks: seq<Block>): (string, nat) -> string {
    (t: string, k: nat) => Substitute(t, blocks)
  }

  /** The loader: blocks come from the instance markup, then each static slot call of the source
      is substituted; every other piece of the source, dynamic slot calls included, is kept. */
  function Load(source: string, templateBody: string): (r: string)
    ensures var blocks := ExtractBlocks(templateBody, NoPosition);
      r == Weave(Unmatched(StaticSlotCall(), source), Answers(Matches(StaticSlotCall(), source), Substituter(blocks)))
  {
    var blocks := ExtractBlocks(templateBody, NoPosition);
    ReplaceAllShape(StaticSlotCall(), source, Substituter(blocks));
    ReplaceAll(StaticSlotCall(), source, Substituter(blocks))
  }

  /** A source without the word `static` has no static slot call, so it passes through unchanged. */
  lemma NoStaticUnchanged(source: string, templateBody: string)
    requires !Contains(source, "static")
    ensures Load(source, templateBody) == source
  {
    forall q | 0 <= q < |source| ensures !Hit(StaticSlotCall(), source, q) {
      HitHasStatic(source, q);
    }
    ScanNoHit(StaticSlotCall(), source, 0);
    ReplaceAllNoMatch(StaticSlotCall(), source, Substituter(ExtractBlocks(templateBody, NoPosition)));
  }

  lemma HitHasStatic(s: string, q: nat)
    ensures Hit(StaticSlotCall(), s, q) ==> Contains(s, "static")
  {
    if StartsAt(s, q, "slot(") {
      var r := LazyUntil(s, q + 5, ["static"], false);
      if r.Some? {
        assert StartsAt(s, r.value, ["static"][0]);
      }
    }
  }
}

=== FILE: sorting.dfy ===
/** A stable insertion sort over a strict weak order: the order `Array.prototype.sort` produces
    with a consistent comparator (the engines running the build sort stably). */
module Sorting {

  /** `lt` is irreflexive, transitive, and its incomparability is transitive too. */
  ghost predicate StrictWeakOrder<T(!new)>(lt: (T, T) -> bool) {
    && (forall a :: !lt(a, a))
    && (forall a, b, c :: lt(a, b) && lt(b, c) ==> lt(a, c))
    && (forall a, b, c :: !lt(a, b) && !lt(b, c) ==> !lt(a, c))
  }

  /** No later element is strictly less than an earlier one. */
  predicate Sorted<T>(lt: (T, T) -> bool, s: seq<T>) {
    forall i, j :: 0 <= i < j < |s| ==> !lt(s[j], s[i])
  }

  /** Neither is less than the other: the two sort as equals. */
  predicate Equiv<T>(lt: (T, T) -> bool, x: T, y: T) {
    !lt(x, y) && !lt(y, x)
  }

  /** The elements that sort as equal to `a`, in order. */
  function Peers<T>(lt: (T, T) -> bool, s: seq<T>, a: T): seq<T> {
    if |s| == 0 then []
    else (if Equiv(lt, s[0], a) then [s[0]] else []) + Peers(lt, s[1..], a)
  }

  /** `x` placed before the first element strictly greater than it, so after all its equals. */
  function Insert<T>(lt: (T, T) -> bool, x: T, s: seq<T>): (r: seq<T>)
    ensures multiset(r) == multiset(s) + multiset{x}
    ensures |r| == |s| + 1
    ensures forall k :: 0 <= k < |r| ==> r[k] == x || r[k] in s
  {
    if |s| == 0 then [x]
    else if lt(x, s[0]) then [x] + s
    else
      assert s == [s[0]] + s[1..];
      [s[0]] + Insert(lt, x, s[1..])
  }

  /** Each element in turn is inserted into the sorted prefix before it. */
  function Sort<T>(lt: (T, T) -> bool, xs: seq<T>): (r: seq<T>)
    ensures multiset(r) == multiset(xs)
    ensures |r| == |xs|
  {
    if |xs| == 0 then []
    else
      var init := xs[..|xs| - 1];
      assert xs == init + [xs[|xs| - 1]];
      Insert(lt, xs[|xs| - 1], Sort(lt, init))
  }

  lemma {:induction false} InsertSorted<T(!new)>(lt: (T, T) -> bool, x: T, s: seq<T>)
    requires StrictWeakOrder(lt) && Sorted(lt, s)
    ensures Sorted(lt, Insert(lt, x, s))
    decreases |s|
  {
    if |s| > 0 && !lt(x, s[0]) {
      var tail := Insert(lt, x, s[1..]);
      InsertSorted(lt, x, s[1..]);
      var r := [s[0]] + tail;
      forall i, j | 0 <= i < j < |r| ensures !lt(r[j], r[i]) {
        if i == 0 {
          assert r[j] in tail;
          if r[j] != x {
            var k :| 0 <= k < |s[1..]| && s[1..][k] == r[j];
            assert s[k + 1] == r[j];
          }
        } else {
          assert r[j] == tail[j - 1] && r[i] == tail[i - 1];
        }
      }
    }
  }

  lemma {:induction false} SortSorted<T(!new)>(lt: (T, T) -> bool, xs: seq<T>)
    requires StrictWeakOrder(lt)
    ensures Sorted(lt, Sort(lt, xs))
    decreases |xs|
  {
    if |xs| > 0 {
      SortSorted(lt, xs[..|xs| - 1]);
      InsertSorted(lt, xs[|xs| - 1], Sort(lt, xs[..|xs| - 1]));
    }
  }

  lemma {:induction false} PeersAppend<T>(lt: (T, T) -> bool, s: seq<T>, t: seq<T>, a: T)
    ensures Peers(lt, s + t, a) == Peers(lt, s, a) + Peers(lt, t, a)
    decreases |s|
  {
    if |s| > 0 {
      assert (s + t)[1..] == s[1..] + t;
      assert (s + t)[0] == s[0];
      PeersAppend(lt, s[1..], t, a);
    } else {
      assert s + t == t;
    }
  }

  /** Nothing sorts as equal to `a` once everything in `s` is known not to. */
  lemma {:induction false} PeersNone<T>(lt: (T, T) -> bool, s: seq<T>, a: T)
    requires forall k :: 0 <= k < |s| ==> !Equiv(lt, s[k], a)
    ensures Peers(lt, s, a) == []
    decreases |s|
  {
    if |s| > 0 {
      PeersNone(lt, s[1..], a);
    }
  }

  lemma {:induction false} InsertPeers<T(!new)>(lt: (T, T) -> bool, x: T, s: seq<T>, a: T)
    requires StrictWeakOrder(lt) && Sorted(lt, s)
    ensures Peers(lt, Insert(lt, x, s), a) == Peers(lt, s, a) + (if Equiv(lt, x, a) then [x] else [])
    decreases |s|
  {
    if |s| == 0 {
    } else if lt(x, s[0]) {
      assert ([x] + s)[1..] == s;
      if Equiv(lt, x, a) {
        forall k | 0 <= k < |s| ensures !Equiv(lt, s[k], a) {
          assert !lt(s[k], s[0]);
        }
        PeersNone(lt, s, a);
      }
    } else {
      InsertPeers(lt, x, s[1..], a);
      assert ([s[0]] + Insert(lt, x, s[1..]))[1..] == Insert(lt, x, s[1..]);
    }
  }

  /** Stability: elements that sort as equals keep their relative order. */
  lemma {:induction false} SortStable<T(!new)>(lt: (T, T) -> bool, xs: seq<T>, a: T)
    requires StrictWeakOrder(lt)
    ensures Peers(lt, Sort(lt, xs), a) == Peers(lt, xs, a)
    decreases |xs|
  {
    if |xs| > 0 {
      var init, last := xs[..|xs| - 1], xs[|xs| - 1];
      SortStable(lt, init, a);
      SortSorted(lt, init);
      InsertPeers(lt, last, Sort(lt, init), a);
      PeersSnoc(lt, xs, a);
    }
  }

  lemma PeersSnoc<T>(lt: (T, T) -> bool, xs: seq<T>, a: T)
    requires |xs| > 0
    ensures Peers(lt, xs, a) == Peers(lt, xs[..|xs| - 1], a) + (if Equiv(lt, xs[|xs| - 1], a) then [xs[|xs| - 1]] else [])
  {
    assert xs == xs[..|xs| - 1] + [xs[|xs| - 1]];
    PeersAppend(lt, xs[..|xs| - 1], [xs[|xs| - 1]], a);
    PeersSingle(lt, xs[|xs| - 1], a);
  }

  lemma PeersSingle<T>(lt: (T, T) -> bool, x: T, a: T)
    ensures Peers(lt, [x], a) == if Equiv(lt, x, a) then [x] else []
  {
    assert [x][1..] == [];
  }
}

=== FILE: static_slot_loader.dfy ===
/** The line-based slot loader (script/static-slot-loader.js): inside the first `<template>` region
    of a Vue single-file component, each static `slot(…)` line and the more deeply indented
    fallback lines under it are replaced according to the block addressed to the slot. */
module StaticSlotLoader {
  import opened Wrappers
  import opened Text
  import opened Pattern
  import opened Blocks

  /** `'  '` appended until the prefix is at least `n` long. */
  function Pad(n: nat): (p: string)
    ensures n <= |p| < n + 2 && |p| % 2 == 0
    ensures forall i :: 0 <= i < |p| ==> p[i] == ' '
  {
    if n == 0 then "" else "  " + Pad(if n <= 2 then 0 else n - 2)
  }

  /** `line.slice(2)`: a fallback line moved two columns to the left. */
  function Dedent(line: string): string {
    Slice(line, 2, |line|)
  }

  /** The number of lines from `j` on that are indented deeper than `indent`, never counting the
      region's last line. */
  function RunLength(lines: seq<string>, j: nat, indent: nat): (c: nat)
    requires j <= |lines|
    decreases |lines| - j
    ensures j + c <= |lines| && (c > 0 ==> j + c <= |lines| - 1)
    ensures forall k :: j <= k < j + c ==> Indent(lines[k]) > indent
    ensures j + c < |lines| - 1 ==> Indent(lines[j + c]) <= indent
  {
    if j + 1 >= |lines| || Indent(lines[j]) <= indent then 0
    else 1 + RunLength(lines, j + 1, indent)
  }

  /** What the slot line and its fallback lines become: the first block addressed to the slot,
      indented to the slot line, after, before or instead of the fallback; or the fallback alone. */
  function SlotLines(line: string, fallback: seq<string>, blocks: seq<Block>): (r: seq<string>)
    ensures |r| <= |fallback| + 1
    ensures FindBlock(blocks, SlotTarget(line)).None? ==> r == fallback
    ensures FindBlock(blocks, SlotTarget(line)).Some? ==>
      var b := blocks[FindBlock(blocks, SlotTarget(line)).value];
      var inserted := Pad(Indent(line)) + b.body;
      && (b.position == Append ==> r == fallback + [inserted])
      && (b.position == Prepend ==> r == [inserted] + fallback)
      && (b.position == Replace ==> r == [inserted])
  {
    match FindBlock(blocks, SlotTarget(line))
    case None => fallback
    case Some(i) =>
      var inserted := Pad(Indent(line)) + blocks[i].body;
      match blocks[i].position
      case Append => fallback + [inserted]
      case Prepend => [inserted] + fallback
      case Replace => [inserted]
  }

  predicate IsSlotLine(line: string) {
    Matches(StaticSlotCall(), line) != []
  }

  /** The lines under the slot line at `i` that belong to its fallback, moved left. */
  function FallbackLines(lines: seq<string>, i: nat): (fb: seq<string>)
    requires i < |lines|
    ensures |fb| == RunLength(lines, i + 1, Indent(lines[i]))
    ensures forall k :: 0 <= k < |fb| ==> fb[k] == Dedent(lines[i + 1 + k])
  {
    var c := RunLength(lines, i + 1, Indent(lines[i]));
    seq(c, k requires 0 <= k < c => Dedent(lines[i + 1 + k]))
  }

  /** One pass of the loop body at line `i`: a slot line and its fallback are spliced out and
      replaced; any other line is left alone. */
  function Step(lines: seq<string>, i: nat, blocks: seq<Block>): (r: seq<string>)
    requires 1 <= i < |lines| - 1
    ensures |r| <= |lines|
  {
    SpliceIf(lines, i, IsSlotLine(lines[i]), blocks)
  }

  /** The loop body once the test of line `i` is known. */
  function SpliceIf(lines: seq<string>, i: nat, slot: bool, blocks: seq<Block>): (r: seq<string>)
    requires 1 <= i < |lines| - 1
    ensures |r| <= |lines|
  {
    if !slot then lines
    else Splice(lines, i, RunLength(lines, i + 1, Indent(lines[i])), SlotRewrite(lines, i, blocks))
  }

  /** What the slot line at `i` and its fallback lines are replaced with. */
  function SlotRewrite(lines: seq<string>, i: nat, blocks: seq<Block>): (mid: seq<string>)
    requires i < |lines|
    ensures |mid| <= RunLength(lines, i + 1, Indent(lines[i])) + 1
  {
    SlotLines(lines[i], FallbackLines(lines, i), blocks)
  }

  /** `lines.splice(i, c + 1, ...mid)` for a run that stops before the last line: the line at `i`
      and the `c` lines after it give way to `mid`; the lines before `i` and those after the run
      (the last line among them) stay as they are. */
  function Splice(lines: seq<string>, i: nat, c: nat, mid: seq<string>): (r: seq<string>)
    requires i + 1 + c <= |lines| - 1
    ensures |r| == |lines| - (c + 1) + |mid|
    ensures |r| >= i + 1 && r[..i] == lines[..i] && r[|r| - 1] == lines[|lines| - 1]
    ensures r[i..i + |mid|] == mid && r[i + |mid|..] == lines[i + 1 + c..]
  {
    var r := lines[..i] + mid + lines[i + 1 + c..];
    assert r[..i] == lines[..i];
    r
  }

  /** A step keeps the lines before `i` and the last line, whatever the test of line `i` said. */
  lemma StepKeepsEnds(lines: seq<string>, i: nat, slot: bool, blocks: seq<Block>, r: seq<string>)
    requires 1 <= i < |lines| - 1 && r == SpliceIf(lines, i, slot, blocks)
    ensures |r| >= i + 1 && r[..i] == lines[..i] && r[|r| - 1] == lines[|lines| - 1]
  {
  }

  /** One pass of the loop at line `i`: a line that is not a slot line leaves the lines alone; a
      slot line and its fallback run give way to the slot's rewrite, and everything else keeps its
      place. */
  lemma StepSplices(lines: seq<string>, i: nat, blocks: seq<Block>, r: seq<string>)
    requires 1 <= i < |lines| - 1 && r == Step(lines, i, blocks)
    ensures !IsSlotLine(lines[i]) ==> r == lines
    ensures IsSlotLine(lines[i]) ==>
      var c := RunLength(lines, i + 1, Indent(lines[i]));
      var mid := SlotRewrite(lines, i, blocks);
      && |r| == |lines| - (c + 1) + |mid|
      && r[..i] == lines[..i] && r[i..i + |mid|] == mid && r[i + |mid|..] == lines[i + 1 + c..]
  {
    SpliceIfSplices(lines, i, IsSlotLine(lines[i]), blocks, r);
  }

  lemma SpliceIfSplices(lines: seq<string>, i: nat, slot: bool, blocks: seq<Block>, r: seq<string>)
    requires 1 <= i < |lines| - 1 && r == SpliceIf(lines, i, slot, blocks)
    ensures !slot ==> r == lines
    ensures slot ==>
      var c := RunLength(lines, i + 1, Indent(lines[i]));
      var mid := SlotRewrite(lines, i, blocks);
      && |r| == |lines| - (c + 1) + |mid|
      && r[..i] == lines[..i] && r[i..i + |mid|] == mid && r[i + |mid|..] == lines[i + 1 + c..]
  {
    if slot {
      var c := RunLength(lines, i + 1, Indent(lines[i]));
      var mid := SlotRewrite(lines, i, blocks);
      assert r == Splice(lines, i, c, mid);
      SpliceParts(lines, i, c, mid, r);
    }
  }

  lemma SpliceParts(lines: seq<string>, i: nat, c: nat, mid: seq<string>, r: seq<string>)
    requires i + 1 + c <= |lines| - 1 && r == Splice(lines, i, c, mid)
    ensures |r| == |lines| - (c + 1) + |mid|
    ensures r[..i] == lines[..i] && r[i..i + |mid|] == mid && r[i + |mid|..] == lines[i + 1 + c..]
  {
  }

  /** The loop from line `i` to the line before the last, re-reading the lines each splice puts
      in place. The first and last lines are never touched. */
  function RewriteFrom(lines: seq<string>, i: nat, blocks: seq<Block>): (r: seq<string>)
    requires 1 <= i
    decreases |lines| - i
    ensures |r| <= |lines|
  {
    if i + 1 >= |lines| then lines
    else
      var next := Step(lines, i, blocks);
      StepKeepsEnds(lines, i, IsSlotLine(lines[i]), blocks, next);
      var r := RewriteFrom(next, i + 1, blocks);
      r
  }

  /** The loop never touches the lines before its start, nor the region's last line. */
  lemma {:induction false} RewriteKeepsEnds(lines: seq<string>, i: nat, blocks: seq<Block>, r: seq<string>)
    requires 1 <= i < |lines| && r == RewriteFrom(lines, i, blocks)
    ensures |r| >= i + 1 && r[..i] == lines[..i] && r[|r| - 1] == lines[|lines| - 1]
    decreases |lines| - i
  {
    if i + 1 < |lines| {
      var next := Step(lines, i, blocks);
      StepKeepsEnds(lines, i, IsSlotLine(lines[i]), blocks, next);
      assert r == RewriteFrom(next, i + 1, blocks);
      if i + 1 < |next| {
        RewriteKeepsEnds(next, i + 1, blocks, r);
        PrefixOfPrefix(r, next, i);
      }
    }
  }

  lemma PrefixOfPrefix(r: seq<string>, next: seq<string>, i: nat)
    requires i + 1 <= |r| && i + 1 <= |next| && r[..i + 1] == next[..i + 1]
    ensures r[..i] == next[..i]
  {
    assert r[..i] == r[..i + 1][..i];
    assert next[..i] == next[..i + 1][..i];
  }

  /** The rewrite of a `<template>` region, line by line from the second line. */
  function RewriteRegion(region: string, blocks: seq<Block>): string {
    Join(RewriteFrom(Split(region, "\n"), 1, blocks), "\n")
  }

  function Rewriter(blocks: seq<Block>): string -> string {
    (t: string) => RewriteRegion(t, blocks)
  }

  /** The loader: only the first `<template[\s\S]+?</template>` region is rewritten; the text
      before and after it is kept. */
  function Load(source: string, templateBody: string): (r: string)
    ensures Matches(TemplateBlock(true), source) == [] ==> r == source
    ensures Matches(TemplateBlock(true), source) != [] ==>
      var sp := Scan(TemplateBlock(true), source, 0)[0];
      var blocks := ExtractBlocks(templateBody, TemplatePosition);
      && source == source[..sp.start] + Matches(TemplateBlock(true), source)[0] + source[sp.end..]
      && r == source[..sp.start] + RewriteRegion(Matches(TemplateBlock(true), source)[0], blocks) + source[sp.end..]
  {
    ReplaceFirstMatch(TemplateBlock(true), source, Rewriter(ExtractBlocks(templateBody, TemplatePosition)))
  }

  /** A region without slot lines comes out as it went in. */
  lemma {:induction false} NoSlotLinesUnchanged(lines: seq<string>, i: nat, blocks: seq<Block>)
    requires 1 <= i
    requires forall k :: i <= k < |lines| ==> !IsSlotLine(lines[k])
    ensures RewriteFrom(lines, i, blocks) == lines
    decreases |lines| - i
  {
    if i + 1 < |lines| {
      NoSlotLinesUnchanged(lines, i + 1, blocks);
    }
  }
}

=== FILE: styles.dfy ===
/** Scoping a component type's style per instance data (script/build.js, lines 181-213 and
    396-403). Each instance's data is bound into the style compiler, which renders one output per
    instance; identical outputs share a label and different outputs get different labels. Each
    stored output then has its component-name selectors narrowed to the label's attribute. */
module Styles {
  import opened Wrappers
  import opened Text
  import opened Values
  import opened Tokens

  /** A value as the style compiler receives it: an identifier, or an object of nodes. */
  datatype StyleNode = Ident(value: Value) | SObject(entries: Entries<StyleNode>)

  /** A nested value: objects become style objects, anything else an identifier. */
  function Convert(v: Value): StyleNode
    decreases v, 2
  {
    if v.Obj? then SObject(ParseStylusObject(v)) else Ident(v)
  }

  /** `parseStylusObject(o)`: the truthy properties of `o`, converted, in order; falsy ones are dropped. */
  function ParseStylusObject(o: Value): (r: Entries<StyleNode>)
    requires o.Obj?
    decreases o, 1
    ensures DistinctKeys(r)
  {
    PutAllDistinct([], Kept(o, 0));
    PutAll([], Kept(o, 0))
  }

  function Kept(o: Value, i: nat): Entries<StyleNode>
    requires o.Obj?
    decreases o, 0, |o.fields| - i
  {
    if i >= |o.fields| then []
    else
      var f := o.fields[i];
      assert f.1 < o;
      (if Truthy(f.1) then [(f.0, Convert(f.1))] else []) + Kept(o, i + 1)
  }

  /** The value of the last truthy property named `k`: the one a style object keeps. */
  function LastTruthy(fields: seq<(string, Value)>, k: string): Option<Value> {
    if |fields| == 0 then None
    else
      var later := LastTruthy(fields[1..], k);
      if later.Some? then later
      else if fields[0].0 == k && Truthy(fields[0].1) then Some(fields[0].1)
      else None
  }

  /** A style object holds, under each name, the conversion of the last truthy property of that name. */
  lemma ParseStylusObjectLookup(o: Value, k: string)
    requires o.Obj?
    ensures Lookup(ParseStylusObject(o), k) == match LastTruthy(o.fields, k) case None => None case Some(v) => Some(Convert(v))
  {
    PutAllLookup([], Kept(o, 0), k);
    KeptLast(o, 0, k);
    assert o.fields[0..] == o.fields;
  }

  lemma {:induction false} KeptLast(o: Value, i: nat, k: string)
    requires o.Obj? && i <= |o.fields|
    ensures Last(Kept(o, i), k) == match LastTruthy(o.fields[i..], k) case None => None case Some(v) => Some(Convert(v))
    decreases |o.fields| - i
  {
    if i < |o.fields| {
      var f := o.fields[i];
      var rest := o.fields[i..];
      KeptLast(o, i + 1, k);
      assert rest[1..] == o.fields[i + 1..];
      assert rest[0] == f;
      var later := LastTruthy(o.fields[i + 1..], k);
      assert LastTruthy(rest, k) == if later.Some? then later else if f.0 == k && Truthy(f.1) then Some(f.1) else None;
      if Truthy(f.1) {
        var kept := Kept(o, i);
        assert kept == [(f.0, Convert(f.1))] + Kept(o, i + 1);
        LastCons(kept, k);
        assert kept[1..] == Kept(o, i + 1);
      } else {
        assert Kept(o, i) == Kept(o, i + 1);
      }
    }
  }

  /** How one instance value is bound: truthy objects as style objects, everything else (falsy
      values included) as an identifier. */
  function Binding(v: Value): StyleNode {
    if Truthy(v) && v.Obj? then SObject(ParseStylusObject(v)) else Ident(v)
  }

  type Bindings = map<string, StyleNode>

  /** The compiler's variables after the first `n` instances: one compiler serves all instances of
      the type on a page, so each instance's `define`s overwrite or add to the earlier ones. */
  function BindingsUpTo(datas: seq<Data>, n: nat): Bindings
    requires n <= |datas|
  {
    if n == 0 then map[]
    else
      var d := datas[n - 1];
      BindingsUpTo(datas, n - 1) + map k | k in d :: Binding(d[k])
  }

  /** The last instance (among the first `n`) that defines `k` decides its binding. */
  lemma {:induction false} BindingsLastWriter(datas: seq<Data>, n: nat, k: string, j: nat)
    requires j < n <= |datas| && k in datas[j]
    requires forall j' :: j < j' < n ==> k !in datas[j']
    ensures k in BindingsUpTo(datas, n) && BindingsUpTo(datas, n)[k] == Binding(datas[j][k])
    decreases n
  {
    if j < n - 1 {
      assert k !in datas[n - 1];
      BindingsLastWriter(datas, n - 1, k, j);
    }
  }

  /** A name no instance so far defines is not bound. */
  lemma {:induction false} BindingsUnbound(datas: seq<Data>, n: nat, k: string)
    requires n <= |datas|
    requires forall j :: 0 <= j < n ==> k !in datas[j]
    ensures k !in BindingsUpTo(datas, n)
    decreases n
  {
    if n > 0 {
      BindingsUnbound(datas, n - 1, k);
    }
  }

  /** The rendered output of each instance, from the bindings in force when it is rendered. */
  function Outputs(render: Bindings -> string, datas: seq<Data>): (outs: seq<string>)
    ensures |outs| == |datas|
  {
    seq(|datas|, i requires 0 <= i < |datas| => render(BindingsUpTo(datas, i + 1)))
  }

  /** `component.styles` (kept on the cached component, so it carries over from earlier pages), the
      page's `labels`, and the label each instance has been given so far. */
  datatype Scope = Scope(styles: seq<string>, labels: seq<string>, given: seq<string>)

  /** `labels[i]` in a template string: `undefined` when there is no such label. */
  function LabelAt(labels: seq<string>, i: nat): string {
    if i < |labels| then labels[i] else "undefined"
  }

  /** One instance: a new output is stored and mints a label not yet on the page; the instance
      gets the label at its output's index. */
  function ScopeStep(sc: Scope, out: string, draws: seq<Draw>): Result<(Scope, seq<Draw>)> {
    if out in sc.styles then
      Ok((sc.(given := sc.given + [LabelAt(sc.labels, IndexIn(sc.styles, out))]), draws))
    else
      var minted :- DrawFresh(sc.labels, draws);
      var styles := sc.styles + [out];
      var labels := sc.labels + [minted.0];
      Ok((Scope(styles, labels, sc.given + [LabelAt(labels, IndexIn(styles, out))]), minted.1))
  }

  /** The instances from `i` on, in order. */
  function ScopeFrom(sc: Scope, outs: seq<string>, i: nat, draws: seq<Draw>): Result<(Scope, seq<Draw>)>
    decreases |outs| - i
  {
    if i >= |outs| then Ok((sc, draws))
    else
      var next :- ScopeStep(sc, outs[i], draws);
      ScopeFrom(next.0, outs, i + 1, next.1)
  }

  /** What holds after `i` instances of a page that started with no stored styles. */
  predicate Consistent(sc: Scope, outs: seq<string>, i: nat) {
    && i <= |outs|
    && |sc.labels| == |sc.styles| <= i
    && (i > 0 ==> |sc.styles| > 0)
    && Distinct(sc.labels) && Distinct(sc.styles)
    && (forall j :: 0 <= j < |sc.labels| ==> IsToken(sc.labels[j]))
    && (forall j :: 0 <= j < |sc.styles| ==> sc.styles[j] in outs[..i])
    && |sc.given| == i
    && forall j :: 0 <= j < i ==> outs[j] in sc.styles && sc.given[j] == sc.labels[IndexIn(sc.styles, outs[j])]
  }

  lemma StepConsistent(sc: Scope, outs: seq<string>, i: nat, draws: seq<Draw>)
    requires Consistent(sc, outs, i) && i < |outs|
    requires ScopeStep(sc, outs[i], draws).Ok?
    ensures Consistent(ScopeStep(sc, outs[i], draws).value.0, outs, i + 1)
  {
    var out := outs[i];
    if out in sc.styles {
      SeenConsistent(sc, outs, i);
    } else {
      var minted := DrawFresh(sc.labels, draws).value.0;
      IndexInLast(sc.styles, out);
      NewConsistent(sc, outs, i, minted);
    }
  }

  /** An output already stored: the instance reuses that output's label. */
  lemma SeenConsistent(sc: Scope, outs: seq<string>, i: nat)
    requires Consistent(sc, outs, i) && i < |outs| && outs[i] in sc.styles
    ensures Consistent(sc.(given := sc.given + [sc.labels[IndexIn(sc.styles, outs[i])]]), outs, i + 1)
  {
    var sc' := sc.(given := sc.given + [sc.labels[IndexIn(sc.styles, outs[i])]]);
    assert outs[..i + 1] == outs[..i] + [outs[i]];
    forall j | 0 <= j < |sc'.styles| ensures sc'.styles[j] in outs[..i + 1] {
      assert sc.styles[j] in outs[..i];
    }
    forall j | 0 <= j < i + 1
      ensures outs[j] in sc'.styles && sc'.given[j] == sc'.labels[IndexIn(sc'.styles, outs[j])]
    {
      if j < i { assert sc'.given[j] == sc.given[j]; }
    }
  }

  /** A new output: stored at the end with a label not on the page yet. */
  lemma NewConsistent(sc: Scope, outs: seq<string>, i: nat, minted: string)
    requires Consistent(sc, outs, i) && i < |outs| && outs[i] !in sc.styles
    requires IsToken(minted) && minted !in sc.labels
    ensures Consistent(Scope(sc.styles + [outs[i]], sc.labels + [minted], sc.given + [minted]), outs, i + 1)
  {
    var out := outs[i];
    var sc' := Scope(sc.styles + [out], sc.labels + [minted], sc.given + [minted]);
    assert outs[..i + 1] == outs[..i] + [out];
    assert Distinct(sc'.labels) by {
      forall a, b | 0 <= a < b < |sc'.labels| ensures sc'.labels[a] != sc'.labels[b] {
        if b == |sc.labels| { assert sc'.labels[a] == sc.labels[a]; }
      }
    }
    assert Distinct(sc'.styles) by {
      forall a, b | 0 <= a < b < |sc'.styles| ensures sc'.styles[a] != sc'.styles[b] {
        if b == |sc.styles| { assert sc'.styles[a] == sc.styles[a]; }
      }
    }
    forall j | 0 <= j < |sc'.styles| ensures sc'.styles[j] in outs[..i + 1] {
      if j < |sc.styles| { assert sc.styles[j] in outs[..i]; }
    }
    forall j | 0 <= j < i + 1
      ensures outs[j] in sc'.styles && sc'.given[j] == sc'.labels[IndexIn(sc'.styles, outs[j])]
    {
      if j < i {
        IndexInPrefix(sc.styles, out, outs[j]);
        assert sc'.given[j] == sc.given[j];
      } else {
        IndexInLast(sc.styles, out);
      }
    }
  }

  lemma {:induction false} ScopeConsistent(sc: Scope, outs: seq<string>, i: nat, draws: seq<Draw>, res: (Scope, seq<Draw>))
    requires Consistent(sc, outs, i)
    requires ScopeFrom(sc, outs, i, draws) == Ok(res)
    ensures Consistent(res.0, outs, |outs|)
    decreases |outs| - i
  {
    if i < |outs| {
      var step := ScopeFromStep(sc, outs, i, draws, res);
      StepConsistent(sc, outs, i, draws);
      ScopeConsistent(step.0, outs, i + 1, step.1, res);
    }
  }

  /** A run that succeeds took a successful first step and went on from there. */
  lemma ScopeFromStep(sc: Scope, outs: seq<string>, i: nat, draws: seq<Draw>, res: (Scope, seq<Draw>))
    returns (step: (Scope, seq<Draw>))
    requires i < |outs| && ScopeFrom(sc, outs, i, draws) == Ok(res)
    ensures ScopeStep(sc, outs[i], draws) == Ok(step)
    ensures ScopeFrom(step.0, outs, i + 1, step.1) == Ok(res)
  {
    step := ScopeStep(sc, outs[i], draws).value;
  }

  /** The instances of one type on a page, starting from the stored styles `styles0`. */
  function AssignLabels(styles0: seq<string>, outs: seq<string>, draws: seq<Draw>): (r: Result<(Scope, seq<Draw>)>)
    ensures styles0 == [] && r.Ok? ==> Consistent(r.value.0, outs, |outs|)
  {
    var r := ScopeFrom(Scope(styles0, [], []), outs, 0, draws);
    if styles0 == [] && r.Ok? then
      assert Consistent(Scope([], [], []), outs, 0);
      ScopeConsistent(Scope([], [], []), outs, 0, draws, r.value);
      r
    else r
  }

  /** Starting with no stored styles: equal outputs get equal labels, different outputs different
      labels; every label is a token, labels are distinct, and there are between 1 and N of them
      for N instances, one per distinct output. */
  lemma LabelsMatchOutputs(outs: seq<string>, draws: seq<Draw>)
    requires AssignLabels([], outs, draws).Ok?
    ensures var sc := AssignLabels([], outs, draws).value.0;
      && |sc.given| == |outs|
      && (forall i, j :: 0 <= i < |outs| && 0 <= j < |outs| ==> (sc.given[i] == sc.given[j] <==> outs[i] == outs[j]))
      && Distinct(sc.labels) && |sc.labels| == |sc.styles| <= |outs| && (|outs| > 0 ==> |sc.labels| > 0)
      && (forall j :: 0 <= j < |sc.labels| ==> IsToken(sc.labels[j]))
      && Distinct(sc.styles) && (forall x :: x in sc.styles <==> x in outs)
  {
    var sc := AssignLabels([], outs, draws).value.0;
    assert outs[..|outs|] == outs;
    forall i, j | 0 <= i < |outs| && 0 <= j < |outs| && sc.given[i] == sc.given[j] ensures outs[i] == outs[j] {
      var a := IndexIn(sc.styles, outs[i]);
      var b := IndexIn(sc.styles, outs[j]);
      assert sc.labels[a] == sc.labels[b];
    }
  }

  /** `style.replace(new RegExp(name, 'g'), name + '[data-smol-' + label + ']')`. */
  function ScopeSelectors(style: string, name: string, scope: string): string
    requires name != ""
  {
    var sel := name + "[data-smol-" + scope + "]";
    ReplaceEach(style, name, seq(Count(style, name), k requires 0 <= k < Count(style, name) => sel))
  }

  /** Every occurrence of the component name is narrowed to the label; the text between
      occurrences is kept. */
  lemma ScopeSelectorsShape(style: string, name: string, scope: string)
    requires name != ""
    ensures style == Join(Split(style, name), name)
    ensures ScopeSelectors(style, name, scope) == Join(Split(style, name), name + "[data-smol-" + scope + "]")
  {
    JoinSplit(style, name);
    var sel := name + "[data-smol-" + scope + "]";
    WeaveJoin(Split(style, name), sel, seq(Count(style, name), k requires 0 <= k < Count(style, name) => sel));
  }

  /** `component.styles.map((style, index) => …)`: each stored output scoped with the label at its
      own index. */
  function ScopedStyles(styles: seq<string>, labels: seq<string>, name: string): (r: seq<string>)
    requires name != ""
    ensures |r| == |styles|
    ensures forall k :: 0 <= k < |styles| ==> r[k] == ScopeSelectors(styles[k], name, LabelAt(labels, k))
  {
    seq(|styles|, k requires 0 <= k < |styles| => ScopeSelectors(styles[k], name, LabelAt(labels, k)))
  }

  /** Starting with no stored styles, the style scoped with instance i's label is the output that
      instance rendered. */
  lemma InstanceStyleScoped(outs: seq<string>, draws: seq<Draw>, name: string, i: nat)
    requires name != "" && i < |outs|
    requires AssignLabels([], outs, draws).Ok?
    ensures var sc := AssignLabels([], outs, draws).value.0;
      exists k :: 0 <= k < |sc.styles| && sc.styles[k] == outs[i] && sc.labels[k] == sc.given[i]
        && ScopedStyles(sc.styles, sc.labels, name)[k] == ScopeSelectors(outs[i], name, sc.given[i])
  {
    var sc := AssignLabels([], outs, draws).value.0;
    var k := IndexIn(sc.styles, outs[i]);
    assert sc.labels[k] == sc.given[i];
  }
}

=== FILE: tagging.dfy ===
/** Tagging component occurrences in the page markup. Both passes address occurrences of `<name` by
    their ordinal: the id pass replaces all of them at once (script/build.js, lines 125-129), the
    label pass rewrites only the i-th one for instance i (lines 204-209). Splitting the markup at
    `<name` shows what each pass does: it puts text at the head of the piece after the k-th
    occurrence and changes nothing else. */
module Tagging {
  import opened Wrappers
  import opened Text

  /** The literal pattern `<name` (component names hold no regex metacharacters). */
  function Marker(name: string): string {
    "<" + name
  }

  lemma MarkerSelfDelimiting(name: string)
    requires '<' !in name
    ensures SelfDelimiting(Marker(name))
  {
    forall i | 0 < i < |Marker(name)| ensures Marker(name)[i] != '<' {
      assert Marker(name)[i] == name[i - 1];
    }
  }

  /** The k-th occurrence becomes `<name data-smol-id-<ids[k]>`; an occurrence with no instance
      left to read is the source's TypeError. */
  function TagIds(output: string, name: string, ids: seq<string>): (r: Result<string>)
    ensures r.Err? <==> Count(output, Marker(name)) > |ids|
    ensures r.Err? ==> r.error == MissingInstance
  {
    if Count(output, Marker(name)) > |ids| then Err(MissingInstance)
    else Ok(ReplaceEach(output, Marker(name), seq(|ids|, k requires 0 <= k < |ids| => Marker(name) + IdAttr(ids[k]))))
  }

  function IdAttr(id: string): string {
    " data-smol-id-" + id
  }

  /** After the id pass, the piece after the k-th `<name` starts with the k-th id attribute, and
      the pieces themselves are the original ones. */
  lemma IdsFollowOccurrences(output: string, name: string, ids: seq<string>)
    requires '<' !in name
    requires forall k :: 0 <= k < |ids| ==> '<' !in ids[k]
    requires TagIds(output, name, ids).Ok?
    ensures Split(TagIds(output, name, ids).value, Marker(name))
         == Graft(Split(output, Marker(name)), seq(|ids|, k requires 0 <= k < |ids| => IdAttr(ids[k])))
  {
    MarkerSelfDelimiting(name);
    var extra := seq(|ids|, k requires 0 <= k < |ids| => IdAttr(ids[k]));
    forall k | 0 <= k < |ids| ensures '<' !in extra[k] {
      assert extra[k] == " data-smol-id-" + ids[k];
    }
    GraftSplit(output, Marker(name), extra, seq(|ids|, k requires 0 <= k < |ids| => Marker(name) + IdAttr(ids[k])));
  }

  /** `s.replace(/pat/g, m => ++k == i ? rep : m)`: only the i-th occurrence is replaced. */
  function ReplaceNth(s: string, pat: string, i: nat, rep: string): string
    requires |pat| > 0
  {
    ReplaceEach(s, pat, NthOnly(Count(s, pat), i, pat, rep))
  }

  /** The callback's answers: `rep` on call i, the match itself on every other call. */
  function NthOnly(n: nat, i: nat, pat: string, rep: string): (reps: seq<string>)
    ensures |reps| == n
  {
    seq(n, k requires 0 <= k < n => if k == i then rep else pat)
  }

  function LabelAttr(scope: string): string {
    " data-smol-" + scope
  }

  /** The label pass: instance i's label on the i-th occurrence, one instance after the other. */
  function LabelPass(output: string, name: string, labels: seq<string>, i: nat): string
    decreases |labels| - i
  {
    if i >= |labels| then output
    else LabelPass(ReplaceNth(output, Marker(name), i, Marker(name) + LabelAttr(labels[i])), name, labels, i + 1)
  }

  /** What the label pass leaves to do after instance i: pieces after occurrences i.. get their label. */
  function Labelled(parts: seq<string>, labels: seq<string>, i: nat): (r: seq<string>)
    ensures |r| == |parts|
  {
    seq(|parts|, k requires 0 <= k < |parts| =>
      if 1 <= k && i <= k - 1 < |labels| then LabelAttr(labels[k - 1]) + parts[k] else parts[k])
  }

  /** Text for the i-th of `n` occurrences and nothing for the others. */
  function OnlyAt(n: nat, i: nat, x: string): (e: seq<string>)
    ensures |e| == n
  {
    seq(n, k requires 0 <= k < n => if k == i then x else "")
  }

  /** Rewriting the i-th occurrence alone puts the text at the head of the following piece. */
  lemma ReplaceNthPieces(s: string, name: string, i: nat, x: string)
    requires '<' !in name && '<' !in x
    ensures var parts := Split(s, Marker(name));
      Split(ReplaceNth(s, Marker(name), i, Marker(name) + x), Marker(name))
        == seq(|parts|, k requires 0 <= k < |parts| => if k == i + 1 then x + parts[k] else parts[k])
  {
    MarkerSelfDelimiting(name);
    var pat := Marker(name);
    var n := Count(s, pat);
    var extra := OnlyAt(n, i, x);
    var reps := NthOnly(n, i, pat, pat + x);
    assert forall k :: 0 <= k < n ==> reps[k] == pat + extra[k] && pat[0] !in extra[k];
    GraftSplit(s, pat, extra, reps);
    GraftOnlyAt(Split(s, pat), i, x);
  }

  lemma GraftOnlyAt(parts: seq<string>, i: nat, x: string)
    requires |parts| >= 1
    ensures Graft(parts, OnlyAt(|parts| - 1, i, x))
         == seq(|parts|, k requires 0 <= k < |parts| => if k == i + 1 then x + parts[k] else parts[k])
  {
    var extra := OnlyAt(|parts| - 1, i, x);
    var g := Graft(parts, extra);
    forall k | 0 <= k < |parts| ensures g[k] == (if k == i + 1 then x + parts[k] else parts[k]) {
      if k > 0 && k != i + 1 { assert extra[k - 1] == ""; }
    }
  }

  /** After the label pass, the piece after the k-th `<name` starts with instance k's label
      attribute; pieces after occurrences without an instance are untouched. */
  lemma {:induction false} LabelsFollowOccurrences(output: string, name: string, labels: seq<string>, i: nat)
    requires '<' !in name
    requires forall k :: 0 <= k < |labels| ==> '<' !in labels[k]
    ensures Split(LabelPass(output, name, labels, i), Marker(name)) == Labelled(Split(output, Marker(name)), labels, i)
    decreases |labels| - i
  {
    var parts := Split(output, Marker(name));
    if i >= |labels| {
      assert Labelled(parts, labels, i) == parts;
    } else {
      var x := LabelAttr(labels[i]);
      var next := ReplaceNth(output, Marker(name), i, Marker(name) + x);
      ReplaceNthPieces(output, name, i, x);
      LabelsFollowOccurrences(next, name, labels, i + 1);
      var parts' := Split(next, Marker(name));
      assert Labelled(parts', labels, i + 1) == Labelled(parts, labels, i);
    }
  }
}

=== FILE: text.dfy ===
/** String primitives with JavaScript's semantics: slice, indexOf, trim, split/join on a literal
    separator, and the literal global replace that the page assembler applies to `<name`. */
module Text {
  import opened Wrappers

  /** Index normalisation of `String.prototype.slice`: a negative index counts from the end,
      and the result is clamped to [0, n]. */
  function SliceIndex(i: int, n: nat): (k: nat)
    ensures k <= n
    ensures 0 <= i <= n ==> k == i
    ensures -(n as int) <= i < 0 ==> k == n + i
  {
    if i < 0 then (if n + i < 0 then 0 else n + i) else if i > n then n else i
  }

  /** `s.slice(start, end)`. */
  function Slice(s: string, start: int, end: int): string {
    var a := SliceIndex(start, |s|);
    var b := SliceIndex(end, |s|);
    if a < b then s[a..b] else ""
  }

  /** A string is its three pieces around two cut points. */
  lemma CutThree(s: string, a: nat, b: nat)
    requires a <= b <= |s|
    ensures s == s[..a] + s[a..b] + s[b..]
  {
  }

  predicate StartsAt(s: string, i: nat, p: string) {
    i + |p| <= |s| && s[i..i + |p|] == p
  }

  predicate EndsWith(s: string, p: string) {
    |p| <= |s| && s[|s| - |p|..] == p
  }

  /** `p` occurs somewhere in `s` (a regex test with a literal pattern). */
  predicate Contains(s: string, p: string) {
    exists q :: 0 <= q <= |s| - |p| && StartsAt(s, q, p)
  }

  /** First position at or after `from` where `p` occurs. */
  function IndexOf(s: string, p: string, from: nat): (r: Option<nat>)
    decreases |s| - from
    ensures r.Some? ==> from <= r.value && StartsAt(s, r.value, p)
    ensures r.Some? ==> forall q :: from <= q < r.value ==> !StartsAt(s, q, p)
    ensures r.None? ==> forall q :: from <= q ==> !StartsAt(s, q, p)
  {
    if from + |p| > |s| then None
    else if StartsAt(s, from, p) then Some(from)
    else IndexOf(s, p, from + 1)
  }

  lemma IndexOfContains(s: string, p: string)
    ensures IndexOf(s, p, 0).Some? <==> Contains(s, p)
  {
    var r := IndexOf(s, p, 0);
    if r.Some? {
      assert StartsAt(s, r.value, p);
    }
  }

  /** A one-character pattern occurs exactly where its character does. */
  lemma StartsAtChar(s: string, i: nat, c: char)
    requires i < |s|
    ensures StartsAt(s, i, [c]) <==> s[i] == c
  {
    assert s[i..i + 1][0] == s[i];
  }

  /** The first occurrence of a one-character pattern is the first position holding that character. */
  lemma IndexOfSingle(t: string, c: char, j: nat)
    requires j < |t| && t[j] == c
    requires forall i :: 0 <= i < j ==> t[i] != c
    ensures IndexOf(t, [c], 0) == Some(j)
  {
    assert t[j..j + 1] == [c];
    assert StartsAt(t, j, [c]);
    forall i | 0 <= i < j ensures !StartsAt(t, i, [c]) {
      assert t[i..i + 1][0] == t[i];
    }
  }

  /** A one-character pattern is absent exactly when the character is. */
  lemma IndexOfSingleAbsent(t: string, c: char)
    requires c !in t
    ensures IndexOf(t, [c], 0) == None
  {
    forall i | 0 <= i < |t| ensures !StartsAt(t, i, [c]) {
      assert t[i..i + 1][0] == t[i];
    }
  }

  /** `s.indexOf(c)` for a one-character argument: -1 when absent. */
  function IndexOfChar(s: string, c: char): (i: int)
    ensures -1 <= i < |s|
    ensures 0 <= i ==> s[i] == c && c !in s[..i]
    ensures i == -1 <==> c !in s
  {
    if |s| == 0 then -1
    else if s[0] == c then 0
    else
      var j := IndexOfChar(s[1..], c);
      if j < 0 then -1 else j + 1
  }

  /** Line terminators: the characters JavaScript's `.` does not match. */
  predicate IsLineTerminator(c: char) {
    c == '\n' || c == '\r' || c == '\U{2028}' || c == '\U{2029}'
  }

  /** JavaScript white space and line terminators: what `\s` matches and what `trim` removes. */
  predicate IsJsSpace(c: char) {
    || IsLineTerminator(c)
    || c == '\t' || c == '\U{B}' || c == '\U{C}' || c == ' ' || c == '\U{A0}' || c == '\U{FEFF}'
    || c == '\U{1680}' || ('\U{2000}' <= c <= '\U{200A}') || c == '\U{202F}' || c == '\U{205F}'
    || c == '\U{3000}'
  }

  predicate IsBlank(s: string) {
    forall i :: 0 <= i < |s| ==> IsJsSpace(s[i])
  }

  function TrimStart(s: string): string {
    if |s| > 0 && IsJsSpace(s[0]) then TrimStart(s[1..]) else s
  }

  function TrimEnd(s: string): string {
    if |s| > 0 && IsJsSpace(s[|s| - 1]) then TrimEnd(s[..|s| - 1]) else s
  }

  /** `s.trim()`. */
  function Trim(s: string): string {
    TrimEnd(TrimStart(s))
  }

  /** `s.trim()` is falsy exactly when `s` is made of white space only. */
  lemma {:induction false} TrimEmptyIffBlank(s: string)
    ensures Trim(s) == "" <==> IsBlank(s)
  {
    TrimStartBlank(s);
    var t := TrimStart(s);
    TrimEndEmpty(t);
  }

  lemma {:induction false} TrimStartBlank(s: string)
    ensures IsBlank(s) <==> TrimStart(s) == ""
    ensures TrimStart(s) != "" ==> !IsJsSpace(TrimStart(s)[0])
    decreases |s|
  {
    if |s| > 0 && IsJsSpace(s[0]) {
      TrimStartBlank(s[1..]);
      if IsBlank(s[1..]) {
        assert IsBlank(s) by {
          forall i | 0 <= i < |s| ensures IsJsSpace(s[i]) {
            if i > 0 { assert s[i] == s[1..][i - 1]; }
          }
        }
      } else {
        var i :| 0 <= i < |s[1..]| && !IsJsSpace(s[1..][i]);
        assert !IsJsSpace(s[i + 1]);
      }
    } else if |s| > 0 {
      assert !IsJsSpace(s[0]);
    }
  }

  lemma {:induction false} TrimEndEmpty(t: string)
    requires t != "" ==> !IsJsSpace(t[0])
    ensures TrimEnd(t) == "" <==> t == ""
    decreases |t|
  {
    if |t| > 0 && IsJsSpace(t[|t| - 1]) {
      assert |t| > 1;
      TrimEndEmpty(t[..|t| - 1]);
    }
  }

  /** Length of the `^\s+` match (0 when there is none): a line's indentation. */
  function Indent(s: string): (n: nat)
    ensures n <= |s|
    ensures forall i :: 0 <= i < n ==> IsJsSpace(s[i])
    ensures n == |s| || !IsJsSpace(s[n])
  {
    if |s| > 0 && IsJsSpace(s[0]) then 1 + Indent(s[1..]) else 0
  }

  /** `s.split(sep)` for a non-empty literal separator. */
  function Split(s: string, sep: string): (parts: seq<string>)
    requires |sep| > 0
    ensures |parts| >= 1
    decreases |s|
  {
    match IndexOf(s, sep, 0)
    case None => [s]
    case Some(i) => [s[..i]] + Split(s[i + |sep|..], sep)
  }

  /** `parts.join(sep)`. */
  function Join(parts: seq<string>, sep: string): string {
    if |parts| == 0 then ""
    else if |parts| == 1 then parts[0]
    else parts[0] + sep + Join(parts[1..], sep)
  }

  /** Joining the pieces of a split gives the string back. */
  lemma {:induction false} JoinSplit(s: string, sep: string)
    requires |sep| > 0
    ensures Join(Split(s, sep), sep) == s
    decreases |s|
  {
    var o := IndexOf(s, sep, 0);
    if o.Some? {
      var i := o.value;
      var rest := s[i + |sep|..];
      SplitAt(s, sep, i);
      JoinSplit(rest, sep);
      JoinCons(s[..i], sep, Split(rest, sep));
      assert s[i..i + |sep|] == sep;
      CutThree(s, i, i + |sep|);
    }
  }

  /** The pieces of a split: the text before the first separator, then the pieces of the rest. */
  lemma SplitAt(s: string, sep: string, i: nat)
    requires |sep| > 0 && IndexOf(s, sep, 0) == Some(i)
    ensures Split(s, sep) == [s[..i]] + Split(s[i + |sep|..], sep)
  {
  }

  lemma JoinCons(a: string, sep: string, parts: seq<string>)
    requires |parts| >= 1
    ensures Join([a] + parts, sep) == a + sep + Join(parts, sep)
  {
    assert ([a] + parts)[1..] == parts;
  }

  /** No piece of a split contains the separator. */
  lemma {:induction false} SplitPartsFree(s: string, sep: string)
    requires |sep| > 0
    ensures forall k :: 0 <= k < |Split(s, sep)| ==> !Contains(Split(s, sep)[k], sep)
    decreases |s|
  {
    match IndexOf(s, sep, 0)
    case None =>
      if Contains(s, sep) {
        var q :| 0 <= q <= |s| - |sep| && StartsAt(s, q, sep);
      }
    case Some(i) =>
      var rest := s[i + |sep|..];
      SplitPartsFree(rest, sep);
      var head := s[..i];
      if Contains(head, sep) {
        var q :| 0 <= q <= |head| - |sep| && StartsAt(head, q, sep);
        assert head[q..q + |sep|] == s[q..q + |sep|];
        assert StartsAt(s, q, sep);
      }
      var parts := Split(s, sep);
      assert parts == [head] + Split(rest, sep);
      forall k | 0 <= k < |parts| ensures !Contains(parts[k], sep) {
        if k > 0 { assert parts[k] == Split(rest, sep)[k - 1]; }
      }
  }

  /** The first character of the separator occurs nowhere else in it (true of `<name` when the
      name has no `<`, and of every one-character separator). */
  predicate SelfDelimiting(sep: string) {
    |sep| > 0 && forall i :: 0 < i < |sep| ==> sep[i] != sep[0]
  }

  /** In `a + sep + b` with `a` free of `sep`, the first occurrence is the one after `a`. */
  lemma FirstOccurrenceAfter(a: string, sep: string, b: string)
    requires SelfDelimiting(sep) && !Contains(a, sep)
    ensures IndexOf(a + sep + b, sep, 0) == Some(|a|)
  {
    var s := a + sep + b;
    assert s[|a|..|a| + |sep|] == sep;
    assert StartsAt(s, |a|, sep);
    forall q | 0 <= q < |a| ensures !StartsAt(s, q, sep) {
      if q + |sep| <= |a| {
        assert a[q..q + |sep|] == s[q..q + |sep|];
        assert !StartsAt(a, q, sep);
      } else if q + |sep| <= |s| {
        var d := |a| - q;
        assert s[q..q + |sep|][d] == s[|a|] == sep[0] != sep[d];
      }
    }
  }

  /** Splitting a join gives the pieces back, when no piece contains a self-delimiting separator. */
  lemma {:induction false} SplitJoin(parts: seq<string>, sep: string)
    requires SelfDelimiting(sep) && |parts| >= 1
    requires forall k :: 0 <= k < |parts| ==> !Contains(parts[k], sep)
    ensures Split(Join(parts, sep), sep) == parts
    decreases |parts|
  {
    if |parts| == 1 {
      IndexOfContains(parts[0], sep);
    } else {
      var rest := Join(parts[1..], sep);
      assert parts == [parts[0]] + parts[1..];
      JoinCons(parts[0], sep, parts[1..]);
      FirstOccurrenceAfter(parts[0], sep, rest);
      SplitAt(parts[0] + sep + rest, sep, |parts[0]|);
      AroundSeparator(parts[0], sep, rest);
      SplitJoin(parts[1..], sep);
    }
  }

  lemma AroundSeparator(a: string, sep: string, b: string)
    ensures (a + sep + b)[..|a|] == a && (a + sep + b)[|a| + |sep|..] == b
  {
  }

  /** Markup ending in a closing tag splits at its first `>` into the opening tag, the content
      `slice(indexOf('>') + 1, -|close|)`, and the closing tag. */
  lemma SplitAtFirstGt(t: string, close: string, back: int, g: int)
    requires 0 < |close| <= |t| && back == -|close| && EndsWith(t, close) && close[|close| - 1] == '>'
    requires g == IndexOfChar(t, '>')
    ensures 0 <= g
    ensures g + 1 <= |t| + back ==> t == t[..g + 1] + Slice(t, g + 1, back) + close
    ensures g + 1 > |t| + back ==> Slice(t, g + 1, back) == ""
  {
    var n, c := |t|, |close|;
    assert t[n - 1] == t[n - c..][c - 1];
    if g + 1 <= n - c {
      assert Slice(t, g + 1, back) == t[g + 1..n - c] by {
        assert SliceIndex(g + 1, n) == g + 1 && SliceIndex(back, n) == n - c;
      }
      CutThree(t, g + 1, n - c);
    }
  }


  /** Text that does not start a separator occurrence may be put in front of a piece. */
  lemma PrefixKeepsFree(x: string, y: string, sep: string)
    requires |sep| > 0 && sep[0] !in x && !Contains(y, sep)
    ensures !Contains(x + y, sep)
  {
    var s := x + y;
    forall q | 0 <= q <= |s| - |sep| ensures !StartsAt(s, q, sep) {
      if q < |x| {
        assert s[q..q + |sep|][0] == x[q] != sep[0];
      } else {
        assert s[q..q + |sep|] == y[q - |x|..q - |x| + |sep|];
        assert !StartsAt(y, q - |x|, sep);
      }
    }
  }

  /** `parts[0] + reps[0] + parts[1] + reps[1] + ... + parts[n]`: a global replace whose i-th
      occurrence becomes `reps[i]`. */
  function Weave(parts: seq<string>, reps: seq<string>): string
    requires |parts| >= 1 && |reps| >= |parts| - 1
  {
    if |parts| == 1 then parts[0] else parts[0] + reps[0] + Weave(parts[1..], reps[1..])
  }

  /** Number of non-overlapping occurrences of `pat` found left to right. */
  function Count(s: string, pat: string): nat
    requires |pat| > 0
  {
    |Split(s, pat)| - 1
  }

  /** `s.replace(/pat/g, f)` for a literal pattern and a callback whose k-th call returns
      `reps[k]`; defined when the callback has an answer for every occurrence. */
  function ReplaceEach(s: string, pat: string, reps: seq<string>): string
    requires |pat| > 0 && |reps| >= Count(s, pat)
  {
    Weave(Split(s, pat), reps)
  }

  /** Replacing every occurrence by the pattern itself changes nothing. */
  lemma ReplaceEachIdentity(s: string, pat: string, reps: seq<string>)
    requires |pat| > 0 && |reps| >= Count(s, pat)
    requires forall k :: 0 <= k < |reps| ==> reps[k] == pat
    ensures ReplaceEach(s, pat, reps) == s
  {
    WeaveJoin(Split(s, pat), pat, reps);
    JoinSplit(s, pat);
  }

  lemma {:induction false} WeaveJoin(parts: seq<string>, sep: string, reps: seq<string>)
    requires |parts| >= 1 && |reps| >= |parts| - 1
    requires forall k :: 0 <= k < |reps| ==> reps[k] == sep
    ensures Weave(parts, reps) == Join(parts, sep)
    decreases |parts|
  {
    if |parts| > 1 {
      WeaveJoin(parts[1..], sep, reps[1..]);
    }
  }

  /** Pieces after inserting `extra[k]` right behind the k-th separator occurrence. */
  function Graft(parts: seq<string>, extra: seq<string>): (r: seq<string>)
    requires |extra| >= |parts| - 1
    ensures |r| == |parts|
  {
    seq(|parts|, k requires 0 <= k < |parts| => if k == 0 then parts[0] else extra[k - 1] + parts[k])
  }

  /** Replacing the k-th occurrence by `sep + extra[k]` is joining the grafted pieces. */
  lemma {:induction false} WeaveGraft(parts: seq<string>, sep: string, extra: seq<string>, reps: seq<string>)
    requires |parts| >= 1 && |extra| >= |parts| - 1 && |reps| >= |parts| - 1
    requires forall k :: 0 <= k < |parts| - 1 ==> reps[k] == sep + extra[k]
    ensures Weave(parts, reps) == Join(Graft(parts, extra), sep)
    decreases |parts|
  {
    if |parts| > 1 {
      var g := Graft(parts, extra);
      var g' := Graft(parts[1..], extra[1..]);
      WeaveGraft(parts[1..], sep, extra[1..], reps[1..]);
      JoinPrependHead(extra[0], g', sep);
      assert g[1..] == [extra[0] + g'[0]] + g'[1..];
    }
  }

  lemma JoinPrependHead(x: string, ps: seq<string>, sep: string)
    requires |ps| >= 1
    ensures x + Join(ps, sep) == Join([x + ps[0]] + ps[1..], sep)
  {
    var q := [x + ps[0]] + ps[1..];
    if |ps| > 1 {
      assert q[1..] == ps[1..];
    }
  }

  /** Inserting text that cannot start a separator right behind each occurrence grafts it onto the
      pieces: splitting the result again shows the k-th insertion at the head of piece k + 1. */
  lemma GraftSplit(s: string, sep: string, extra: seq<string>, reps: seq<string>)
    requires SelfDelimiting(sep) && |reps| >= Count(s, sep) && |extra| >= Count(s, sep)
    requires forall k :: 0 <= k < Count(s, sep) ==> reps[k] == sep + extra[k] && sep[0] !in extra[k]
    ensures Split(ReplaceEach(s, sep, reps), sep) == Graft(Split(s, sep), extra)
  {
    var parts := Split(s, sep);
    var g := Graft(parts, extra);
    WeaveGraft(parts, sep, extra, reps);
    SplitPartsFree(s, sep);
    forall k | 0 <= k < |g| ensures !Contains(g[k], sep) {
      if k > 0 { PrefixKeepsFree(extra[k - 1], parts[k], sep); }
    }
    SplitJoin(g, sep);
  }

  /** Keeps the non-empty strings (`filter(item => item)`). */
  function NonEmpty(parts: seq<string>): (r: seq<string>)
    ensures forall k :: 0 <= k < |r| ==> r[k] != ""
    ensures forall x :: x in r <==> x in parts && x != ""
  {
    if |parts| == 0 then []
    else if parts[0] == "" then NonEmpty(parts[1..])
    else [parts[0]] + NonEmpty(parts[1..])
  }

  /** `filter` keeps order and repeats: a one-element list keeps its element unless it is empty,
      and filtering distributes over concatenation. */
  lemma {:induction false} NonEmptyFilters(a: seq<string>, b: seq<string>, x: string)
    ensures NonEmpty([x]) == (if x == "" then [] else [x])
    ensures NonEmpty(a + b) == NonEmpty(a) + NonEmpty(b)
    decreases |a|
  {
    assert [x][1..] == [];
    if |a| == 0 {
      assert a + b == b;
    } else {
      assert (a + b)[0] == a[0] && (a + b)[1..] == a[1..] + b;
      NonEmptyFilters(a[1..], b, x);
    }
  }

  /** `s.split('/').filter(item => item)`. */
  function Segments(s: string): seq<string> {
    NonEmpty(Split(s, "/"))
  }

  /** `s.split('/').filter(item => item).join('/')`: a path without empty segments. */
  function CleanPath(s: string): string {
    Join(Segments(s), "/")
  }

  lemma SegmentsHaveNoSlash(s: string)
    ensures forall k :: 0 <= k < |Segments(s)| ==> Segments(s)[k] != "" && !Contains(Segments(s)[k], "/")
  {
    SplitPartsFree(s, "/");
    var parts := Split(s, "/");
    forall k | 0 <= k < |Segments(s)| ensures !Contains(Segments(s)[k], "/") {
      var x := Segments(s)[k];
      assert x in parts;
      var j :| 0 <= j < |parts| && parts[j] == x;
    }
  }

  /** A cleaned path has the same segments as the original, so cleaning is idempotent. */
  lemma CleanPathSegments(s: string)
    ensures Segments(CleanPath(s)) == Segments(s)
    ensures CleanPath(CleanPath(s)) == CleanPath(s)
  {
    var segs := Segments(s);
    SegmentsHaveNoSlash(s);
    if |segs| == 0 {
      assert CleanPath(s) == "";
      assert Split("", "/") == [""];
    } else {
      SplitJoin(segs, "/");
      NonEmptyFixed(segs);
    }
  }

  lemma {:induction false} NonEmptyFixed(parts: seq<string>)
    requires forall k :: 0 <= k < |parts| ==> parts[k] != ""
    ensures NonEmpty(parts) == parts
    decreases |parts|
  {
    if |parts| > 0 {
      NonEmptyFixed(parts[1..]);
    }
  }

  /** `s.replace(/pat/, rep)` for a literal pattern and replacement: the first occurrence only. */
  function ReplaceFirst(s: string, pat: string, rep: string): string {
    match IndexOf(s, pat, 0)
    case None => s
    case Some(i) => s[..i] + rep + s[i + |pat|..]
  }
}

=== FILE: tokens.dfy ===
/** Page-unique tokens (script/build.js, lines 116-129 and 195-201): instance ids and style labels
    are 8 characters drawn from `a-z0-9`, redrawn while they collide with the ones already issued.
    The random generator is an oracle: a sequence of draws, each giving the 8 alphabet positions
    one call of the generator would pick. */
module Tokens {
  import opened Wrappers
  import opened Text
  import opened Values

  const Alphabet: string := "abcdefghijklmnopqrstuvwxyz1234567890"
  const TokenLength: nat := 8

  /** One call of the generator: the alphabet position of each of the 8 characters. */
  type Draw = d: seq<nat> | |d| == TokenLength && forall i :: 0 <= i < |d| ==> d[i] < |Alphabet|
    witness [0, 0, 0, 0, 0, 0, 0, 0]

  predicate IsTokenChar(c: char) {
    'a' <= c <= 'z' || '0' <= c <= '9'
  }

  predicate IsToken(t: string) {
    |t| == TokenLength && forall i :: 0 <= i < |t| ==> IsTokenChar(t[i])
  }

  lemma AlphabetChars()
    ensures |Alphabet| == 36
    ensures forall i :: 0 <= i < |Alphabet| ==> IsTokenChar(Alphabet[i])
    ensures forall c :: IsTokenChar(c) ==> c in Alphabet
  {
    forall c | IsTokenChar(c) ensures c in Alphabet {
      if 'a' <= c <= 'z' {
        assert Alphabet[c as int - 'a' as int] == c;
      } else if c == '0' {
        assert Alphabet[35] == c;
      } else {
        assert Alphabet[25 + (c as int - '0' as int)] == c;
      }
    }
  }

  /** The token a draw produces. */
  function Generate(d: Draw): (t: string)
    ensures IsToken(t)
  {
    AlphabetChars();
    seq(TokenLength, i requires 0 <= i < TokenLength => Alphabet[d[i]])
  }

  /** Every token is some draw's output: the generator can reach the whole token space. */
  lemma GenerateOnto(t: string)
    requires IsToken(t)
    ensures exists d: Draw :: Generate(d) == t
  {
    AlphabetChars();
    var d := seq(TokenLength, i requires 0 <= i < TokenLength => IndexOfChar(Alphabet, t[i]));
    assert forall i :: 0 <= i < TokenLength ==> Alphabet[d[i]] == t[i];
    assert Generate(d) == t;
  }

  /** `while (true) { t = generate(); if (!issued.includes(t)) break }`: the first draw that gives
      a token not yet issued, and the draws left after it. The loop would never end if every
      remaining draw collided; with a finite oracle that is a failure. */
  function DrawFresh(issued: seq<string>, draws: seq<Draw>): (r: Result<(string, seq<Draw>)>)
    ensures r.Err? <==> forall j :: 0 <= j < |draws| ==> Generate(draws[j]) in issued
    ensures r.Ok? ==> IsToken(r.value.0) && r.value.0 !in issued
    decreases |draws|
  {
    if |draws| == 0 then Err(OracleExhausted)
    else
      var t := Generate(draws[0]);
      if t !in issued then Ok((t, draws[1..]))
      else
        var r := DrawFresh(issued, draws[1..]);
        assert r.Err? ==> forall j :: 0 <= j < |draws| ==> Generate(draws[j]) in issued by {
          if r.Err? {
            forall j | 0 <= j < |draws| ensures Generate(draws[j]) in issued {
              if j > 0 { assert draws[j] == draws[1..][j - 1]; }
            }
          }
        }
        r
  }

  /** The token drawn is the first draw's that was not issued yet, and the draws after it are
      what is left. */
  lemma {:induction false} DrawFreshSkips(issued: seq<string>, draws: seq<Draw>, res: (string, seq<Draw>))
    requires DrawFresh(issued, draws) == Ok(res)
    ensures exists k :: 0 <= k < |draws| && res.0 == Generate(draws[k]) && res.1 == draws[k + 1..]
                        && forall j :: 0 <= j < k ==> Generate(draws[j]) in issued
    decreases |draws|
  {
    if Generate(draws[0]) !in issued {
      assert draws[1..] == draws[0 + 1..];
    } else {
      DrawFreshSkips(issued, draws[1..], res);
      var k :| 0 <= k < |draws[1..]| && res.0 == Generate(draws[1..][k]) && res.1 == draws[1..][k + 1..]
               && forall j :: 0 <= j < k ==> Generate(draws[1..][j]) in issued;
      assert draws[1..][k + 1..] == draws[k + 2..];
      forall j | 0 <= j < k + 1 ensures Generate(draws[j]) in issued {
        if j > 0 { assert draws[j] == draws[1..][j - 1]; }
      }
      assert res.0 == Generate(draws[k + 1]);
    }
  }

  /** Issues `n` tokens one after the other, each checked against all issued before it. */
  function IssueMany(issued: seq<string>, n: nat, draws: seq<Draw>): (r: Result<(seq<string>, seq<Draw>)>)
    ensures r.Ok? ==> |r.value.0| == n
    ensures r.Ok? ==> forall i :: 0 <= i < n ==> IsToken(r.value.0[i]) && r.value.0[i] !in issued
    ensures r.Ok? ==> Distinct(r.value.0)
    decreases n
  {
    if n == 0 then Ok(([], draws))
    else
      var first := DrawFresh(issued, draws);
      if first.Err? then Err(first.error)
      else
        var t := first.value.0;
        assert IsToken(t) && t !in issued;
        var rest := IssueMany(issued + [t], n - 1, first.value.1);
        if rest.Err? then Err(rest.error)
        else
          var later := rest.value.0;
          assert forall i :: 0 <= i < |later| ==> later[i] !in issued && later[i] != t by {
            forall i | 0 <= i < |later| ensures later[i] !in issued && later[i] != t {
              assert later[i] !in issued + [t];
            }
          }
          var ids := [t] + later;
          assert forall i :: 1 <= i < n ==> ids[i] == later[i - 1];
          Ok((ids, rest.value.1))
  }

  /** Issuing keeps a distinct list of issued tokens distinct. */
  lemma IssueKeepsDistinct(issued: seq<string>, n: nat, draws: seq<Draw>)
    requires Distinct(issued)
    requires IssueMany(issued, n, draws).Ok?
    ensures Distinct(issued + IssueMany(issued, n, draws).value.0)
  {
    var ids := IssueMany(issued, n, draws).value.0;
    var all := issued + ids;
    forall i, j | 0 <= i < j < |all| ensures all[i] != all[j] {
      if j >= |issued| && i < |issued| {
        assert all[j] == ids[j - |issued|] && all[i] in issued;
      } else if i >= |issued| {
        assert all[i] == ids[i - |issued|] && all[j] == ids[j - |issued|];
      }
    }
  }
}

=== FILE: values.dfy ===
/** JavaScript values as they flow through page data, and objects as ordered key/value entries. */
module Values {
  import opened Wrappers

  /** The values page and instance data can hold. Objects keep their keys in insertion order. */
  datatype Value =
    | Undefined
    | Null
    | Bool(b: bool)
    | Num(n: int)
    | Str(s: string)
    | Obj(fields: seq<(string, Value)>)

  /** Page, template and instance data: a plain object. */
  type Data = map<string, Value>

  /** JavaScript truthiness (`if (v)`). */
  predicate Truthy(v: Value) {
    match v
    case Undefined => false
    case Null => false
    case Bool(b) => b
    case Num(n) => n != 0
    case Str(s) => s != ""
    case Obj(_) => true
  }

  /** An object's own properties, in insertion order. */
  type Entries<V> = seq<(string, V)>

  function Keys<V>(e: Entries<V>): (ks: seq<string>)
    ensures |ks| == |e|
    ensures forall i :: 0 <= i < |e| ==> ks[i] == e[i].0
  {
    seq(|e|, i requires 0 <= i < |e| => e[i].0)
  }

  /** No element occurs twice. */
  predicate Distinct<T(==)>(xs: seq<T>) {
    forall i, j :: 0 <= i < j < |xs| ==> xs[i] != xs[j]
  }

  /** `xs.indexOf(x)` for an element that is present. */
  function IndexIn<T(==)>(xs: seq<T>, x: T): (i: nat)
    requires x in xs
    ensures i < |xs| && xs[i] == x
    ensures forall k :: 0 <= k < i ==> xs[k] != x
  {
    if xs[0] == x then 0 else IndexIn(xs[1..], x) + 1
  }

  lemma IndexInPrefix<T>(xs: seq<T>, y: T, x: T)
    requires x in xs
    ensures IndexIn(xs + [y], x) == IndexIn(xs, x)
  {
    var i := IndexIn(xs, x);
    IndexInUnique(xs + [y], x, i);
  }

  /** The first position holding `x` is the one `indexOf` finds. */
  lemma IndexInUnique<T>(xs: seq<T>, x: T, j: nat)
    requires j < |xs| && xs[j] == x
    requires forall k :: 0 <= k < j ==> xs[k] != x
    ensures IndexIn(xs, x) == j
  {
  }

  lemma IndexInLast<T>(xs: seq<T>, y: T)
    requires y !in xs
    ensures IndexIn(xs + [y], y) == |xs|
  {
    IndexInUnique(xs + [y], y, |xs|);
  }

/** `xs.filter((x, index) => xs.indexOf(x) == index)` over the first `n` elements. */
  function FirstsUpTo(s: seq<string>, n: nat): (r: seq<string>)
    requires n <= |s|
    ensures Distinct(r)
    ensures forall x :: x in r <==> x in s[..n]
    ensures forall i :: 0 <= i < |r| ==> r[i] in s
    ensures forall i, j :: 0 <= i < j < |r| ==> IndexIn(s, r[i]) < IndexIn(s, r[j])
    ensures forall i :: 0 <= i < |r| ==> IndexIn(s, r[i]) < n
  {
    if n == 0 then []
    else
      var prev := FirstsUpTo(s, n - 1);
      var x := s[n - 1];
      assert s[..n] == s[..n - 1] + [x];
      if x in s[..n - 1] then prev
      else
        assert forall k :: 0 <= k < n - 1 ==> s[k] != x by {
          forall k | 0 <= k < n - 1 ensures s[k] != x { assert s[k] == s[..n - 1][k]; }
        }
        IndexInUnique(s, x, n - 1);
        var r := prev + [x];
        assert forall i :: 0 <= i < |prev| ==> r[i] == prev[i];
        r
  }

  /** Duplicates dropped, each element kept where it first occurs. */
  function Dedup(s: seq<string>): (r: seq<string>)
    ensures Distinct(r)
    ensures forall x :: x in r <==> x in s
    ensures forall i :: 0 <= i < |r| ==> r[i] in s
    ensures forall i, j :: 0 <= i < j < |r| ==> IndexIn(s, r[i]) < IndexIn(s, r[j])
  {
    assert s[..|s|] == s;
    FirstsUpTo(s, |s|)
  }

  /** Dropping duplicates twice drops nothing more. */
  lemma DedupIdempotent(s: seq<string>)
    ensures Dedup(Dedup(s)) == Dedup(s)
  {
    DedupDistinct(Dedup(s));
  }

  lemma DedupDistinct(s: seq<string>)
    requires Distinct(s)
    ensures Dedup(s) == s
  {
    KeepsDistinct(s, |s|);
    assert s[..|s|] == s;
  }

  lemma {:induction false} KeepsDistinct(s: seq<string>, n: nat)
    requires Distinct(s) && n <= |s|
    ensures FirstsUpTo(s, n) == s[..n]
    decreases n
  {
    if n > 0 {
      KeepsDistinct(s, n - 1);
      assert s[..n] == s[..n - 1] + [s[n - 1]];
      assert s[n - 1] !in s[..n - 1];
    }
  }

  predicate DistinctKeys<V>(e: Entries<V>) {
    Distinct(Keys(e))
  }

  /** `obj[k]`: the value stored under `k`, if the key is present. */
  function Lookup<V>(e: Entries<V>, k: string): (r: Option<V>)
    ensures r.None? <==> k !in Keys(e)
  {
    if |e| == 0 then None
    else if e[0].0 == k then Some(e[0].1)
    else
      assert Keys(e) == [e[0].0] + Keys(e[1..]);
      Lookup(e[1..], k)
  }

  /** `obj[k] = v`: overwrites the value in place, or appends a new key at the end. */
  function Put<V>(e: Entries<V>, k: string, v: V): (r: Entries<V>)
    ensures Lookup(r, k) == Some(v)
    ensures forall k' :: k' != k ==> Lookup(r, k') == Lookup(e, k')
  {
    if |e| == 0 then [(k, v)]
    else if e[0].0 == k then
      var r := [(k, v)] + e[1..];
      assert r[1..] == e[1..];
      r
    else
      var t := Put(e[1..], k, v);
      var r := [e[0]] + t;
      assert r[1..] == t;
      r
  }

  /** Assignment keeps the key order: an existing key stays where it is, a new one goes last. */
  lemma {:induction false} PutKeys<V>(e: Entries<V>, k: string, v: V)
    ensures k in Keys(e) ==> Keys(Put(e, k, v)) == Keys(e)
    ensures k !in Keys(e) ==> Keys(Put(e, k, v)) == Keys(e) + [k]
    decreases |e|
  {
    if |e| > 0 {
      KeysCons(e[0], e[1..]);
      assert [e[0]] + e[1..] == e;
      if e[0].0 == k {
        KeysCons((k, v), e[1..]);
      } else {
        PutKeys(e[1..], k, v);
        KeysCons(e[0], Put(e[1..], k, v));
      }
    }
  }

  lemma KeysCons<V>(p: (string, V), e: Entries<V>)
    ensures Keys([p] + e) == [p.0] + Keys(e)
  {
  }

  /** Assignment keeps an object's keys distinct. */
  lemma PutDistinct<V>(e: Entries<V>, k: string, v: V)
    requires DistinctKeys(e)
    ensures DistinctKeys(Put(e, k, v))
  {
    var ks := Keys(e);
    PutKeys(e, k, v);
    if k !in ks {
      var ks' := ks + [k];
      forall i, j | 0 <= i < j < |ks'| ensures ks'[i] != ks'[j] {
        if j == |ks| { assert ks'[i] == ks[i]; }
      }
    }
  }

  /** The value the last pair with key `k` carries: the one a left-to-right assignment keeps. */
  function Last<V>(kvs: Entries<V>, k: string): Option<V> {
    if |kvs| == 0 then None
    else if kvs[|kvs| - 1].0 == k then Some(kvs[|kvs| - 1].1)
    else Last(kvs[..|kvs| - 1], k)
  }

  /** Peeling the first assignment: the rest wins unless it never assigns `k`. */
  lemma {:induction false} LastCons<V>(kvs: Entries<V>, k: string)
    requires |kvs| > 0
    ensures Last(kvs, k) == (if Last(kvs[1..], k).Some? then Last(kvs[1..], k)
                            else if kvs[0].0 == k then Some(kvs[0].1) else None)
    decreases |kvs|
  {
    if |kvs| > 1 {
      var init := kvs[..|kvs| - 1];
      assert init[1..] == kvs[1..][..|kvs[1..]| - 1];
      LastCons(init, k);
    }
  }

  /** Assigning pairs to an object one after the other. */
  function PutAll<V>(e: Entries<V>, kvs: Entries<V>): Entries<V>
    decreases |kvs|
  {
    if |kvs| == 0 then e else PutAll(Put(e, kvs[0].0, kvs[0].1), kvs[1..])
  }

  /** After assigning the pairs, a key holds its last assigned value, or its old one if none. */
  lemma {:induction false} PutAllLookup<V>(e: Entries<V>, kvs: Entries<V>, k: string)
    ensures Lookup(PutAll(e, kvs), k) == (if Last(kvs, k).Some? then Last(kvs, k) else Lookup(e, k))
    decreases |kvs|
  {
    if |kvs| > 0 {
      PutAllLookup(Put(e, kvs[0].0, kvs[0].1), kvs[1..], k);
      LastCons(kvs, k);
    }
  }

  lemma {:induction false} PutAllDistinct<V>(e: Entries<V>, kvs: Entries<V>)
    requires DistinctKeys(e)
    ensures DistinctKeys(PutAll(e, kvs))
    decreases |kvs|
  {
    if |kvs| > 0 {
      PutDistinct(e, kvs[0].0, kvs[0].1);
      PutAllDistinct(Put(e, kvs[0].0, kvs[0].1), kvs[1..]);
    }
  }

  /** Assigning pairs into a plain object map (`componentData[k] = v` in a loop). */
  function AssignAll<V>(d: map<string, V>, kvs: Entries<V>): (r: map<string, V>)
    ensures forall k :: Last(kvs, k).Some? ==> k in r && r[k] == Last(kvs, k).value
    ensures forall k :: Last(kvs, k).None? ==> (k in r <==> k in d) && (k in d ==> r[k] == d[k])
    decreases |kvs|
  {
    if |kvs| == 0 then d
    else
      var r := AssignAll(d[kvs[0].0 := kvs[0].1], kvs[1..]);
      assert forall k :: Last(kvs, k) == (if Last(kvs[1..], k).Some? then Last(kvs[1..], k)
                                          else if kvs[0].0 == k then Some(kvs[0].1) else None) by {
        forall k { LastCons(kvs, k); }
      }
      r
  }
}

=== FILE: wrappers.dfy ===
/** Failure-compatible wrappers shared by every module of the model. */
module Wrappers {

  datatype Option<+T> = None | Some(value: T) {
    function GetOr(default: T): T {
      match this
      case Some(v) => v
      case None => default
    }
  }

  /** Why a page build stops. Each case is a point where the source throws or never returns. */
  datatype Failure =
    | OracleExhausted          // the redraw loop would keep drawing: every remaining draw collides
    | MissingInstance          // a callback indexes past the collected instances (TypeError in the source)
    | MissingOpeningTag        // `s.match(...)[0]` on a null match (TypeError in the source)
    | MissingClosingTag        // `for (let match of null)`: no instance of a Vue type is closed (TypeError)
    | UnknownComponent(name: string)  // getComponent returned null, so `component.def` throws

  datatype Result<+T> = Ok(value: T) | Err(error: Failure) {
    predicate IsFailure() { Err? }
    function PropagateFailure<U>(): Result<U>
      requires Err?
    {
      Err(error)
    }
    function Extract(): T
      requires Ok?
    {
      value
    }
  }

  /** Runs steps in order and stops at the first failure, as a callback that throws stops a
      `replace` or a loop: all values when every step succeeds, else the first step's error. */
  function Collect<T>(rs: seq<Result<T>>): (r: Result<seq<T>>)
    ensures r.Ok? <==> forall j :: 0 <= j < |rs| ==> rs[j].Ok?
    ensures r.Ok? ==> |r.value| == |rs| && forall j :: 0 <= j < |rs| ==> rs[j] == Ok(r.value[j])
    ensures r.Err? ==> exists j :: 0 <= j < |rs| && rs[j] == Err(r.error) && forall i :: 0 <= i < j ==> rs[i].Ok?
  {
    if |rs| == 0 then Ok([])
    else if rs[0].Err? then Err(rs[0].error)
    else
      var rest := Collect(rs[1..]);
      if rest.Err? then
        var j :| 0 <= j < |rs[1..]| && rs[1..][j] == Err(rest.error) && forall i :: 0 <= i < j ==> rs[1..][i].Ok?;
        assert rs[j + 1] == Err(rest.error) && forall i :: 0 <= i < j + 1 ==> rs[i].Ok?;
        Err(rest.error)
      else
        var r := [rs[0].value] + rest.value;
        assert forall j :: 0 < j < |rs| ==> rs[j] == rs[1..][j - 1];
        Ok(r)
  }
}
